=== FILE: README.md ===
# Scoring API and log analyzer, modelled in Dafny

This project models two pieces of the `otus-python-professional` repository.

**The scoring API** (`src/scoring_api/api.py`, `src/scoring_api/scoring.py`):
- the field validators;
- the `BaseRequest` construction machine and its three request classes;
- `check_auth`;
- the `method_handler` dispatcher, plus two rules of `do_POST`: a JSON `null` body is never routed, and an escaping exception becomes a 500;
- the Redis-backed `Store` with its retry decorator;
- `get_score` and `get_interests`.

**The log analyzer's pure logic** (`src/log_analyzer/reader.py`, `src/log_analyzer/stats.py` and their duplicates in `homeworks/01_log_analyzer/log_analyzer.py`):
- the file-name prefix filter;
- the choice of the newest log by its `YYYYMMDD` stamp;
- the per-line skip rules and URL extraction;
- grouping by URL, the stable descending sort, the `[:report_size]` cut;
- the `load_config` merge.

Modelling choices:
- Python values are the datatype `Values.Json`; `JNull` stands for `None`.
- `Values.PyValue` adds two cases to a JSON value: the class-level `Field` descriptor and a `datetime`.
- The descriptor case matters. A field that was absent or null is never `setattr`'d on the request instance. So `getattr(request, name, None)` finds the class attribute: a truthy object that is not a string. The model keeps this behaviour and proves its consequences:
  - the `None` test in `check_auth` is never taken (`Auth.NoneTestUnreachable`);
  - a user login without an account makes `check_auth` raise `TypeError`, which the transport turns into a 500 (`Api.MissingAccountIsServerError`);
  - `arguments: null` makes the nested request's `data.get` raise `AttributeError` (`Api.NullArgumentsRaise`);
  - a freshly computed score from the dispatcher is always 4.5 or 5 (`Api.DispatcherFreshScore`).
- Scores are counted in integer half-points: phone 3, email 3, birthday with gender 3, both names 1.
- The store is a map of strings plus a fault oracle. Each backend call consumes one slot of a sequence of optional faults.
- SHA-512, MD5, `json.loads` and `str` of floats, containers and datetimes are the foreign functions of `Values.Env`.
- The current hour string and "today" are parameters.
- Dates are `(year, month, day)` triples with Gregorian validity.
- The 70-year age bound subtracts calendar years. 29 February is clamped to 28 February, as `relativedelta` does.
- Log request times are naturals in a fixed unit. The statistics are therefore exact.
- The grouping is written for any key type, because it only compares URLs for equality.

Behaviour the code has and the model follows:
- The required-field message is spelled `"This field is requeired"`.
- `%d` and `%m` accept single digits (`1.2.2000`).
- `True` counts as an `int`:
  - as a phone it is refused because its text is `"True"`;
  - as a gender it is accepted;
  - as a client id it is accepted.
- A list or object given as a gender raises `TypeError`, because it is unhashable.
- A slice with a negative `report_size` drops rows from the end.
- `get_statistics_from_log_file` raises `ZeroDivisionError` when there are requests but their total time is zero.

## Model

| member | source | states |
|---|---|---|
| Text.DecimalElevenSeven | src/scoring_api/api.py:83-89 | `str(n)` of an integer has 11 characters and starts with `7` exactly when n lies in 70000000000..79999999999 |
| Text.SplitOnCount | src/scoring_api/api.py:73 | `split(sep)` yields one part more than there are separators |
| Text.StripEmpty | src/log_analyzer/reader.py:103-105 | a stripped line is empty exactly when the line is all whitespace |
| Text.NumeralOfNatural | src/scoring_api/scoring.py:89 | reading back the decimal text of a natural gives the natural |
| Calendar.YearsEarlier | src/scoring_api/api.py:114-115 | k calendar years earlier: same month, year minus k, day clamped to that month's length and otherwise kept; a year before 1 raises `ValueError` |
| Calendar.ParseDotted | src/scoring_api/api.py:97-98 | a string `strptime("%d.%m.%Y")` accepts denotes a valid date |
| Calendar.ParseFormatDotted | src/scoring_api/api.py:97-98 | every valid date written `dd.mm.yyyy` parses back to itself |
| Calendar.ParseDottedPieces | src/scoring_api/api.py:98 | day, month and year tokens joined by dots parse to the date they denote |
| Calendar.SingleDigitDayAndMonth | src/scoring_api/api.py:98 | a one-digit day and a one-digit month are accepted |
| Calendar.ParseCompact | src/log_analyzer/reader.py:69 | an accepted `%Y%m%d` stamp denotes a valid date |
| Calendar.ParseFormatCompact | src/log_analyzer/reader.py:69 | every valid date written `yyyymmdd` parses back to itself |
| Validators.CheckChar | src/scoring_api/api.py:57-60 | accepted exactly when the value is a string; otherwise the string message |
| Validators.CheckArguments | src/scoring_api/api.py:63-66 | accepted exactly when the value is a JSON object; otherwise the dictionary message |
| Validators.CheckEmail | src/scoring_api/api.py:69-75 | accepted exactly for a string with one `@` that is neither first nor last; a non-string fails the string check first |
| Validators.EmailSplit | src/scoring_api/api.py:73-75 | `split("@")` gives two non-empty parts exactly for that one-`@` shape |
| Validators.CheckPhone | src/scoring_api/api.py:78-89 | accepted exactly for an 11-character string starting with `7`, or an integer from 70000000000 to 79999999999; other types get the type message; a boolean gets the length message |
| Validators.PhoneTextShape | src/scoring_api/api.py:83-89 | `str(value)` has length 11 and leads with `7` exactly for those strings and integers |
| Validators.CheckDate | src/scoring_api/api.py:92-102 | accepted exactly for a string `strptime` parses; type message for a non-string, format message for an unparsable string |
| Validators.CheckBirthday | src/scoring_api/api.py:105-119 | accepted exactly when the date check passes and the birthday is strictly after today less 70 calendar years; a failing date check is passed through; a cutoff before year 1 raises |
| Validators.CheckGender | src/scoring_api/api.py:122-127 | accepted exactly for values equal to a key 0, 1 or 2 (including `False`, `True`, `0.0`, `1.0`, `2.0`); lists and objects raise `TypeError` |
| Validators.CheckClientIds | src/scoring_api/api.py:130-139 | accepted exactly for a non-empty list of integers; type message for a non-list, empty message for `[]`; it never raises |
| Validators.PassingValueTruthy | src/scoring_api/api.py:69-119 | a phone, email, date or birthday that validates is truthy |
| Validators.BirthdaySeventyYearsRejected | src/scoring_api/api.py:114-119 | a birthday exactly 70 years before today is refused with the age message |
| Validators.BirthdaySixtyNineYearsAccepted | src/scoring_api/api.py:114-119 | a birthday exactly 69 years before today is accepted |
| Validators.BirthdayLeapDayCutoff | src/scoring_api/api.py:114-119 | on 29 Feb 2024: 28 Feb 1954 is refused and 1 Mar 1954 is accepted |
| Requests.FieldStep | src/scoring_api/api.py:153-169 | a field is stored only with a non-`None` value |
| Requests.FirstFailure | src/scoring_api/api.py:152-169 | finds the first field in declaration order that records an error, and no earlier field records one |
| Requests.ValidateFields | src/scoring_api/api.py:152-169 | the field loop completes exactly when no field's validation raises something other than `ValidationError` |
| Requests.StoredFields | src/scoring_api/api.py:165-167 | exactly the fields that are present, non-null and valid are stored, each with its raw value; nothing else is stored |
| Requests.ErrorsNameFields | src/scoring_api/api.py:155-169 | every recorded error is keyed by a declared field |
| Requests.RecordedErrors | src/scoring_api/api.py:155-169 | a field has an error exactly when its step fails, and the error carries that step's message |
| Requests.FirstError | src/scoring_api/api.py:152-169 | the first error belongs to the first failing field; no failing field means no error |
| Requests.Build | src/scoring_api/api.py:142-172 | anything but a dict raises `AttributeError`; otherwise construction raises exactly when some validator raises |
| Requests.BuildErrors | src/scoring_api/api.py:171-186 | `is_valid` holds exactly when no field failed and, for the pair rule, a pair was stored; the first error is the first failing field's or the pair rule's; the pair error is only ever the sole error |
| Requests.FirstErrorEntry | src/scoring_api/api.py:152-186 | the first entry of an invalid request's errors is the first failing field with its own message, or the pair rule's error when no field failed |
| Requests.ValidClientIds | src/scoring_api/api.py:130-139 | a valid `ClientsInterestsRequest` holds its ids as a non-empty list, so the `len` and the loop over them never meet the descriptor |
| Requests.OnlineScoreValidity | src/scoring_api/api.py:217-232 | `OnlineScoreRequest` is valid exactly when no field failed and (phone, email), (first_name, last_name) or (gender, birthday) were all stored |
| Requests.Lookup | src/scoring_api/api.py:248-250 | `getattr(req, name, None)` is the stored value when there is one, else the class-level descriptor declared under that name |
| Requests.BuiltLookup | src/scoring_api/api.py:160-167 | after construction a field reads back as its kept value or as its descriptor, and never as `None` |
| Requests.KeptValuePassed | src/scoring_api/api.py:165-167 | a stored value is the raw value and passed its validator |
| Requests.NonEmptyFields | src/scoring_api/api.py:192-201 | lists exactly the declared fields stored with a value other than `None`, `""` or `[]`, in declaration order and each once |
| Requests.SchemasWellFormed | src/scoring_api/api.py:204-240 | each request class declares distinct names, and `arguments` is not a field of `OnlineScoreRequest` |
| Auth.MethodRequestFields | src/scoring_api/api.py:235-240 | `MethodRequest` declares account, login, token, arguments and method |
| Auth.CheckAuth | src/scoring_api/api.py:247-264 | false when login or token is `None`; the admin's token must be the SHA-512 of hour+"42"; anyone else's raises `TypeError` unless account (or `""`) and login are strings, and is otherwise matched against SHA-512 of account+login+"Otus"; a true result means the token is a string |
| Auth.UserToken | src/scoring_api/api.py:259-264 | for a user with string account and login, the answer is whether the token equals SHA-512(account+login+"Otus") |
| Auth.AttrOfBuilt | src/scoring_api/api.py:160-167 | each `MethodRequest` attribute is the raw value when kept, else the descriptor |
| Auth.LoginKept | src/scoring_api/api.py:165-167 | a string login is read back as given |
| Auth.MethodKept | src/scoring_api/api.py:165-167 | a string method is read back as given |
| Auth.ArgumentsAttr | src/scoring_api/api.py:160-167 | an object of arguments is read back as given; a null one reads as the descriptor |
| Auth.AccountUnset | src/scoring_api/api.py:155-163 | an absent or null account reads as the descriptor |
| Auth.NoneTestUnreachable | src/scoring_api/api.py:248-253 | after construction neither login nor token reads as `None` |
| Auth.MissingAccountRaises | src/scoring_api/api.py:260-263 | a non-admin login without an account makes `check_auth` raise `TypeError` |
| Store.RetryFrom | src/scoring_api/scoring.py:14-23 | from `retries` failures on: at most `max_retries` calls in all; every call but the last raised `ConnectionError`; the outcome is what the last call did; a re-raised connection error means every call failed |
| Store.Retry | src/scoring_api/scoring.py:10-27 | no call and `None` exactly when `max_retries <= 0`; otherwise 1..`max_retries` calls, the first value wins, a non-connection error escapes at once, and fewer calls than allowed means the last did not raise `ConnectionError` |
| Store.RetryDeterminedByAttempts | src/scoring_api/scoring.py:13-23 | the wrapper's result depends only on the outcomes of the calls it may make |
| Store.Get | src/scoring_api/scoring.py:45-52 | returns the stored string or `None`; fails exactly when a non-connection error comes after only connection errors, or three connection errors in a row; data unchanged |
| Store.CacheGet | src/scoring_api/scoring.py:54-60 | one call; any fault reads as `None`, else the stored string |
| Store.CacheSet | src/scoring_api/scoring.py:62-67 | a healthy call stores the value with its timeout; a faulty call changes nothing and does not raise; other keys are untouched |
| Store.GetMissing | tests/unit/scoring_api/test_store.py:16-20 | a key never stored reads as `None` |
| Store.GetRecoversAfterTwoConnectionErrors | src/scoring_api/scoring.py:15-22 | two connection errors and then a healthy call still return the stored value, after three calls |
| Store.CacheSetThenRead | tests/unit/scoring_api/test_store.py:35-44 | a value set by a healthy `cache_set` is what `cache_get` and `get` then return |
| Scoring.KeyPart | src/scoring_api/scoring.py:80-82 | a falsy argument contributes nothing to the key |
| Scoring.BirthdayKeyPart | src/scoring_api/scoring.py:83 | a `datetime` contributes a `yyyymmdd` stamp that parses back to it; anything else contributes nothing |
| Scoring.ScoreKey | src/scoring_api/scoring.py:79-85 | the key starts with `uid:` |
| Scoring.ScoreKeyInputs | src/scoring_api/scoring.py:79-85 | the key depends only on the names, the phone and a `datetime` birthday; email and gender never change it |
| Scoring.Points | src/scoring_api/scoring.py:93-101 | a computed score is at most 5, and 5 exactly when all six arguments count |
| Scoring.PointsAreDoubledScore | src/scoring_api/scoring.py:93-101 | half-points are twice the float sum of 1.5, 1.5, 1.5 and 0.5 contributions, which lies in [0, 5] |
| Scoring.ScoreText | src/scoring_api/scoring.py:104 | the cached text of a score has exactly one digit after its decimal point |
| Scoring.ScoreTextRoundTrip | src/scoring_api/scoring.py:88-104 | the text written to the cache reads back as the score written |
| Scoring.GetScore | src/scoring_api/scoring.py:70-105 | a healthy hit returns the cached text and writes nothing; otherwise the computed score is returned and, if the write succeeds, stored under the same key for 3600 s, while a failed write leaves data and timeouts exactly as they were; no other key changes |
| Scoring.GetScoreTwice | src/scoring_api/scoring.py:87-105 | on a healthy store a second call hits the cache, writes nothing, and returns the first call's score |
| Scoring.StrAll | src/scoring_api/scoring.py:116 | each element stringified, same length and order |
| Scoring.GetInterests | src/scoring_api/scoring.py:108-118 | reads `i:<cid>`; `[]` for a missing key, undecodable text or a non-list; else the list's elements stringified in order; store errors escape and data is unchanged |
| Scoring.InterestsOfStoredList | src/scoring_api/scoring.py:112-116 | a stored `[1, 2]` comes back as `["1", "2"]` |
| Api.ScoreAttr | src/scoring_api/api.py:300-305 | each score argument is a stored value or the descriptor |
| Api.ScoreArgsOf | src/scoring_api/api.py:298-306 | the arguments passed to `get_score` are well-typed, and the birthday among them is never a `datetime` (it stays the request's string or the descriptor) |
| Api.DispatcherKeyIgnoresBirthday | src/scoring_api/scoring.py:79-85 | the dispatcher's cache key never depends on the birthday: requests that agree on names and phone share a key |
| Api.ScoreAttrOfBuilt | src/scoring_api/api.py:298-306 | no score argument is `None`, and phone, email and birthday are truthy |
| Api.ScoreArgsOfBuilt | src/scoring_api/api.py:298-306 | phone, email and birthday are truthy and gender is not `None` whatever the request held |
| Api.FreshPoints | src/scoring_api/scoring.py:93-101 | with phone, email and the birthday-gender pair counting, the score is 4.5 or 5 |
| Api.OnlineScoreFresh | src/scoring_api/api.py:298-307 | the `online_score` branch computes only 4.5 or 5 |
| Api.DispatcherFreshScore | src/scoring_api/api.py:267-308 | any freshly computed score the dispatcher returns is 4.5 or 5 |
| Api.ScoreRoute | src/scoring_api/api.py:285-307 | a score answer comes only from a valid, authenticated `online_score` request, built from its own arguments with its admin flag |
| Api.CollectInterests | src/scoring_api/api.py:324-327 | the interests loop leaves the stored data unchanged, and on a store with no faults it always completes |
| Api.IdKeys | src/scoring_api/api.py:326 | the keys are exactly the `str(cid)` of the ids |
| Api.SameNameSameInterests | src/scoring_api/scoring.py:109 | ids written the same way read the same interests |
| Api.CollectKeepsOthers | src/scoring_api/api.py:324-327 | a key no id writes keeps its earlier value |
| Api.CollectKeys | src/scoring_api/api.py:324-327 | the answer has exactly one key per distinct `str(cid)` |
| Api.CollectedInterests | src/scoring_api/api.py:324-327 | each id's entry is the interests stored for it, even when a later duplicate overwrites it |
| Api.CollectedFirst | src/scoring_api/api.py:324-327 | the first id's entry is the interests stored for it |
| Api.OnlineScore | src/scoring_api/api.py:285-308 | raises exactly when building the `OnlineScoreRequest` raises; 200 exactly when it is valid, else 422 with a message and context and store untouched; on 200 the context's `has` is the non-empty fields, the admin gets 42 with the store untouched, and anyone else gets `get_score`'s answer on the request's arguments together with the store `get_score` leaves |
| Api.OnlineScoreInvalid | src/scoring_api/api.py:285-290 | invalid score arguments are answered with 422 and the method name plus the first failing field and its message, or the pair rule's error |
| Api.ClientsInterests | src/scoring_api/api.py:310-328 | 200 with an interests map exactly when the request is valid, else 422 with a message and context and store untouched; the stored data never changes; on a store with no faults a request that can be built is always answered |
| Api.ClientsInterestsInvalid | src/scoring_api/api.py:310-315 | invalid `clients_interests` arguments are answered with 422 and the method name plus the first failing field and its message |
| Api.MethodHandler | src/scoring_api/api.py:267-333 | a non-object body raises `AttributeError`; codes are 200, 403, 404 or 422; every non-200 answer is a message with the store untouched; only a score answer can write to the store |
| Api.Dispatch | src/scoring_api/api.py:281-333 | routing answers 200, 404 or 422; non-200 is a message with the store untouched |
| Api.Authorized | src/scoring_api/api.py:270-283 | a valid, authenticated envelope reaches routing |
| Api.Serve | src/scoring_api/api.py:344-380 | a `null` body is not routed and gets the empty response with 200; otherwise 500 with "Internal Server Error" exactly when the handler raises, and the handler's answer, code, context and store unchanged when it does not |
| Api.InvalidEnvelope | src/scoring_api/api.py:270-275 | an invalid envelope gets 422 with its first failing field's error, before authentication and without the store |
| Api.ForbiddenBeforeDispatch | src/scoring_api/api.py:277-279 | a valid envelope with a wrong token gets 403 whatever its method |
| Api.UnknownMethod | src/scoring_api/api.py:330-331 | an authenticated unknown method gets 404 with context and store untouched |
| Api.AdminScoreLeavesStore | src/scoring_api/api.py:295-296 | the admin's successful `online_score` answers 42 and leaves the store alone |
| Api.AdminDispatch | src/scoring_api/api.py:295-296 | routing an admin `online_score` answers 42 without a store access |
| Api.NullArgumentsRaise | src/scoring_api/api.py:281-311 | authenticated `arguments: null` for either method raises `AttributeError`, answered with 500 |
| Api.NullArgumentsDispatch | src/scoring_api/api.py:285-311 | routing with the descriptor as arguments raises `AttributeError` |
| Api.MissingAccountIsServerError | src/scoring_api/api.py:377-380 | a valid user envelope without an account is answered with 500 |
| Api.ClientsInterestsAnswer | src/scoring_api/api.py:317-327 | one key per distinct `str(cid)`, each with that id's stored interests, and `nclients` is the number of ids |
| Api.RoutesClientsInterests | src/scoring_api/api.py:310-311 | an authenticated `clients_interests` call runs that branch on its arguments object |
| LogFiles.LogFilePaths | src/log_analyzer/reader.py:46-50 | exactly the regular files whose name starts with `nginx-access-ui` |
| LogFiles.Anchored | src/log_analyzer/reader.py:63 | `$` matches at the end or before one final newline |
| LogFiles.DateStamp | src/log_analyzer/reader.py:63-67 | a captured stamp is eight digits after a dash, at the end or before `.gz` |
| LogFiles.FileDate | src/log_analyzer/reader.py:63-69 | a name's date, when there is one, is valid |
| LogFiles.FileDateOfStamp | src/log_analyzer/reader.py:63-69 | a name ending in dash, eight digits and optional `.gz` carries the date those digits spell |
| LogFiles.FileDateOfName | src/log_analyzer/reader.py:63-69 | a name built from a formatted date carries that date |
| LogFiles.InvalidStampSkipped | src/log_analyzer/reader.py:68-76 | a stamp that is not a calendar date (31 June) gives no date |
| LogFiles.JuneThirtyFirst | src/log_analyzer/reader.py:69 | `20170631` is not accepted by `strptime` |
| LogFiles.OtherSuffixSkipped | src/log_analyzer/reader.py:63-65 | any suffix other than `.gz` hides the stamp |
| LogFiles.LatestBy | homeworks/01_log_analyzer/log_analyzer.py:107-130 | `(None, None)` exactly when no file is dated; otherwise a listed file with the newest date, the earliest such on ties |
| LogFiles.LatestLogFile | src/log_analyzer/reader.py:55-78 | the same for the dates in file names; the returned date is valid and is the one in the returned name |
| LogLines.MethodAt | src/log_analyzer/reader.py:31-33 | the known method a request starts with, if any |
| LogLines.UrlAfter | src/log_analyzer/reader.py:32 | the URL after a method is a non-empty run without whitespace |
| LogLines.MethodUrl | src/log_analyzer/reader.py:117-119 | a pattern URL exists only after a known method and has no whitespace |
| LogLines.ExtractUrl | src/log_analyzer/reader.py:115-123 | the pattern's URL when it matches, else the second token, else the whole request |
| LogLines.UrlAfterIsSecondToken | src/log_analyzer/reader.py:117-123 | the pattern's URL is the request's second token |
| LogLines.UrlIsSecondToken | homeworks/01_log_analyzer/log_analyzer.py:188-196 | the URL is always the second whitespace token, or the whole request when there is none |
| LogLines.MethodsHaveNoSpace | src/log_analyzer/reader.py:31-33 | no known method contains whitespace |
| LogLines.WordsOfWordThenSpace | src/log_analyzer/reader.py:122 | `split()` of a word, whitespace and more text is the word and the rest's words |
| LogLines.RequestUrl | tests/test_reader.py:5-17 | `METHOD path version` gives `path` |
| LogLines.LineEntry | src/log_analyzer/reader.py:101-129 | a blank line yields nothing; a line yields an entry exactly when it matches and its time converts, and the entry is its URL and time |
| LogLines.FilterMap | src/log_analyzer/reader.py:101-129 | never more entries than lines |
| LogLines.ReadLines | src/log_analyzer/reader.py:99-133 | never more entries than lines |
| LogLines.EntriesComeFromLines | src/log_analyzer/reader.py:101-129 | every entry comes from some line, and every line that yields an entry contributes it |
| LogLines.ReadLinesAppend | src/log_analyzer/reader.py:101-129 | reading lines in two runs yields the entries of each, in order |
| LogLines.BlankLinesYieldNothing | src/log_analyzer/reader.py:103-105 | whitespace-only lines yield nothing |
| LogLines.SingleLine | tests/test_reader.py:5-17 | one well-formed line yields exactly one entry with its path and time |
| Stats.MaxOfIsMaximum | src/log_analyzer/stats.py:28 | the maximum bounds every time of the URL and is attained |
| Stats.Absorb | src/log_analyzer/stats.py:16-22 | a known URL keeps its position, a new one is appended, and other groups are unchanged |
| Stats.Group | src/log_analyzer/stats.py:12-22 | a well-formed dictionary with a group for every input URL |
| Stats.GroupSnoc | src/log_analyzer/stats.py:16-20 | grouping one more hit absorbs it into the groups so far |
| Stats.GroupKeysOccur | src/log_analyzer/stats.py:16-20 | every group's URL occurs in the input |
| Stats.GroupAggregates | src/log_analyzer/stats.py:25-30 | each group holds its URL's count, time sum and largest time |
| Stats.GroupOrder | src/log_analyzer/stats.py:16-25 | groups are in first-seen order |
| Stats.GroupCount | src/log_analyzer/stats.py:24-32 | one group per distinct URL |
| Stats.RowsOf | src/log_analyzer/stats.py:24-40 | one row per group, in dictionary order, with that group's values |
| Stats.Insert | src/log_analyzer/stats.py:42 | inserting keeps the order, and the rows are the old rows plus the new one |
| Stats.SortDesc | src/log_analyzer/stats.py:42 | the result is a permutation of the rows, ordered by time sum, largest first |
| Stats.InsertKeepsTies | src/log_analyzer/stats.py:42 | a row inserted last stays after equal sums |
| Stats.SortKeepsTies | src/log_analyzer/stats.py:42 | the sort is stable: equal sums keep input order |
| Stats.SliceTo | src/log_analyzer/stats.py:44 | `[:n]` is a prefix of length min(n, len), or len+n (at least 0) for negative n |
| Stats.ReportOf | src/log_analyzer/stats.py:42-52 | the report is sorted and is a prefix of all groups sorted |
| Stats.RankedCovers | src/log_analyzer/stats.py:24-32 | every input URL has a row |
| Stats.RankedAggregates | src/log_analyzer/stats.py:26-33 | every row's URL occurs, and the row holds its count, time sum and largest time |
| Stats.RankedOrder | src/log_analyzer/stats.py:42 | rows run from largest sum to smallest, and equal sums keep first-seen order |
| Stats.RankedDistinct | src/log_analyzer/stats.py:24-52 | no URL has two rows |
| Stats.AbsorbTotals | src/log_analyzer/stats.py:20-22 | one hit adds one request and its time to the totals |
| Stats.GroupTotals | src/log_analyzer/stats.py:16-22 | the groups' counts sum to the number of requests and their sums to the total time |
| Stats.RankedTotals | src/log_analyzer/stats.py:33-36 | the same after sorting, so the shares of `count_perc` and `time_perc` cover everything |
| Stats.ReportIsTop | src/log_analyzer/stats.py:44 | the report length is min(report_size, distinct URLs) for non-negative sizes, and no row left out outranks one kept |
| Stats.Statistics | src/log_analyzer/stats.py:6-52 | `ZeroDivisionError` exactly when there are requests and all times are zero; otherwise the report (the homework copy of the function behaves the same) |
| Stats.TimeOfZero | src/log_analyzer/stats.py:36 | the total time is zero exactly when every time is zero |
| Stats.TimeAvg | src/log_analyzer/stats.py:26 | the mean times the count is the sum |
| Stats.SumAtMostCountTimesMax | src/log_analyzer/stats.py:26-29 | a URL's sum is at most its count times its largest time |
| Stats.MaxAtMostSum | src/log_analyzer/stats.py:28-29 | the largest time is at most the sum |
| Stats.RankedAvgBounds | src/log_analyzer/stats.py:26-29 | in every row the mean is at most the maximum, and the maximum at most the sum |
| Stats.Hits | src/log_analyzer/stats.py:16-18 | each entry becomes a hit with its URL and time |
| Stats.TwoUrls | tests/test_stats.py:4-17 | /a (1, 2) and /b (3) give rows /a with count 2, sum 3 and mean 1.5, then /b |
| Stats.TwoUrlsGrouped | tests/test_stats.py:5-11 | those hits group into /a (2, 3, 2) and /b (1, 3, 3) |
| Stats.SortPair | src/log_analyzer/stats.py:42 | two rows already largest-first, or tied, stay in place |
| Stats.NoRequests | src/log_analyzer/stats.py:24-25 | no requests give no rows and no error |
| Config.MergeConfig | homeworks/01_log_analyzer/log_analyzer.py:83-85 | every key of defaults or file; the file's value wins |
| Config.LoadConfig | homeworks/01_log_analyzer/log_analyzer.py:77-85 | an empty document gives the defaults; otherwise the merge |
| Config.DefaultsAlwaysPresent | homeworks/01_log_analyzer/log_analyzer.py:47-51 | REPORT_SIZE, REPORT_DIR and LOG_DIR are always in the result |
| Config.MergeIdempotent | homeworks/01_log_analyzer/log_analyzer.py:83-85 | merging the same file again changes nothing; an empty file gives the defaults |
| Config.ReportSizeOverride | homeworks/01_log_analyzer/log_analyzer.py:83-85 | a file setting only REPORT_SIZE overrides it and keeps both directories |

## Left out

- The HTTP transport is not modelled: `MainHTTPHandler`, Content-Length, JSON body decoding, the 400 and unknown-path 404 answers, request ids, logging and the server start-up. Only the rule that a `null` body is not routed and the rule that an exception from the router becomes a 500 are kept (`Api.Serve`).
- The real Redis client, socket timeouts and `time.sleep` between retries are not modelled. They are I/O and wall-clock time. The backend is a map plus a fault sequence.
- Store.CacheSet: records the timeout but does not model expiry, because expiry needs a clock.
- SHA-512, MD5, `json.loads`, `json.dumps`, `datetime.now()` and `date.today()` are not modelled. They are foreign library calls. They are parameters or fields of `Values.Env`.
- Scoring.GetScore: returns the cached text itself. `float()` of that text is not modelled, because it is float parsing. `Scoring.ScoreTextRoundTrip` covers the texts the service writes.
- Api.MethodHandler: a cached text under `uid:<md5>` that is not a float literal makes `float(score)` raise `ValueError`. The source then answers 500; the model answers 200 with `Cached(text)`, because float parsing is not modelled.
- Api.Serve: the same cached-text case is not counted among the 500 answers, for the same reason.
- Api.Serve: when the store raises inside the `clients_interests` loop, the source's context already holds `nclients`, because it is set in place before the loop. The model's 500 answer carries the incoming context, because an exception result does not carry the handler's partial updates. The answer's code and message are as in the source.
- Api.Serve: a login, account, name or phone holding a lone surrogate (`"\ud800"`, which `json.loads` accepts) makes `.encode("utf-8")` raise `UnicodeEncodeError` in `check_auth` or in the score key, and the source answers 500. Dafny strings cannot hold such a value, so this input cannot be expressed in the model.
- Stats.SortDesc: sorts on the exact integer time sum. The source sorts on `round(time_sum, 2)` of a float sum. Sums that differ only below the second decimal can therefore be ordered differently.
- `count_perc`, `time_perc`, `time_avg`, `time_med`, `time_max` rounding and `float(request_time)` are not modelled. They are floating-point numerics. Only the exact mean is kept (`Stats.TimeAvg`).
- LogLines.LineEntry: the nginx line pattern is the abstract parameter `parse`. The full regular expression is not modelled.
- Calendar.ParseDotted: reads ASCII digits only. Python's `\d` and `strptime` also accept other Unicode decimal digits.
- LogFiles.DateStamp: reads ASCII digits only, for the same reason.
- File opening, gzip, directory iteration and the directory-exists check in `get_log_files_paths` are not modelled. They are file I/O.
- The homework `read_log_file` catches every exception and prints it. That is I/O and is not modelled.
- Config.LoadConfig: takes the loaded document as a mapping or as nothing. A YAML document that is a list or a scalar makes `dict.update` fail or misbehave; that is not modelled. YAML parsing and the file-exists check are file I/O.
- In the `clients_interests` branch the admin's `response = {"score": 42}` is overwritten straight away. It is not modelled because it has no effect.
- `src/log_analyzer/report.py`, `main.py` and the `src/common` modules are not part of this model. They are template writing, orchestration, logging, argparse and path probing.

=== FILE: api.dfy ===
/** `method_handler`, the dispatcher of the scoring API, and the transport's
    rule that an escaping exception becomes a 500 response. */
module Api {
  import opened Outcomes
  import opened Calendar
  import opened Values
  import opened Validators
  import opened Requests
  import opened Auth
  import opened Store
  import opened Scoring

  const OK := 200
  const FORBIDDEN := 403
  const NOT_FOUND := 404
  const INVALID_REQUEST := 422
  const INTERNAL_ERROR := 500

  const ForbiddenMsg := "Forbidden"
  const MethodNotFoundMsg := "Method not found"
  const InternalErrorMsg := "Internal Server Error"

  const OnlineScoreMethod := "online_score"
  const ClientsInterestsMethod := "clients_interests"

  /** The first element of the pair `method_handler` returns. */
  datatype Response =
    | Message(text: string)
    | ScoreResponse(score: ScoreReply)
    | AdminScore
    | InterestsResponse(interests: map<string, seq<string>>)
    | EmptyResponse

  /** The keys `method_handler` may set in the request context. */
  datatype Context = Context(has: Option<seq<string>>, nclients: Option<nat>)

  /** A response, its status code, and the context and store afterwards. */
  datatype Handled = Handled(response: Response, code: int, ctx: Context, store: Backend)

  function EnvelopeErrorText(e: (string, string)): string {
    "Validation Error in field '" + e.0 + "': " + e.1
  }

  function ArgumentsErrorText(methodName: string, e: (string, string)): string {
    "Validation Error in arguments for '" + methodName + "': Field '" + e.0 + "' - " + e.1
  }

  /** `getattr(request, name, None)` on a built `OnlineScoreRequest`. */
  function ScoreAttr(r: Request, name: string): (v: PyValue)
    requires name in {"first_name", "last_name", "email", "phone", "birthday", "gender"}
    ensures v.Val? || v.FieldObject?
  {
    assert OnlineScoreSchema.decls[0].name == "first_name";
    assert OnlineScoreSchema.decls[1].name == "last_name";
    assert OnlineScoreSchema.decls[2].name == "email";
    assert OnlineScoreSchema.decls[3].name == "phone";
    assert OnlineScoreSchema.decls[4].name == "birthday";
    assert OnlineScoreSchema.decls[5].name == "gender";
    Lookup(OnlineScoreSchema, r, name)
  }

  /** The keyword arguments the dispatcher passes to `get_score`. The
      birthday is the request's `dd.mm.yyyy` string or the descriptor, never a
      `datetime`. */
  function ScoreArgsOf(r: Request): (a: ScoreArgs)
    ensures WellTyped(a)
    ensures !a.birthday.DateTime?
  {
    ScoreArgs(ScoreAttr(r, "phone"), ScoreAttr(r, "email"), ScoreAttr(r, "birthday"),
              ScoreAttr(r, "gender"), ScoreAttr(r, "first_name"), ScoreAttr(r, "last_name"))
  }

  /** The dispatcher's cache key never depends on the birthday: requests
      that agree on the names and the phone share a key, because the birthday
      they pass is never a `datetime`. */
  lemma DispatcherKeyIgnoresBirthday(env: Env, r1: Request, r2: Request)
    requires ScoreAttr(r1, "first_name") == ScoreAttr(r2, "first_name")
    requires ScoreAttr(r1, "last_name") == ScoreAttr(r2, "last_name")
    requires ScoreAttr(r1, "phone") == ScoreAttr(r2, "phone")
    ensures ScoreKey(env, ScoreArgsOf(r1)) == ScoreKey(env, ScoreArgsOf(r2))
  {
    ScoreKeyInputs(env, ScoreArgsOf(r1), ScoreArgsOf(r2));
  }

  /** The loop `interests[str(cid)] = get_interests(store, cid)` over the
      client ids, in order; an error of the store escapes. A store fault can
      make the loop raise but never changes what it returns: each id's entry
      is the interests stored for it. */
  function CollectInterests(env: Env, b: Backend, ids: seq<Json>, acc: map<string, seq<string>>)
    : (r: Result<(map<string, seq<string>>, Backend)>)
    ensures r.Ok? ==> r.value.1.data == b.data
    ensures (forall k: nat :: FaultAt(b, k).None?) ==> r.Ok?
    decreases |ids|
  {
    if |ids| == 0 then Ok((acc, b))
    else
      var step := GetInterests(env, b, Val(ids[0]));
      if step.0.Err? then Err(step.0.exc)
      else
        CollectInterests(env, step.1, ids[1..], acc[Str(env, Val(ids[0])) := step.0.value])
  }

  lemma IdKeysCons(env: Env, ids: seq<Json>)
    requires |ids| > 0
    ensures IdKeys(env, ids) == {Str(env, Val(ids[0]))} + IdKeys(env, ids[1..])
  {
  }

  /** Ids written the same way read the same stored interests. */
  lemma SameNameSameInterests(env: Env, data: map<string, string>, c1: PyValue, c2: PyValue)
    requires Str(env, c1) == Str(env, c2)
    ensures StoredInterests(env, data, c1) == StoredInterests(env, data, c2)
  {
    assert InterestsKey(env, c1) == InterestsKey(env, c2);
  }

  /** A key no id writes keeps the value it had before the loop. */
  lemma {:induction false} CollectKeepsOthers(env: Env, b: Backend, ids: seq<Json>,
                                              acc: map<string, seq<string>>, key: string)
    requires CollectInterests(env, b, ids, acc).Ok?
    requires key in acc && key !in IdKeys(env, ids)
    ensures var m := CollectInterests(env, b, ids, acc).value.0;
      key in m && m[key] == acc[key]
    decreases |ids|
  {
    if |ids| > 0 {
      var step := GetInterests(env, b, Val(ids[0]));
      assert Str(env, Val(ids[0])) != key;
      CollectKeepsOthers(env, step.1, ids[1..], acc[Str(env, Val(ids[0])) := step.0.value], key);
    }
  }

  /** The loop answers exactly the keys it started with and one per id. */
  lemma {:induction false} CollectKeys(env: Env, b: Backend, ids: seq<Json>, acc: map<string, seq<string>>)
    requires CollectInterests(env, b, ids, acc).Ok?
    ensures CollectInterests(env, b, ids, acc).value.0.Keys == acc.Keys + IdKeys(env, ids)
    decreases |ids|
  {
    if |ids| > 0 {
      var step := GetInterests(env, b, Val(ids[0]));
      var acc1 := acc[Str(env, Val(ids[0])) := step.0.value];
      assert CollectInterests(env, b, ids, acc) == CollectInterests(env, step.1, ids[1..], acc1);
      CollectKeys(env, step.1, ids[1..], acc1);
      IdKeysCons(env, ids);
    }
  }

  /** A store fault can make the loop raise but never changes what it
      returns: each id's entry is the interests stored for it. */
  lemma {:induction false} CollectedInterests(env: Env, b: Backend, ids: seq<Json>, acc: map<string, seq<string>>)
    requires CollectInterests(env, b, ids, acc).Ok?
    ensures var m := CollectInterests(env, b, ids, acc).value.0;
      forall k | 0 <= k < |ids| ::
        Str(env, Val(ids[k])) in m && m[Str(env, Val(ids[k]))] == StoredInterests(env, b.data, Val(ids[k]))
    decreases |ids|, 1
  {
    if |ids| > 0 {
      var step := GetInterests(env, b, Val(ids[0]));
      var acc1 := acc[Str(env, Val(ids[0])) := step.0.value];
      var rest := CollectInterests(env, step.1, ids[1..], acc1);
      assert CollectInterests(env, b, ids, acc) == rest;
      CollectedInterests(env, step.1, ids[1..], acc1);
      CollectedFirst(env, b, ids, acc);
      var m := rest.value.0;
      forall k | 0 < k < |ids|
        ensures Str(env, Val(ids[k])) in m && m[Str(env, Val(ids[k]))] == StoredInterests(env, b.data, Val(ids[k]))
      {
        assert ids[k] == ids[1..][k - 1];
      }
    }
  }

  /** The entry of the first id: the interests stored for it, whether a
      later id with the same name overwrites it or not. */
  lemma {:induction false} CollectedFirst(env: Env, b: Backend, ids: seq<Json>, acc: map<string, seq<string>>)
    requires |ids| > 0 && CollectInterests(env, b, ids, acc).Ok?
    ensures var m := CollectInterests(env, b, ids, acc).value.0;
      Str(env, Val(ids[0])) in m && m[Str(env, Val(ids[0]))] == StoredInterests(env, b.data, Val(ids[0]))
    decreases |ids|, 0
  {
    var step := GetInterests(env, b, Val(ids[0]));
    var key := Str(env, Val(ids[0]));
    var acc1 := acc[key := step.0.value];
    var rest := CollectInterests(env, step.1, ids[1..], acc1);
    assert CollectInterests(env, b, ids, acc) == rest;
    var m := rest.value.0;
    if key in IdKeys(env, ids[1..]) {
      var j :| 0 <= j < |ids[1..]| && Str(env, Val(ids[1..][j])) == key;
      CollectedInterests(env, step.1, ids[1..], acc1);
      SameNameSameInterests(env, b.data, Val(ids[1..][j]), Val(ids[0]));
    } else {
      CollectKeepsOthers(env, step.1, ids[1..], acc1, key);
    }
  }

  /** The keys `str(cid)` of the ids. */
  function IdKeys(env: Env, ids: seq<Json>): (keys: set<string>)
    ensures forall k | 0 <= k < |ids| :: Str(env, Val(ids[k])) in keys
    ensures forall key | key in keys :: exists k | 0 <= k < |ids| :: Str(env, Val(ids[k])) == key
  {
    if |ids| == 0 then {}
    else
      var rest := IdKeys(env, ids[1..]);
      assert forall k | 1 <= k < |ids| :: ids[1..][k - 1] == ids[k];
      {Str(env, Val(ids[0]))} + rest
  }

  /** The `online_score` branch of `method_handler`: build the
      `OnlineScoreRequest`, record its non-empty fields in the context, and
      answer 42 for the admin or the score `get_score` gives. */
  function OnlineScore(env: Env, today: Date, admin: bool, arguments: PyValue, ctx: Context, b: Backend)
    : (r: Result<Handled>)
    requires Valid(today)
    ensures r.Ok? ==> r.value.code in {OK, INVALID_REQUEST}
    ensures r.Ok? && r.value.code == INVALID_REQUEST ==> r.value.response.Message? && r.value.store == b
    ensures r.Ok? && r.value.code == OK ==> (if admin then r.value.response == AdminScore && r.value.store == b
                                           else r.value.response.ScoreResponse?)
    ensures r.Err? <==> Build(OnlineScoreSchema, arguments, today).Err?
    ensures r.Ok? ==> (r.value.code == OK <==> IsValid(Build(OnlineScoreSchema, arguments, today).value))
    ensures r.Ok? && r.value.code == INVALID_REQUEST ==> r.value.ctx == ctx
    ensures r.Ok? && r.value.code == OK ==>
      var sr := Build(OnlineScoreSchema, arguments, today).value;
      && r.value.ctx == ctx.(has := Some(NonEmptyFields(OnlineScoreSchema.decls, sr)))
      && (!admin ==> var scored := GetScore(env, b, ScoreArgsOf(sr));
                     r.value.response == ScoreResponse(scored.0) && r.value.store == scored.1)
  {
    SchemasWellFormed();
    var sr :- Build(OnlineScoreSchema, arguments, today);
    if !IsValid(sr) then
      Ok(Handled(Message(ArgumentsErrorText(OnlineScoreMethod, sr.errors[0])), INVALID_REQUEST, ctx, b))
    else
      var ctx1 := ctx.(has := Some(NonEmptyFields(OnlineScoreSchema.decls, sr)));
      if admin then Ok(Handled(AdminScore, OK, ctx1, b))
      else
        var scored := GetScore(env, b, ScoreArgsOf(sr));
        Ok(Handled(ScoreResponse(scored.0), OK, ctx1, scored.1))
  }

  /** Invalid arguments to `online_score` are answered with 422 naming the
      method and the first entry of the request's errors: the first failing
      field with its message, or the pair rule's error. */
  lemma OnlineScoreInvalid(env: Env, today: Date, admin: bool, args: map<string, Json>, ctx: Context, b: Backend)
    requires Valid(today)
    requires Build(OnlineScoreSchema, Val(JObj(args)), today).Ok?
    requires !IsValid(Build(OnlineScoreSchema, Val(JObj(args)), today).value)
    ensures OnlineScore(env, today, admin, Val(JObj(args)), ctx, b)
            == Ok(Handled(Message(ArgumentsErrorText(OnlineScoreMethod, FirstErrorOf(OnlineScoreSchema, args, today))),
                          INVALID_REQUEST, ctx, b))
  {
    SchemasWellFormed();
    FirstErrorEntry(OnlineScoreSchema, args, today);
  }

  /** The `clients_interests` branch of `method_handler`: build the
      `ClientsInterestsRequest`, record the number of ids in the context, and
      answer the interests of every id. */
  function ClientsInterests(env: Env, today: Date, arguments: PyValue, ctx: Context, b: Backend)
    : (r: Result<Handled>)
    requires Valid(today)
    ensures r.Ok? ==> r.value.code in {OK, INVALID_REQUEST} && r.value.store.data == b.data
    ensures r.Ok? && r.value.code == INVALID_REQUEST ==> r.value.response.Message? && r.value.store == b
    ensures r.Ok? && r.value.code == OK ==> r.value.response.InterestsResponse?
    ensures r.Ok? ==> Build(ClientsInterestsSchema, arguments, today).Ok?
    ensures r.Ok? ==> (r.value.code == OK <==> IsValid(Build(ClientsInterestsSchema, arguments, today).value))
    ensures r.Ok? && r.value.code == INVALID_REQUEST ==> r.value.ctx == ctx
    ensures Build(ClientsInterestsSchema, arguments, today).Ok? && (forall k: nat :: FaultAt(b, k).None?) ==> r.Ok?
  {
    SchemasWellFormed();
    var ir :- Build(ClientsInterestsSchema, arguments, today);
    if !IsValid(ir) then
      Ok(Handled(Message(ArgumentsErrorText(ClientsInterestsMethod, ir.errors[0])), INVALID_REQUEST, ctx, b))
    else
      ValidClientIds(arguments.json.fields, today);
      var ids := Lookup(ClientsInterestsSchema, ir, "client_ids");
      // `len` and iteration of a class-level descriptor raise `TypeError`;
      // a valid request never gets here.
      if !(ids.Val? && ids.json.JList?) then Err(TypeError)
      else
        var ctx1 := ctx.(nclients := Some(|ids.json.items|));
        var collected :- CollectInterests(env, b, ids.json.items, map[]);
        Ok(Handled(InterestsResponse(collected.0), OK, ctx1, collected.1))
  }

  /** Invalid arguments to `clients_interests` are answered with 422 naming
      the method and the first failing field with its message. */
  lemma ClientsInterestsInvalid(env: Env, today: Date, args: map<string, Json>, ctx: Context, b: Backend)
    requires Valid(today)
    requires Build(ClientsInterestsSchema, Val(JObj(args)), today).Ok?
    requires !IsValid(Build(ClientsInterestsSchema, Val(JObj(args)), today).value)
    ensures ClientsInterests(env, today, Val(JObj(args)), ctx, b)
            == Ok(Handled(Message(ArgumentsErrorText(ClientsInterestsMethod, FirstErrorOf(ClientsInterestsSchema, args, today))),
                          INVALID_REQUEST, ctx, b))
  {
    SchemasWellFormed();
    FirstErrorEntry(ClientsInterestsSchema, args, today);
  }

  /** `method_handler(request, ctx, store)` on a request whose `"body"` is
      `body`: the envelope is validated, then authenticated, then dispatched
      on the method name. */
  function MethodHandler(env: Env, hour: string, today: Date, body: Json, ctx: Context, b: Backend)
    : (r: Result<Handled>)
    requires Valid(today)
    ensures !body.JObj? ==> r == Err(AttributeError)
    ensures r.Ok? ==> r.value.code in {OK, FORBIDDEN, NOT_FOUND, INVALID_REQUEST}
    ensures r.Ok? && r.value.code != OK ==> r.value.response.Message? && r.value.store == b
    ensures r.Ok? ==> r.value.store.data == b.data || r.value.response.ScoreResponse?
  {
    SchemasWellFormed();
    var mr :- Build(MethodRequestSchema, Val(body), today);
    if !IsValid(mr) then Ok(Handled(Message(EnvelopeErrorText(mr.errors[0])), INVALID_REQUEST, ctx, b))
    else
      var authorized :- CheckAuth(env, hour, mr);
      if !authorized then Ok(Handled(Message(ForbiddenMsg), FORBIDDEN, ctx, b))
      else Dispatch(env, today, mr, ctx, b)
  }

  /** The routing step of `method_handler` once the envelope is valid and
      authenticated: the method name picks the branch, and any other name is
      answered with 404. */
  function Dispatch(env: Env, today: Date, mr: Request, ctx: Context, b: Backend): (r: Result<Handled>)
    requires Valid(today)
    ensures r.Ok? ==> r.value.code in {OK, NOT_FOUND, INVALID_REQUEST}
    ensures r.Ok? && r.value.code != OK ==> r.value.response.Message? && r.value.store == b
    ensures r.Ok? ==> r.value.store.data == b.data || r.value.response.ScoreResponse?
  {
    var methodName, arguments := Attr(mr, "method"), Attr(mr, "arguments");
    if methodName == Val(JStr(OnlineScoreMethod)) then OnlineScore(env, today, IsAdmin(mr), arguments, ctx, b)
    else if methodName == Val(JStr(ClientsInterestsMethod)) then ClientsInterests(env, today, arguments, ctx, b)
    else Ok(Handled(Message(MethodNotFoundMsg), NOT_FOUND, ctx, b))
  }

  /** A valid and authenticated envelope goes to the routing step. */
  lemma Authorized(env: Env, hour: string, today: Date, data: map<string, Json>, ctx: Context, b: Backend)
    requires Valid(today)
    requires Build(MethodRequestSchema, Val(JObj(data)), today).Ok?
    requires IsValid(Build(MethodRequestSchema, Val(JObj(data)), today).value)
    requires CheckAuth(env, hour, Build(MethodRequestSchema, Val(JObj(data)), today).value) == Ok(true)
    ensures MethodHandler(env, hour, today, JObj(data), ctx, b)
            == Dispatch(env, today, Build(MethodRequestSchema, Val(JObj(data)), today).value, ctx, b)
  {
  }

  /** `do_POST` once the body has been decoded: a JSON `null` body is never
      routed and keeps the initial empty response with code 200; any other
      body goes to the router, and an exception escaping it becomes
      `"Internal Server Error"` with code 500. */
  function Serve(env: Env, hour: string, today: Date, body: Json, ctx: Context, b: Backend): (h: Handled)
    requires Valid(today)
    ensures h.code in {OK, FORBIDDEN, NOT_FOUND, INVALID_REQUEST, INTERNAL_ERROR}
    ensures body == JNull ==> h == Handled(EmptyResponse, OK, ctx, b)
    ensures h.code == INTERNAL_ERROR <==> body != JNull && MethodHandler(env, hour, today, body, ctx, b).Err?
    ensures h.code == INTERNAL_ERROR ==> h.response == Message(InternalErrorMsg) && h.store == b
    ensures body != JNull && MethodHandler(env, hour, today, body, ctx, b).Ok? ==>
              h == MethodHandler(env, hour, today, body, ctx, b).value
  {
    if body == JNull then Handled(EmptyResponse, OK, ctx, b)
    else
      match MethodHandler(env, hour, today, body, ctx, b)
      case Ok(handled) => handled
      case Err(_) => Handled(Message(InternalErrorMsg), INTERNAL_ERROR, ctx, b)
  }

  /** An invalid envelope is answered with 422 and the error of its first
      failing field in declaration order, before authentication: neither the
      digest function, the hour nor the store takes part. */
  lemma {:induction false} InvalidEnvelope(env: Env, hour: string, today: Date, data: map<string, Json>,
                                           ctx: Context, b: Backend, j: nat)
    requires Valid(today)
    requires Build(MethodRequestSchema, Val(JObj(data)), today).Ok?
    requires FirstFailure(MethodRequestSchema.decls, data, today) == Some(j)
    ensures var d := MethodRequestSchema.decls[j];
      MethodHandler(env, hour, today, JObj(data), ctx, b)
      == Ok(Handled(Message(EnvelopeErrorText((d.name, FieldStep(d, data, today).msg))), INVALID_REQUEST, ctx, b))
  {
    SchemasWellFormed();
    var decls := MethodRequestSchema.decls;
    BuildErrors(MethodRequestSchema, data, today);
    RecordedErrors(decls, data, today);
    var r := Build(MethodRequestSchema, Val(JObj(data)), today).value;
    assert !IsValid(r);
    assert r.errors[0].0 == decls[j].name;
  }

  /** A valid envelope whose token does not match is answered with 403,
      whatever its method and arguments. */
  lemma ForbiddenBeforeDispatch(env: Env, hour: string, today: Date, data: map<string, Json>, ctx: Context, b: Backend)
    requires Valid(today)
    requires Build(MethodRequestSchema, Val(JObj(data)), today).Ok?
    requires IsValid(Build(MethodRequestSchema, Val(JObj(data)), today).value)
    requires CheckAuth(env, hour, Build(MethodRequestSchema, Val(JObj(data)), today).value) == Ok(false)
    ensures MethodHandler(env, hour, today, JObj(data), ctx, b) == Ok(Handled(Message(ForbiddenMsg), FORBIDDEN, ctx, b))
  {
  }

  /** An authenticated request for any other method is answered with 404
      and touches neither the context nor the store. */
  lemma UnknownMethod(env: Env, hour: string, today: Date, data: map<string, Json>, ctx: Context, b: Backend)
    requires Valid(today)
    requires Build(MethodRequestSchema, Val(JObj(data)), today).Ok?
    requires IsValid(Build(MethodRequestSchema, Val(JObj(data)), today).value)
    requires CheckAuth(env, hour, Build(MethodRequestSchema, Val(JObj(data)), today).value) == Ok(true)
    requires "method" in data && data["method"] !in {JStr(OnlineScoreMethod), JStr(ClientsInterestsMethod)}
    ensures MethodHandler(env, hour, today, JObj(data), ctx, b) == Ok(Handled(Message(MethodNotFoundMsg), NOT_FOUND, ctx, b))
  {
    SchemasWellFormed();
    Authorized(env, hour, today, data, ctx, b);
    BuiltLookup(MethodRequestSchema, data, today, 4);
  }

  /** The admin's `online_score` is 42 and leaves the store alone. */
  lemma AdminScoreLeavesStore(env: Env, hour: string, today: Date, data: map<string, Json>, ctx: Context, b: Backend)
    requires Valid(today)
    requires MethodHandler(env, hour, today, JObj(data), ctx, b).Ok?
    requires "login" in data && data["login"] == JStr(AdminLogin)
    requires "method" in data && data["method"] == JStr(OnlineScoreMethod)
    ensures var h := MethodHandler(env, hour, today, JObj(data), ctx, b).value;
      h.code == OK ==> h.response == AdminScore && h.store == b
  {
    SchemasWellFormed();
    var mr := Build(MethodRequestSchema, Val(JObj(data)), today).value;
    if IsValid(mr) && CheckAuth(env, hour, mr) == Ok(true) {
      Authorized(env, hour, today, data, ctx, b);
      LoginKept(data, today, mr);
      MethodKept(data, today, mr);
      AdminDispatch(env, today, mr, ctx, b);
    }
  }

  /** The routing step sends the admin's `online_score` to the branch that
      answers 42 without a store access. */
  lemma AdminDispatch(env: Env, today: Date, mr: Request, ctx: Context, b: Backend)
    requires Valid(today)
    requires IsAdmin(mr) && Attr(mr, "method") == Val(JStr(OnlineScoreMethod))
    requires Dispatch(env, today, mr, ctx, b).Ok?
    ensures var h := Dispatch(env, today, mr, ctx, b).value;
      h.code == OK ==> h.response == AdminScore && h.store == b
  {
  }

  /** `arguments: null` passes the class-level descriptor to the request
      class, whose `data.get` raises `AttributeError`: an authenticated call
      of either method fails. */
  lemma NullArgumentsRaise(env: Env, hour: string, today: Date, data: map<string, Json>, ctx: Context, b: Backend)
    requires Valid(today)
    requires Build(MethodRequestSchema, Val(JObj(data)), today).Ok?
    requires IsValid(Build(MethodRequestSchema, Val(JObj(data)), today).value)
    requires CheckAuth(env, hour, Build(MethodRequestSchema, Val(JObj(data)), today).value) == Ok(true)
    requires "arguments" in data && data["arguments"] == JNull
    requires "method" in data && data["method"] in {JStr(OnlineScoreMethod), JStr(ClientsInterestsMethod)}
    ensures MethodHandler(env, hour, today, JObj(data), ctx, b) == Err(AttributeError)
    ensures Serve(env, hour, today, JObj(data), ctx, b).code == INTERNAL_ERROR
  {
    SchemasWellFormed();
    var mr := Build(MethodRequestSchema, Val(JObj(data)), today).value;
    Authorized(env, hour, today, data, ctx, b);
    MethodKept(data, today, mr);
    ArgumentsAttr(data, today, mr);
    NullArgumentsDispatch(env, today, mr, ctx, b);
  }

  /** Either branch builds its request from the arguments attribute, and a
      class-level descriptor there makes `data.get` raise. */
  lemma NullArgumentsDispatch(env: Env, today: Date, mr: Request, ctx: Context, b: Backend)
    requires Valid(today)
    requires Attr(mr, "arguments").FieldObject?
    requires Attr(mr, "method") in {Val(JStr(OnlineScoreMethod)), Val(JStr(ClientsInterestsMethod))}
    ensures Dispatch(env, today, mr, ctx, b) == Err(AttributeError)
  {
  }

  /** A user login without an account is answered with 500: `check_auth`
      adds the class-level descriptor to a string. */
  lemma MissingAccountIsServerError(env: Env, hour: string, today: Date, data: map<string, Json>, ctx: Context, b: Backend)
    requires Valid(today)
    requires "account" !in data || data["account"] == JNull
    requires "login" in data && data["login"].JStr? && data["login"].s != AdminLogin
    requires Build(MethodRequestSchema, Val(JObj(data)), today).Ok?
    requires IsValid(Build(MethodRequestSchema, Val(JObj(data)), today).value)
    ensures Serve(env, hour, today, JObj(data), ctx, b) == Handled(Message(InternalErrorMsg), INTERNAL_ERROR, ctx, b)
  {
    MissingAccountRaises(env, hour, data, today);
  }

  /** The attribute of field `i` of a built `OnlineScoreRequest` is never
      `None`, and a kept phone, email or birthday is truthy. */
  lemma {:induction false} ScoreAttrOfBuilt(data: map<string, Json>, today: Date, r: Request, i: nat)
    requires Valid(today) && i < 6
    requires Build(OnlineScoreSchema, Val(JObj(data)), today) == Ok(r)
    ensures ScoreAttr(r, OnlineScoreSchema.decls[i].name) != PyNone
    ensures 2 <= i <= 4 ==> Truthy(ScoreAttr(r, OnlineScoreSchema.decls[i].name))
  {
    SchemasWellFormed();
    BuiltLookup(OnlineScoreSchema, data, today, i);
    var d := OnlineScoreSchema.decls[i];
    var step := FieldStep(d, data, today);
    assert ScoreAttr(r, d.name) == (if step.Keep? then Val(step.value) else FieldObject(d.field));
    if step.Keep? && 2 <= i <= 4 {
      KeptValuePassed(d, data, today);
      PassingValueTruthy(d.field.kind, step.value, today);
    }
  }

  /** In a built `OnlineScoreRequest`, phone, email and birthday are truthy
      and gender is never `None`: each is either a validated non-empty value
      or the always-true class-level descriptor. */
  lemma ScoreArgsOfBuilt(data: map<string, Json>, today: Date, r: Request)
    requires Valid(today)
    requires Build(OnlineScoreSchema, Val(JObj(data)), today) == Ok(r)
    ensures var a := ScoreArgsOf(r);
      Truthy(a.phone) && Truthy(a.email) && Truthy(a.birthday) && a.gender != PyNone
  {
    ScoreAttrOfBuilt(data, today, r, 2);
    ScoreAttrOfBuilt(data, today, r, 3);
    ScoreAttrOfBuilt(data, today, r, 4);
    ScoreAttrOfBuilt(data, today, r, 5);
  }

  /** A freshly computed score from the `online_score` branch is always
      4.5 or 5: phone, email and the birthday-gender pair always count. */
  lemma OnlineScoreFresh(env: Env, today: Date, admin: bool, arguments: PyValue, ctx: Context, b: Backend)
    requires Valid(today)
    requires OnlineScore(env, today, admin, arguments, ctx, b).Ok?
    requires OnlineScore(env, today, admin, arguments, ctx, b).value.response.ScoreResponse?
    requires OnlineScore(env, today, admin, arguments, ctx, b).value.response.score.Fresh?
    ensures OnlineScore(env, today, admin, arguments, ctx, b).value.response.score.points in {9, 10}
  {
    SchemasWellFormed();
    var built := Build(OnlineScoreSchema, arguments, today);
    assert built.Ok?;
    var sr := built.value;
    var a := ScoreArgsOf(sr);
    ScoreArgsOfBuilt(arguments.json.fields, today, sr);
    var scored := GetScore(env, b, a);
    assert !admin && IsValid(sr);
    assert OnlineScore(env, today, admin, arguments, ctx, b).value.response == ScoreResponse(scored.0);
    assert scored.0 == Fresh(Points(a));
    FreshPoints(a);
  }

  /** With phone, email and the birthday-gender pair all counting, the score
      is 9 or 10 half-points. */
  lemma FreshPoints(a: ScoreArgs)
    requires Truthy(a.phone) && Truthy(a.email) && Truthy(a.birthday) && a.gender != PyNone
    ensures Points(a) in {9, 10}
  {
  }

  /** The same for the whole dispatcher: whatever the request, a freshly
      computed score is 9 or 10 half-points. */
  lemma DispatcherFreshScore(env: Env, hour: string, today: Date, body: Json, ctx: Context, b: Backend)
    requires Valid(today)
    requires MethodHandler(env, hour, today, body, ctx, b).Ok?
    requires MethodHandler(env, hour, today, body, ctx, b).value.response.ScoreResponse?
    requires MethodHandler(env, hour, today, body, ctx, b).value.response.score.Fresh?
    ensures MethodHandler(env, hour, today, body, ctx, b).value.response.score.points in {9, 10}
  {
    SchemasWellFormed();
    ScoreRoute(env, hour, today, body, ctx, b);
    var mr := Build(MethodRequestSchema, Val(body), today).value;
    OnlineScoreFresh(env, today, IsAdmin(mr), Attr(mr, "arguments"), ctx, b);
  }

  /** A score answer only ever comes from the `online_score` branch, run on
      the envelope's `arguments` with the envelope's admin flag. */
  lemma ScoreRoute(env: Env, hour: string, today: Date, body: Json, ctx: Context, b: Backend)
    requires Valid(today)
    requires MethodHandler(env, hour, today, body, ctx, b).Ok?
    requires MethodHandler(env, hour, today, body, ctx, b).value.response.ScoreResponse?
    ensures WellFormed(MethodRequestSchema) && Build(MethodRequestSchema, Val(body), today).Ok?
    ensures var mr := Build(MethodRequestSchema, Val(body), today).value;
      && IsValid(mr) && CheckAuth(env, hour, mr) == Ok(true)
      && Attr(mr, "method") == Val(JStr(OnlineScoreMethod))
      && MethodHandler(env, hour, today, body, ctx, b) == OnlineScore(env, today, IsAdmin(mr), Attr(mr, "arguments"), ctx, b)
  {
    SchemasWellFormed();
  }

  /** An answered `clients_interests` call has one entry per distinct
      `str(cid)`, each the interests stored for that id, and records the
      number of ids. */
  lemma {:induction false} ClientsInterestsAnswer(env: Env, today: Date, args: map<string, Json>,
                                                  ctx: Context, b: Backend, ids: seq<Json>)
    requires Valid(today)
    requires ClientsInterests(env, today, Val(JObj(args)), ctx, b).Ok?
    requires ClientsInterests(env, today, Val(JObj(args)), ctx, b).value.code == OK
    requires "client_ids" in args && args["client_ids"] == JList(ids)
    ensures var h := ClientsInterests(env, today, Val(JObj(args)), ctx, b).value;
      && h.response.interests.Keys == IdKeys(env, ids)
      && (forall k | 0 <= k < |ids| :: h.response.interests[Str(env, Val(ids[k]))] == StoredInterests(env, b.data, Val(ids[k])))
      && h.ctx.nclients == Some(|ids|)
  {
    SchemasWellFormed();
    var ir := Build(ClientsInterestsSchema, Val(JObj(args)), today);
    BuiltLookup(ClientsInterestsSchema, args, today, 0);
    assert Lookup(ClientsInterestsSchema, ir.value, "client_ids") == Val(JList(ids));
    CollectedInterests(env, b, ids, map[]);
    CollectKeys(env, b, ids, map[]);
  }

  /** The dispatcher routes an authenticated `clients_interests` call to
      that branch with the request's `arguments` object. */
  lemma {:induction false} RoutesClientsInterests(env: Env, hour: string, today: Date, data: map<string, Json>,
                                                  ctx: Context, b: Backend, args: map<string, Json>)
    requires Valid(today)
    requires Build(MethodRequestSchema, Val(JObj(data)), today).Ok?
    requires IsValid(Build(MethodRequestSchema, Val(JObj(data)), today).value)
    requires CheckAuth(env, hour, Build(MethodRequestSchema, Val(JObj(data)), today).value) == Ok(true)
    requires "method" in data && data["method"] == JStr(ClientsInterestsMethod)
    requires "arguments" in data && data["arguments"] == JObj(args)
    ensures MethodHandler(env, hour, today, JObj(data), ctx, b) == ClientsInterests(env, today, Val(JObj(args)), ctx, b)
  {
    SchemasWellFormed();
    var mr := Build(MethodRequestSchema, Val(JObj(data)), today).value;
    Authorized(env, hour, today, data, ctx, b);
    MethodKept(data, today, mr);
    ArgumentsAttr(data, today, mr);
  }

}

=== FILE: auth.dfy ===
/** `check_auth`: the token a `MethodRequest` must carry. SHA-512 is the
    foreign `Env.sha512`; the current hour (`datetime.now()` written as
    `%Y%m%d%H`) is a parameter. */
module Auth {
  import opened Outcomes
  import opened Calendar
  import opened Values
  import opened Requests

  const Salt := "Otus"
  const AdminLogin := "admin"
  const AdminSalt := "42"

  lemma MethodRequestFields()
    ensures Declared(MethodRequestSchema, "account")
    ensures Declared(MethodRequestSchema, "login")
    ensures Declared(MethodRequestSchema, "token")
    ensures Declared(MethodRequestSchema, "arguments")
    ensures Declared(MethodRequestSchema, "method")
  {
    assert MethodRequestSchema.decls[0].name == "account";
    assert MethodRequestSchema.decls[1].name == "login";
    assert MethodRequestSchema.decls[2].name == "token";
    assert MethodRequestSchema.decls[3].name == "arguments";
    assert MethodRequestSchema.decls[4].name == "method";
  }

  /** `getattr(request, name, None)` on a `MethodRequest`. */
  function Attr(r: Request, name: string): PyValue
    requires name in {"account", "login", "token", "arguments", "method"}
  {
    MethodRequestFields();
    Lookup(MethodRequestSchema, r, name)
  }

  /** `MethodRequest.is_admin`: the login attribute equals `"admin"`. */
  predicate IsAdmin(r: Request) {
    Attr(r, "login") == Val(JStr(AdminLogin))
  }

  /** `check_auth(request)`. Either lookup being `None` refuses; the admin's
      token is the digest of the hour and `"42"`; anyone else's is the digest
      of account (`""` for `None`), login and `"Otus"`, and that concatenation
      raises `TypeError` unless both pieces are strings. The token matches
      only when it is that exact string. */
  function CheckAuth(env: Env, hour: string, r: Request): (ok: Result<bool>)
    ensures var login, account, token := Attr(r, "login"), Attr(r, "account"), Attr(r, "token");
      (login == PyNone || token == PyNone) ==> ok == Ok(false)
    ensures var login, account, token := Attr(r, "login"), Attr(r, "account"), Attr(r, "token");
      login != PyNone && token != PyNone && IsAdmin(r) ==>
        ok == Ok(token == Val(JStr(env.sha512(hour + AdminSalt))))
    ensures var login, account, token := Attr(r, "login"), Attr(r, "account"), Attr(r, "token");
      ok.Err? <==> (login != PyNone && token != PyNone && !IsAdmin(r)
                    && !((account == PyNone || (account.Val? && account.json.JStr?))
                         && login.Val? && login.json.JStr?))
    ensures var login, account, token := Attr(r, "login"), Attr(r, "account"), Attr(r, "token");
      && login != PyNone && token != PyNone && !IsAdmin(r)
      && (account == PyNone || (account.Val? && account.json.JStr?)) && login.Val? && login.json.JStr? ==>
        ok == Ok(token == Val(JStr(env.sha512((if account == PyNone then "" else account.json.s) + login.json.s + Salt))))
    ensures ok.Err? ==> ok.exc == TypeError
    ensures ok == Ok(true) ==> Attr(r, "token").Val? && Attr(r, "token").json.JStr?
  {
    var login, account, token := Attr(r, "login"), Attr(r, "account"), Attr(r, "token");
    if login == PyNone || token == PyNone then Ok(false)
    else if IsAdmin(r) then
      Ok(token == Val(JStr(env.sha512(hour + AdminSalt))))
    else
      var accountStr := if account == PyNone then Val(JStr("")) else account;
      if !(accountStr.Val? && accountStr.json.JStr? && login.Val? && login.json.JStr?) then Err(TypeError)
      else Ok(token == Val(JStr(env.sha512(accountStr.json.s + login.json.s + Salt))))
  }

  /** For a user with an account, the expected token is the digest of
      account, login and the salt. */
  lemma UserToken(env: Env, hour: string, r: Request, account: string, login: string)
    requires Attr(r, "account") == Val(JStr(account)) && Attr(r, "login") == Val(JStr(login))
    requires login != AdminLogin && Attr(r, "token") != PyNone
    ensures CheckAuth(env, hour, r) == Ok(Attr(r, "token") == Val(JStr(env.sha512(account + login + Salt))))
  {
  }

  /** The attribute of field `i` of a built `MethodRequest`: the raw value
      when validation kept it, else the class-level descriptor. */
  lemma {:induction false} AttrOfBuilt(data: map<string, Json>, today: Date, r: Request, i: nat)
    requires Valid(today) && i < 5
    requires Build(MethodRequestSchema, Val(JObj(data)), today) == Ok(r)
    ensures var d := MethodRequestSchema.decls[i];
      Attr(r, d.name) == (if FieldStep(d, data, today).Keep? then Val(data[d.name]) else FieldObject(d.field))
  {
    SchemasWellFormed();
    BuiltLookup(MethodRequestSchema, data, today, i);
    var d := MethodRequestSchema.decls[i];
    if FieldStep(d, data, today).Keep? {
      KeptValuePassed(d, data, today);
    }
  }

  /** A string `login` is kept as given. */
  lemma LoginKept(data: map<string, Json>, today: Date, r: Request)
    requires Valid(today) && Build(MethodRequestSchema, Val(JObj(data)), today) == Ok(r)
    requires "login" in data && data["login"].JStr?
    ensures Attr(r, "login") == Val(data["login"])
  {
    AttrOfBuilt(data, today, r, 1);
    assert FieldStep(MethodRequestSchema.decls[1], data, today) == Keep(data["login"]);
  }

  /** A string `method` is kept as given. */
  lemma MethodKept(data: map<string, Json>, today: Date, r: Request)
    requires Valid(today) && Build(MethodRequestSchema, Val(JObj(data)), today) == Ok(r)
    requires "method" in data && data["method"].JStr?
    ensures Attr(r, "method") == Val(data["method"])
  {
    AttrOfBuilt(data, today, r, 4);
    assert FieldStep(MethodRequestSchema.decls[4], data, today) == Keep(data["method"]);
  }

  /** An object of `arguments` is kept as given; a null one leaves the
      class-level descriptor in place. */
  lemma ArgumentsAttr(data: map<string, Json>, today: Date, r: Request)
    requires Valid(today) && Build(MethodRequestSchema, Val(JObj(data)), today) == Ok(r)
    requires "arguments" in data && (data["arguments"].JObj? || data["arguments"] == JNull)
    ensures data["arguments"].JObj? ==> Attr(r, "arguments") == Val(data["arguments"])
    ensures data["arguments"] == JNull ==> Attr(r, "arguments").FieldObject?
  {
    AttrOfBuilt(data, today, r, 3);
    if data["arguments"].JObj? {
      assert FieldStep(MethodRequestSchema.decls[3], data, today) == Keep(data["arguments"]);
    } else {
      assert FieldStep(MethodRequestSchema.decls[3], data, today) == Skip;
    }
  }

  /** Without an account the attribute is the class-level descriptor. */
  lemma AccountUnset(data: map<string, Json>, today: Date, r: Request)
    requires Valid(today) && Build(MethodRequestSchema, Val(JObj(data)), today) == Ok(r)
    requires "account" !in data || data["account"] == JNull
    ensures Attr(r, "account").FieldObject?
  {
    AttrOfBuilt(data, today, r, 0);
    assert FieldStep(MethodRequestSchema.decls[0], data, today) == Skip;
  }

  /** After construction neither `login` nor `token` can read as `None`: an
      unset attribute reads as its class-level descriptor, so the `None` test
      never decides. */
  lemma {:induction false} NoneTestUnreachable(data: map<string, Json>, today: Date)
    requires Valid(today)
    requires Build(MethodRequestSchema, Val(JObj(data)), today).Ok?
    ensures var r := Build(MethodRequestSchema, Val(JObj(data)), today).value;
      Attr(r, "login") != PyNone && Attr(r, "token") != PyNone
  {
    SchemasWellFormed();
    BuiltLookup(MethodRequestSchema, data, today, 1);
    BuiltLookup(MethodRequestSchema, data, today, 2);
  }

  /** A valid envelope for a non-admin login without an account (absent or
      null) makes `check_auth` raise `TypeError`: the account reads as the
      class-level descriptor, which cannot be added to a string. */
  lemma {:induction false} MissingAccountRaises(env: Env, hour: string, data: map<string, Json>, today: Date)
    requires Valid(today)
    requires "account" !in data || data["account"] == JNull
    requires "login" in data && data["login"].JStr? && data["login"].s != AdminLogin
    requires Build(MethodRequestSchema, Val(JObj(data)), today).Ok?
    ensures CheckAuth(env, hour, Build(MethodRequestSchema, Val(JObj(data)), today).value) == Err(TypeError)
  {
    SchemasWellFormed();
    var r := Build(MethodRequestSchema, Val(JObj(data)), today).value;
    NoneTestUnreachable(data, today);
    AccountUnset(data, today, r);
    LoginKept(data, today, r);
  }
}

=== FILE: calendar.dfy ===
/** Proleptic Gregorian dates as Python's `datetime.date` holds them, the two
    `strptime` formats the system parses (`%d.%m.%Y` and `%Y%m%d`), and the
    calendar-year subtraction `dateutil.relativedelta(years=k)` performs. */
module Calendar {
  import opened Outcomes
  import opened Text

  datatype Date = Date(year: int, month: int, day: int)

  predicate IsLeap(y: int) {
    y % 4 == 0 && (y % 100 != 0 || y % 400 == 0)
  }

  function DaysInMonth(y: int, m: int): (n: int)
    requires 1 <= m <= 12
    ensures 28 <= n <= 31
  {
    if m == 2 then (if IsLeap(y) then 29 else 28)
    else if m == 4 || m == 6 || m == 9 || m == 11 then 30
    else 31
  }

  /** A date `datetime.date` accepts: years 1 to 9999, real months and days. */
  predicate Valid(d: Date) {
    1 <= d.year <= 9999 && 1 <= d.month <= 12 && 1 <= d.day <= DaysInMonth(d.year, d.month)
  }

  /** Chronological order of dates (`<` on `datetime.date`). */
  predicate Before(a: Date, b: Date) {
    a.year < b.year
    || (a.year == b.year && a.month < b.month)
    || (a.year == b.year && a.month == b.month && a.day < b.day)
  }

  /** `d - relativedelta(years=k)`: the same month and day `k` calendar years
      earlier, the day clamped to the length of that month (29 February becomes
      28 February in a common year); a year before 1 makes `date.replace` raise
      `ValueError`. */
  function YearsEarlier(d: Date, k: nat): (r: Result<Date>)
    requires Valid(d)
    ensures r.Err? <==> d.year - k < 1
    ensures r.Ok? ==> Valid(r.value) && r.value.year == d.year - k && r.value.month == d.month
    ensures r.Ok? ==> r.value.day <= d.day
    ensures r.Ok? && d.day <= DaysInMonth(d.year - k, d.month) ==> r.value.day == d.day
    ensures r.Ok? && d.day > DaysInMonth(d.year - k, d.month) ==> r.value.day == DaysInMonth(d.year - k, d.month)
  {
    var y := d.year - k;
    if y < 1 then Err(ValueError)
    else
      var last := DaysInMonth(y, d.month);
      Ok(Date(y, d.month, if d.day <= last then d.day else last))
  }

  /** The `%d` directive's tokens: `1`..`9`, `01`..`31`, or a space and `1`..`9`. */
  predicate DayToken(t: string) {
    || (|t| == 1 && '1' <= t[0] <= '9')
    || (|t| == 2 && t[0] == ' ' && '1' <= t[1] <= '9')
    || (|t| == 2 && AllDigits(t) && 1 <= Numeral(t) <= 31)
  }

  /** The `%m` directive's tokens: `1`..`9` or `01`..`12`. */
  predicate MonthToken(t: string) {
    || (|t| == 1 && '1' <= t[0] <= '9')
    || (|t| == 2 && AllDigits(t) && 1 <= Numeral(t) <= 12)
  }

  /** The number a `%d` or `%m` token denotes. */
  function TokenValue(t: string): nat
    requires DayToken(t) || MonthToken(t)
  {
    if t[0] == ' ' then DigitValue(t[1]) else Numeral(t)
  }

  /** `datetime.strptime(s, "%d.%m.%Y")`: `None` where it raises `ValueError`.
      Neither token can contain a dot, so the day is everything before the
      first dot, the month everything between the two dots, and the year
      exactly four digits after the second dot. */
  function ParseDotted(s: string): (r: Option<Date>)
    ensures r.Some? ==> Valid(r.value) && s != ""
  {
    var parts := SplitOn(s, '.');
    if |parts| != 3 then None
    else if !DayToken(parts[0]) || !MonthToken(parts[1]) then None
    else if |parts[2]| != 4 || !AllDigits(parts[2]) then None
    else
      var d := Date(Numeral(parts[2]), TokenValue(parts[1]), TokenValue(parts[0]));
      if Valid(d) then Some(d) else None
  }

  /** `datetime.strptime(s, "%Y%m%d")` on an eight-digit string: `%m` and `%d`
      must then take two digits each (a one-digit match would leave data
      unconverted), so the string is `YYYYMMDD` of a valid date. */
  function ParseCompact(s: string): (r: Option<Date>)
    ensures r.Some? ==> Valid(r.value)
  {
    if |s| != 8 || !AllDigits(s) then None
    else
      var d := Date(Numeral(s[..4]), Numeral(s[4..6]), Numeral(s[6..]));
      if Valid(d) then Some(d) else None
  }

  /** `d.strftime("%d.%m.%Y")`. */
  function FormatDotted(d: Date): string
    requires Valid(d)
  {
    Padded(d.day, 2) + "." + Padded(d.month, 2) + "." + Padded(d.year, 4)
  }

  /** `d.strftime("%Y%m%d")`, with the year zero-padded to four digits. */
  function FormatCompact(d: Date): string
    requires Valid(d)
  {
    Padded(d.year, 4) + Padded(d.month, 2) + Padded(d.day, 2)
  }

  lemma {:induction false} NoDotInDigits(s: string)
    requires AllDigits(s)
    ensures Occurrences(s, '.') == 0
  {
    if |s| > 0 {
      NoDotInDigits(s[1..]);
    }
  }

  /** Splitting three dot-free pieces joined by dots gives the pieces back. */
  lemma SplitThree(a: string, b: string, c: string)
    requires Occurrences(a, '.') == 0 && Occurrences(b, '.') == 0 && Occurrences(c, '.') == 0
    ensures SplitOn(a + "." + b + "." + c, '.') == [a, b, c]
  {
    var t := b + "." + c;
    assert a + "." + b + "." + c == a + ['.'] + t;
    assert t == b + ['.'] + c;
    SplitJoin(a, '.', t);
    SplitJoin(b, '.', c);
    SplitOnNone(c, '.');
  }

  /** Every valid date written as `dd.mm.yyyy` parses back to itself. */
  lemma ParseFormatDotted(d: Date)
    requires Valid(d)
    ensures ParseDotted(FormatDotted(d)) == Some(d)
  {
    var a, b, c := Padded(d.day, 2), Padded(d.month, 2), Padded(d.year, 4);
    NoDotInDigits(a);
    NoDotInDigits(b);
    NoDotInDigits(c);
    SplitThree(a, b, c);
    NumeralOfPadded(d.day, 2);
    NumeralOfPadded(d.month, 2);
    assert Pow10(4) == 10000;
    NumeralOfPadded(d.year, 4);
    assert a[0] != ' ';
  }

  /** Every valid date written as `yyyymmdd` parses back to itself. */
  lemma ParseFormatCompact(d: Date)
    requires Valid(d)
    ensures ParseCompact(FormatCompact(d)) == Some(d)
  {
    var a, b, c := Padded(d.year, 4), Padded(d.month, 2), Padded(d.day, 2);
    var s := FormatCompact(d);
    assert s == a + b + c;
    assert s[..4] == a && s[4..6] == b && s[6..] == c;
    assert AllDigits(s);
    NumeralOfPadded(d.day, 2);
    NumeralOfPadded(d.month, 2);
    assert Pow10(4) == 10000;
    NumeralOfPadded(d.year, 4);
  }

  /** `strptime` on three dot-free pieces joined by dots reads the pieces as
      day, month and year tokens. */
  lemma ParseDottedPieces(a: string, b: string, c: string)
    requires Occurrences(a, '.') == 0 && Occurrences(b, '.') == 0 && Occurrences(c, '.') == 0
    requires DayToken(a) && MonthToken(b) && |c| == 4 && AllDigits(c)
    requires Valid(Date(Numeral(c), TokenValue(b), TokenValue(a)))
    ensures ParseDotted(a + "." + b + "." + c) == Some(Date(Numeral(c), TokenValue(b), TokenValue(a)))
  {
    SplitThree(a, b, c);
  }

  /** `%d` and `%m` also accept a single digit: `1.2.2000` is 1 February 2000. */
  lemma SingleDigitDayAndMonth(day: char, month: char, year: string)
    requires '1' <= day <= '9' && '1' <= month <= '9'
    requires |year| == 4 && AllDigits(year)
    requires Valid(Date(Numeral(year), DigitValue(month), DigitValue(day)))
    ensures ParseDotted([day] + "." + [month] + "." + year) == Some(Date(Numeral(year), DigitValue(month), DigitValue(day)))
  {
    NoDotInDigits(year);
    assert Occurrences([day], '.') == 0 by { assert [day][1..] == []; }
    assert Occurrences([month], '.') == 0 by { assert [month][1..] == []; }
    assert TokenValue([day]) == DigitValue(day) by { assert [day][..0] == [] && [day][0] == day; assert Numeral([day]) == 10 * Numeral([]) + DigitValue(day); }
    assert TokenValue([month]) == DigitValue(month) by { assert [month][..0] == [] && [month][0] == month; assert Numeral([month]) == 10 * Numeral([]) + DigitValue(month); }
    ParseDottedPieces([day], [month], year);
  }
}

=== FILE: config.dfy ===
/** The analyzer's configuration: the built-in defaults and the merge that
    `load_config` performs once the YAML file is read — a copy of the
    defaults updated with the file's mapping, where an empty document counts
    as an empty mapping. */
module Config {
  import opened Outcomes
  import opened Values

  const ReportSizeKey := "REPORT_SIZE"
  const ReportDirKey := "REPORT_DIR"
  const LogDirKey := "LOG_DIR"

  /** `DEFAULT_CONFIG`. */
  const DefaultConfig: map<string, Json> :=
    map[ReportSizeKey := JInt(1000), ReportDirKey := JStr("./reports"), LogDirKey := JStr("./logs")]

  /** `default_config.copy()` updated with `file_config`: every key of either,
      the file's value where the file has the key, the default's otherwise. */
  function MergeConfig(defaults: map<string, Json>, file: map<string, Json>): (config: map<string, Json>)
    ensures config.Keys == defaults.Keys + file.Keys
    ensures forall k | k in file :: config[k] == file[k]
    ensures forall k | k in defaults && k !in file :: config[k] == defaults[k]
  {
    defaults + file
  }

  /** `yaml.safe_load(f) or {}` followed by the merge; `None` stands for a
      document that loads as nothing (an empty file). */
  function LoadConfig(defaults: map<string, Json>, doc: Option<map<string, Json>>): (config: map<string, Json>)
    ensures doc.None? ==> config == defaults
    ensures doc.Some? ==> config == MergeConfig(defaults, doc.value)
  {
    match doc
    case None => defaults
    case Some(file) => MergeConfig(defaults, file)
  }

  /** The merged configuration keeps every default key: the analyzer can
      always read `REPORT_SIZE`, `REPORT_DIR` and `LOG_DIR`. */
  lemma DefaultsAlwaysPresent(doc: Option<map<string, Json>>)
    ensures ReportSizeKey in LoadConfig(DefaultConfig, doc)
    ensures ReportDirKey in LoadConfig(DefaultConfig, doc)
    ensures LogDirKey in LoadConfig(DefaultConfig, doc)
  {
  }

  /** Merging the same file twice changes nothing more, and merging an empty
      file gives back the defaults. */
  lemma MergeIdempotent(defaults: map<string, Json>, file: map<string, Json>)
    ensures MergeConfig(MergeConfig(defaults, file), file) == MergeConfig(defaults, file)
    ensures MergeConfig(defaults, map[]) == defaults
  {
    var once := MergeConfig(defaults, file);
    assert MergeConfig(once, file).Keys == once.Keys;
    assert MergeConfig(defaults, map[]).Keys == defaults.Keys;
  }

  /** A file that sets only `REPORT_SIZE` overrides it and keeps both
      directories. */
  lemma ReportSizeOverride(n: int)
    ensures LoadConfig(DefaultConfig, Some(map[ReportSizeKey := JInt(n)])) ==
            map[ReportSizeKey := JInt(n), ReportDirKey := JStr("./reports"), LogDirKey := JStr("./logs")]
  {
    var c := LoadConfig(DefaultConfig, Some(map[ReportSizeKey := JInt(n)]));
    assert c.Keys == DefaultConfig.Keys;
  }
}

=== FILE: logfiles.dfy ===
/** Which nginx log the analyzer reads: the name-prefix filter over a
    directory listing and the choice of the newest log by the `YYYYMMDD` date
    at the end of its name. The listing itself is a parameter. */
module LogFiles {
  import opened Outcomes
  import opened Text
  import opened Calendar

  const LogFilePrefix := "nginx-access-ui"

  predicate StartsWith(s: string, p: string) {
    |p| <= |s| && s[..|p|] == p
  }

  predicate EndsWith(s: string, p: string) {
    |p| <= |s| && s[|s| - |p|..] == p
  }

  /** One entry of a directory listing: its full path, its base name, and
      whether it is a regular file. */
  datatype DirEntry = DirEntry(path: string, name: string, isFile: bool)

  predicate IsLogFile(e: DirEntry) {
    e.isFile && StartsWith(e.name, LogFilePrefix)
  }

  /** `get_log_files_paths` after the directory check: the paths of the
      regular files whose name starts with `nginx-access-ui`, in listing order. */
  function LogFilePaths(entries: seq<DirEntry>): (paths: seq<string>)
    ensures |paths| <= |entries|
    ensures forall i | 0 <= i < |paths| ::
              exists k | 0 <= k < |entries| :: entries[k].path == paths[i] && IsLogFile(entries[k])
    ensures forall k | 0 <= k < |entries| && IsLogFile(entries[k]) :: entries[k].path in paths
  {
    if |entries| == 0 then []
    else
      var rest := LogFilePaths(entries[1..]);
      assert forall k | 1 <= k < |entries| :: entries[k] == entries[1..][k - 1];
      if IsLogFile(entries[0]) then [entries[0].path] + rest else rest
  }

  /** The text `$` lets the date pattern end at: the path without one final
      newline (`$` also matches just before a trailing `"\n"`). */
  function Anchored(path: string): (t: string)
    ensures t == path || (path == t + "\n")
  {
    if |path| > 0 && path[|path| - 1] == '\n' then path[..|path| - 1] else path
  }

  /** The eight digits `re.search(r"-(\d{8})(?:\.gz)?$", path)` captures: a
      dash and eight digits at the end of the name, optionally followed by
      `.gz`. */
  function DateStamp(path: string): (r: Option<string>)
    ensures r.Some? ==> |r.value| == 8 && AllDigits(r.value)
    ensures r.Some? ==> EndsWith(Anchored(path), "-" + r.value) || EndsWith(Anchored(path), "-" + r.value + ".gz")
  {
    var t := Anchored(path);
    var body := if EndsWith(t, ".gz") then t[..|t| - 3] else t;
    if |body| >= 9 && body[|body| - 9] == '-' && AllDigits(body[|body| - 8..]) then
      assert body[|body| - 9..] == "-" + body[|body| - 8..];
      assert EndsWith(t, ".gz") ==> t[|t| - 12..] == body[|body| - 9..] + ".gz";
      Some(body[|body| - 8..])
    else None
  }

  /** The date a log file name carries, when the stamp is a real date
      (`strptime(stamp, "%Y%m%d")`); a name without a valid date has none. */
  function FileDate(path: string): (r: Option<Date>)
    ensures r.Some? ==> Valid(r.value)
  {
    match DateStamp(path)
    case None => None
    case Some(stamp) => ParseCompact(stamp)
  }

  /** A name ending in a dash and eight digits, optionally followed by `.gz`,
      carries whatever date those digits spell. */
  lemma FileDateOfStamp(stem: string, stamp: string, gz: bool)
    requires |stamp| == 8 && AllDigits(stamp)
    ensures FileDate(stem + "-" + stamp + (if gz then ".gz" else "")) == ParseCompact(stamp)
  {
    var s := stem + "-" + stamp + (if gz then ".gz" else "");
    assert Anchored(s) == s;
    if gz {
      assert EndsWith(s, ".gz");
      var body := s[..|s| - 3];
      assert body == stem + "-" + stamp;
      assert body[|body| - 8..] == stamp;
    } else {
      assert s == stem + "-" + stamp;
      assert s[|s| - 1] == stamp[7];
      assert !EndsWith(s, ".gz");
      assert s[|s| - 8..] == stamp;
    }
  }

  /** A name ending in a dash, a formatted date and optionally `.gz` carries
      that date. */
  lemma FileDateOfName(stem: string, d: Date, gz: bool)
    requires Valid(d)
    ensures FileDate(stem + "-" + FormatCompact(d) + (if gz then ".gz" else "")) == Some(d)
  {
    FileDateOfStamp(stem, FormatCompact(d), gz);
    ParseFormatCompact(d);
  }

  /** A stamp that is not a calendar date (31 June) gives no date, whatever
      the rest of the name. */
  lemma InvalidStampSkipped(stem: string, gz: bool)
    ensures FileDate(stem + "-" + "20170631" + (if gz then ".gz" else "")) == None
  {
    JuneThirtyFirst();
    FileDateOfStamp(stem, "20170631", gz);
  }

  lemma JuneThirtyFirst()
    ensures ParseCompact("20170631") == None
  {
    var stamp := "20170631";
    assert stamp[4..6] == "06" && stamp[6..] == "31";
    assert Numeral("0") == 0;
    assert Numeral("06") == 6;
    assert Numeral("3") == 3;
    assert Numeral("31") == 31;
  }

  /** Any other suffix after the stamp hides it: `.bz2` is not `.gz`. */
  lemma OtherSuffixSkipped(stem: string, stamp: string)
    ensures FileDate(stem + "-" + stamp + ".bz2") == None
  {
    var s := stem + "-" + stamp + ".bz2";
    assert s[|s| - 1] == '2' && s[|s| - 2] == 'z' && s[|s| - 3] == 'b';
    assert !EndsWith(s, ".gz") by { assert s[|s| - 3..][0] == 'b'; }
    assert |s| >= 9 ==> s[|s| - 8..][6] == 'z';
  }

  /** The loop of `get_latest_log_file` over any dating of names: the newest
      dated name and its date, the earliest such name when several share the
      newest date (the comparison is a strict `>`), and `(None, None)` when no
      name is dated. */
  method LatestBy(files: seq<string>, dateOf: string -> Option<Date>) returns (date: Option<Date>, file: Option<string>)
    ensures date.None? <==> file.None?
    ensures date.None? <==> forall i | 0 <= i < |files| :: dateOf(files[i]).None?
    ensures file.Some? ==> exists i | 0 <= i < |files| ::
              && files[i] == file.value && dateOf(files[i]) == date
              && forall j | 0 <= j < i :: dateOf(files[j]).None? || Before(dateOf(files[j]).value, date.value)
    ensures date.Some? ==> forall i | 0 <= i < |files| ::
              dateOf(files[i]).None? || !Before(date.value, dateOf(files[i]).value)
  {
    date, file := None, None;
    ghost var at := 0;
    for i := 0 to |files|
      invariant date.None? <==> file.None?
      invariant date.None? <==> forall j | 0 <= j < i :: dateOf(files[j]).None?
      invariant file.Some? ==> && at < i && files[at] == file.value && dateOf(files[at]) == date
                               && forall j | 0 <= j < at :: dateOf(files[j]).None? || Before(dateOf(files[j]).value, date.value)
      invariant date.Some? ==> forall j | 0 <= j < i :: dateOf(files[j]).None? || !Before(date.value, dateOf(files[j]).value)
    {
      var d := dateOf(files[i]);
      if d.Some? && (date.None? || Before(date.value, d.value)) {
        date, file := d, Some(files[i]);
        at := i;
      }
    }
  }

  /** `get_latest_log_file`: `LatestBy` with the date at the end of each
      name. Names whose stamp is not a real date are passed over, so a
      returned file always carries a valid date. */
  method LatestLogFile(files: seq<string>) returns (date: Option<Date>, file: Option<string>)
    ensures date.None? <==> file.None?
    ensures date.None? <==> forall i | 0 <= i < |files| :: FileDate(files[i]).None?
    ensures file.Some? ==> exists i | 0 <= i < |files| ::
              && files[i] == file.value && FileDate(files[i]) == date
              && forall j | 0 <= j < i :: FileDate(files[j]).None? || Before(FileDate(files[j]).value, date.value)
    ensures date.Some? ==> Valid(date.value)
    ensures date.Some? ==> forall i | 0 <= i < |files| ::
              FileDate(files[i]).None? || !Before(date.value, FileDate(files[i]).value)
  {
    date, file := LatestBy(files, FileDate);
  }
}

=== FILE: loglines.dfy ===
/** The line-level part of `read_log_file`: stripping, skipping blank and
    unmatched lines, and taking the URL out of the request field. The nginx
    line pattern itself is the parameter `parse`, and request times are
    naturals in a fixed unit. */
module LogLines {
  import opened Outcomes
  import opened Text

  /** The request methods the URL pattern knows, in the order it tries them. */
  const HttpMethods: seq<string> := ["GET", "POST", "PUT", "DELETE", "HEAD", "OPTIONS", "PATCH"]

  predicate StartsWith(s: string, p: string) {
    |p| <= |s| && s[..|p|] == p
  }

  /** The methods `request` starts with: at most one, since none of them is
      a prefix of another. */
  function MethodAt(request: string): (m: Option<string>)
    ensures m.Some? ==> m.value in HttpMethods && StartsWith(request, m.value)
    ensures m.None? ==> forall k | 0 <= k < |HttpMethods| :: !StartsWith(request, HttpMethods[k])
  {
    if StartsWith(request, "GET") then Some("GET")
    else if StartsWith(request, "POST") then Some("POST")
    else if StartsWith(request, "PUT") then Some("PUT")
    else if StartsWith(request, "DELETE") then Some("DELETE")
    else if StartsWith(request, "HEAD") then Some("HEAD")
    else if StartsWith(request, "OPTIONS") then Some("OPTIONS")
    else if StartsWith(request, "PATCH") then Some("PATCH")
    else None
  }

  /** What the URL pattern reads after the method `m`: one or more
      whitespace characters, then the longest run of non-whitespace. */
  function UrlAfter(request: string, m: string): (url: Option<string>)
    requires StartsWith(request, m)
    ensures url.Some? ==> |url.value| >= 1 && forall i | 0 <= i < |url.value| :: !IsSpace(url.value[i])
  {
    var after := request[|m|..];
    if |after| == 0 || !IsSpace(after[0]) then None
    else
      var rest := TrimStart(after);
      if |rest| == 0 then None else Some(Word(rest))
  }

  /** `REQUEST_URL_PATTERN.match(request)`: a known method at the start, one
      or more whitespace characters, then the URL. */
  function MethodUrl(request: string): (url: Option<string>)
    ensures url.Some? ==> |url.value| >= 1 && forall i | 0 <= i < |url.value| :: !IsSpace(url.value[i])
    ensures url.Some? ==> MethodAt(request).Some?
  {
    match MethodAt(request)
    case None => None
    case Some(m) => UrlAfter(request, m)
  }

  /** The URL of a request field: the pattern's URL when it matches, else the
      second whitespace-separated token, else the whole request. */
  function ExtractUrl(request: string): (url: string)
    ensures MethodUrl(request).Some? ==> url == MethodUrl(request).value
    ensures MethodUrl(request).None? && |Words(request)| > 1 ==> url == Words(request)[1]
    ensures MethodUrl(request).None? && |Words(request)| <= 1 ==> url == request
  {
    match MethodUrl(request)
    case Some(u) => u
    case None =>
      var parts := Words(request);
      if |parts| > 1 then parts[1] else request
  }

  /** `split()` of a word, whitespace, and more text: the word, then the
      words of the rest. */
  lemma {:induction false} WordsOfWordThenSpace(w: string, sp: string, rest: string)
    requires |w| >= 1 && forall i | 0 <= i < |w| :: !IsSpace(w[i])
    requires AllSpace(sp) && |sp| >= 1
    ensures Words(w + sp + rest) == [w] + Words(rest)
  {
    var s := w + sp + rest;
    assert s[0] == w[0];
    assert w + sp + rest == w + (sp + rest);
    WordOfConcat(w, sp + rest);
    assert s[|w|..] == sp + rest;
    WordsSkipSpace(sp, rest);
  }

  /** Text that starts without whitespace splits into its first word and the
      words after it. */
  lemma {:induction false} WordsOfNonSpace(rest: string)
    requires |rest| >= 1 && !IsSpace(rest[0])
    ensures |Words(rest)| >= 1 && Words(rest)[0] == Word(rest)
  {
  }

  /** Whatever the method pattern finds after a whitespace-free word is the
      second token of the request. */
  lemma {:induction false} UrlAfterIsSecondToken(request: string, m: string)
    requires StartsWith(request, m) && |m| >= 1 && forall i | 0 <= i < |m| :: !IsSpace(m[i])
    requires UrlAfter(request, m).Some?
    ensures |Words(request)| > 1 && Words(request)[1] == UrlAfter(request, m).value
  {
    var after := request[|m|..];
    var rest := TrimStart(after);
    var sp := after[..|after| - |rest|];
    assert after == sp + rest;
    assert request == m + after;
    assert request == m + sp + rest;
    WordsOfWordThenSpace(m, sp, rest);
    WordsOfNonSpace(rest);
  }

  /** None of the known methods contains whitespace. */
  lemma MethodsHaveNoSpace(m: string)
    requires m in HttpMethods
    ensures |m| >= 1 && forall i | 0 <= i < |m| :: !IsSpace(m[i])
  {
  }

  /** The method pattern never disagrees with the fallback: whenever it
      matches, its URL is the second token too. So the URL is always the
      second whitespace-separated token, or the whole request when there is
      none. */
  lemma UrlIsSecondToken(request: string)
    ensures ExtractUrl(request) == (if |Words(request)| > 1 then Words(request)[1] else request)
  {
    if MethodUrl(request).Some? {
      var m := MethodAt(request).value;
      MethodsHaveNoSpace(m);
      UrlAfterIsSecondToken(request, m);
    }
  }

  /** A request of a method, a path and a protocol version, each separated
      by one space, gives the path (as for `GET /test/url HTTP/1.1`). */
  lemma RequestUrl(m: string, path: string, version: string)
    requires m in HttpMethods
    requires |path| >= 1 && forall i | 0 <= i < |path| :: !IsSpace(path[i])
    ensures ExtractUrl(m + " " + path + " " + version) == path
  {
    var request := m + " " + path + " " + version;
    MethodsHaveNoSpace(m);
    assert AllSpace(" ");
    assert request == m + " " + (path + " " + version);
    WordsOfWordThenSpace(m, " ", path + " " + version);
    WordsOfWordThenSpace(path, " ", version);
    UrlIsSecondToken(request);
  }

  /** What the nginx line pattern makes of a stripped line: no match, or the
      request field and the request time, which is `None` when `float()`
      rejects the matched digits and dots (`1.2.3`). */
  datatype LineParse = NoMatch | Matched(request: string, time: Option<nat>)

  /** One parsed log entry: the URL and the request time. */
  datatype Entry = Entry(url: string, time: nat)

  /** The entry one raw line yields, if any. */
  function LineEntry(parse: string -> LineParse, line: string): (e: Option<Entry>)
    ensures AllSpace(line) ==> e.None?
    ensures e.Some? <==> !AllSpace(line) && parse(Strip(line)).Matched? && parse(Strip(line)).time.Some?
    ensures e.Some? ==> e.value == Entry(ExtractUrl(parse(Strip(line)).request), parse(Strip(line)).time.value)
  {
    var stripped := Strip(line);
    StripEmpty(line);
    if stripped == "" then None
    else
      match parse(stripped)
      case NoMatch => None
      case Matched(request, None) => None
      case Matched(request, Some(t)) => Some(Entry(ExtractUrl(request), t))
  }

  /** Keep what `f` yields for each line, in order, dropping the lines it
      yields nothing for (a generator with `continue`). */
  function FilterMap<T>(f: string -> Option<T>, lines: seq<string>): (es: seq<T>)
    ensures |es| <= |lines|
  {
    if |lines| == 0 then []
    else
      var rest := FilterMap(f, lines[1..]);
      match f(lines[0])
      case None => rest
      case Some(e) => [e] + rest
  }

  /** Every kept value is what `f` yields for some line. */
  lemma {:induction false} FilterMapFrom<T>(f: string -> Option<T>, lines: seq<string>)
    ensures forall k | 0 <= k < |FilterMap(f, lines)| ::
              exists i | 0 <= i < |lines| :: f(lines[i]) == Some(FilterMap(f, lines)[k])
  {
    if |lines| > 0 {
      var tail := lines[1..];
      FilterMapFrom(f, tail);
      var es := FilterMap(f, lines);
      var rest := FilterMap(f, tail);
      forall k | 0 <= k < |es|
        ensures exists i | 0 <= i < |lines| :: f(lines[i]) == Some(es[k])
      {
        if f(lines[0]).Some? && k == 0 {
          assert f(lines[0]) == Some(es[k]);
        } else {
          var off := if f(lines[0]).Some? then 1 else 0;
          assert es[k] == rest[k - off];
          var i :| 0 <= i < |tail| && f(tail[i]) == Some(rest[k - off]);
          assert lines[i + 1] == tail[i];
        }
      }
      assert forall k | 0 <= k < |FilterMap(f, lines)| ::
               exists i | 0 <= i < |lines| :: f(lines[i]) == Some(FilterMap(f, lines)[k]);
    } else {
      assert |FilterMap(f, lines)| == 0;
    }
  }

  /** Every value `f` yields for a line is kept. */
  lemma {:induction false} FilterMapKeeps<T>(f: string -> Option<T>, lines: seq<string>)
    ensures forall i | 0 <= i < |lines| && f(lines[i]).Some? :: f(lines[i]).value in FilterMap(f, lines)
  {
    if |lines| > 0 {
      var tail := lines[1..];
      FilterMapKeeps(f, tail);
      forall i | 1 <= i < |lines| && f(lines[i]).Some?
        ensures f(lines[i]).value in FilterMap(f, lines)
      {
        assert lines[i] == tail[i - 1];
      }
    }
  }

  /** Filtering two runs of lines one after the other keeps the values of
      each, in order. */
  lemma {:induction false} FilterMapAppend<T>(f: string -> Option<T>, a: seq<string>, b: seq<string>)
    ensures FilterMap(f, a + b) == FilterMap(f, a) + FilterMap(f, b)
  {
    if |a| > 0 {
      assert (a + b)[1..] == a[1..] + b;
      FilterMapAppend(f, a[1..], b);
    } else {
      assert a + b == b;
    }
  }

  /** `LineEntry` as the per-line step of the reader. */
  function LineReader(parse: string -> LineParse): (f: string -> Option<Entry>)
    ensures forall line :: f(line) == LineEntry(parse, line)
  {
    (line: string) => LineEntry(parse, line)
  }

  /** `read_log_file` over the lines of an opened file: each line is
      stripped; blank lines, lines the pattern does not match and lines
      whose time does not convert yield nothing; the rest yield their URL and
      time, in file order. */
  function ReadLines(parse: string -> LineParse, lines: seq<string>): (es: seq<Entry>)
    ensures |es| <= |lines|
  {
    FilterMap(LineReader(parse), lines)
  }

  /** Every entry comes from some line of the input, and every line that
      yields an entry contributes it. */
  lemma EntriesComeFromLines(parse: string -> LineParse, lines: seq<string>)
    ensures forall k | 0 <= k < |ReadLines(parse, lines)| ::
              exists i | 0 <= i < |lines| :: LineEntry(parse, lines[i]) == Some(ReadLines(parse, lines)[k])
    ensures forall i | 0 <= i < |lines| && LineEntry(parse, lines[i]).Some? ::
              LineEntry(parse, lines[i]).value in ReadLines(parse, lines)
  {
    var f := LineReader(parse);
    var es := ReadLines(parse, lines);
    FilterMapFrom(f, lines);
    FilterMapKeeps(f, lines);
    forall k | 0 <= k < |es|
      ensures exists i | 0 <= i < |lines| :: LineEntry(parse, lines[i]) == Some(es[k])
    {
      var i :| 0 <= i < |lines| && f(lines[i]) == Some(es[k]);
      assert LineEntry(parse, lines[i]) == Some(es[k]);
    }
    forall i | 0 <= i < |lines| && LineEntry(parse, lines[i]).Some?
      ensures LineEntry(parse, lines[i]).value in es
    {
      assert f(lines[i]) == LineEntry(parse, lines[i]);
    }
  }

  /** Reading two files' worth of lines one after the other yields the
      entries of each, in order. */
  lemma ReadLinesAppend(parse: string -> LineParse, a: seq<string>, b: seq<string>)
    ensures ReadLines(parse, a + b) == ReadLines(parse, a) + ReadLines(parse, b)
  {
    FilterMapAppend(LineReader(parse), a, b);
  }

  /** Lines of whitespace yield nothing. */
  lemma {:induction false} BlankLinesYieldNothing(parse: string -> LineParse, lines: seq<string>)
    requires forall i | 0 <= i < |lines| :: AllSpace(lines[i])
    ensures ReadLines(parse, lines) == []
  {
    if |lines| > 0 {
      BlankLinesYieldNothing(parse, lines[1..]);
      assert LineReader(parse)(lines[0]).None?;
    }
  }

  /** The access-log test, for any method, path and version: one
      well-formed line yields one entry for its path. */
  lemma SingleLine(parse: string -> LineParse, line: string, m: string, path: string, version: string, time: nat)
    requires m in HttpMethods
    requires |path| >= 1 && forall i | 0 <= i < |path| :: !IsSpace(path[i])
    requires parse(Strip(line)) == Matched(m + " " + path + " " + version, Some(time))
    requires !AllSpace(line)
    ensures ReadLines(parse, [line]) == [Entry(path, time)]
  {
    StripEmpty(line);
    RequestUrl(m, path, version);
    assert [line][1..] == [];
    assert LineReader(parse)(line) == Some(Entry(path, time));
  }
}

=== FILE: outcomes.dfy ===
/** Failure-carrying datatypes shared by every module: Python's `None`-or-value,
    and a computation that either returns a value or raises an exception. */
module Outcomes {

  datatype Option<+T> = None | Some(value: T)

  /** The Python exception classes the modelled code can raise or catch.
      `ConnectionError` and `RedisError` are `redis.ConnectionError` and any other
      `redis.RedisError`; the rest are the built-in classes of the same name. */
  datatype Exc = ConnectionError | RedisError | TypeError | AttributeError | ValueError | ZeroDivisionError

  /** A Python call that either returns a value or raises. */
  datatype Result<+T> = Ok(value: T) | Err(exc: Exc) {
    predicate IsFailure() { Err? }
    function PropagateFailure<U>(): Result<U>
      requires Err?
    {
      Err(exc)
    }
    function Extract(): T
      requires Ok?
    {
      value
    }
  }
}

=== FILE: requests.dfy ===
/** `BaseRequest` and the three request classes of the scoring API: a request
    is built from a raw mapping by visiting every declared field in
    declaration order, storing the values that validate and recording one
    error per failing field; the cross-field hook runs only when no field failed. */
module Requests {
  import opened Outcomes
  import opened Calendar
  import opened Values
  import opened Validators

  /** One class-level field declaration: attribute name and descriptor. */
  datatype FieldDecl = FieldDecl(name: string, field: Field)

  /** The `post_validate` hook of a request class. */
  datatype CrossCheck = NoCrossCheck | PairRule

  /** A request class: its fields in declaration order and its hook. */
  datatype Schema = Schema(decls: seq<FieldDecl>, cross: CrossCheck)

  /** A constructed request: the attributes `setattr` stored, and the `errors`
      dict as (field name, message) pairs in insertion order. */
  datatype Request = Request(attrs: map<string, Json>, errors: seq<(string, string)>)

  const RequiredMsg := "This field is requeired"
  const NullMsg := "This field cannot be null"
  const PairMsg := "At least one pair is required: (phone, email), (first_name, last_name), or (birthday, gender)."

  /** The key under which the pair rule records its error. */
  const PairErrorName := "arguments"

  const MethodRequestSchema := Schema([
    FieldDecl("account", Field(CharField, false, true)),
    FieldDecl("login", Field(CharField, true, true)),
    FieldDecl("token", Field(CharField, true, true)),
    FieldDecl("arguments", Field(ArgumentsField, true, true)),
    FieldDecl("method", Field(CharField, true, false))], NoCrossCheck)

  const OnlineScoreSchema := Schema([
    FieldDecl("first_name", Field(CharField, false, true)),
    FieldDecl("last_name", Field(CharField, false, true)),
    FieldDecl("email", Field(EmailField, false, true)),
    FieldDecl("phone", Field(PhoneField, false, true)),
    FieldDecl("birthday", Field(BirthDayField, false, true)),
    FieldDecl("gender", Field(GenderField, false, true))], PairRule)

  const ClientsInterestsSchema := Schema([
    FieldDecl("client_ids", Field(ClientIDsField, true, false)),
    FieldDecl("date", Field(DateField, false, true))], NoCrossCheck)

  /** Attribute names of a class are unique, and the pair rule's error key is
      not itself a field of the class that uses it. */
  predicate WellFormed(schema: Schema) {
    && DistinctNames(schema.decls)
    && (schema.cross == PairRule ==>
          forall i | 0 <= i < |schema.decls| :: schema.decls[i].name != PairErrorName)
  }

  predicate Declared(schema: Schema, name: string) {
    exists i | 0 <= i < |schema.decls| :: schema.decls[i].name == name
  }

  function ErrorNames(errors: seq<(string, string)>): (names: seq<string>)
    ensures |names| == |errors|
    ensures forall k | 0 <= k < |errors| :: names[k] == errors[k].0
  {
    if |errors| == 0 then [] else [errors[0].0] + ErrorNames(errors[1..])
  }

  /** What visiting one field does. */
  datatype Step = Skip | Keep(value: Json) | Fail(msg: string) | Raise(exc: Exc)

  /** One iteration of the field loop: absent, then null, then `validate`. */
  function FieldStep(d: FieldDecl, data: map<string, Json>, today: Date): (s: Step)
    requires Valid(today)
    ensures s.Keep? ==> s.value != JNull
  {
    if d.name !in data then (if d.field.required then Fail(RequiredMsg) else Skip)
    else if data[d.name] == JNull then (if d.field.nullable then Skip else Fail(NullMsg))
    else
      match Validate(d.field.kind, data[d.name], today)
      case Pass => Keep(data[d.name])
      case Reject(m) => Fail(m)
      case Crash(e) => Raise(e)
  }

  /** The index of the first field, in declaration order, that records an error. */
  function FirstFailure(decls: seq<FieldDecl>, data: map<string, Json>, today: Date): (r: Option<nat>)
    requires Valid(today)
    ensures r.Some? ==> r.value < |decls| && FieldStep(decls[r.value], data, today).Fail?
    ensures r.Some? ==> forall i | 0 <= i < r.value :: !FieldStep(decls[i], data, today).Fail?
    ensures r.None? ==> forall i | 0 <= i < |decls| :: !FieldStep(decls[i], data, today).Fail?
  {
    if |decls| == 0 then None
    else if FieldStep(decls[0], data, today).Fail? then Some(0)
    else
      match FirstFailure(decls[1..], data, today)
      case None => None
      case Some(j) => Some(j + 1)
  }

  /** The field loop of `BaseRequest.__init__`. Every field is visited whatever
      happened to the earlier ones; an exception other than `ValidationError`
      stops construction. */
  function ValidateFields(decls: seq<FieldDecl>, data: map<string, Json>, today: Date): (r: Result<Request>)
    requires Valid(today)
    ensures r.Ok? <==> forall i | 0 <= i < |decls| :: !FieldStep(decls[i], data, today).Raise?
    decreases |decls|
  {
    if |decls| == 0 then Ok(Request(map[], []))
    else
      var step := FieldStep(decls[0], data, today);
      if step.Raise? then Err(step.exc)
      else
        var rest :- ValidateFields(decls[1..], data, today);
        assert forall i | 1 <= i < |decls| :: decls[1..][i - 1] == decls[i];
        match step
        case Skip => Ok(rest)
        case Keep(v) => Ok(Request(rest.attrs[decls[0].name := v], rest.errors))
        case Fail(m) => Ok(Request(rest.attrs, [(decls[0].name, m)] + rest.errors))
  }

  predicate DistinctNames(decls: seq<FieldDecl>) {
    forall i, j | 0 <= i < j < |decls| :: decls[i].name != decls[j].name
  }

  /** One unfolding of the field loop on a non-empty declaration list. */
  lemma ValidateFieldsCons(decls: seq<FieldDecl>, data: map<string, Json>, today: Date)
    requires Valid(today) && |decls| > 0
    requires ValidateFields(decls, data, today).Ok?
    ensures ValidateFields(decls[1..], data, today).Ok?
    ensures var r := ValidateFields(decls, data, today).value;
      var rest := ValidateFields(decls[1..], data, today).value;
      match FieldStep(decls[0], data, today)
      case Skip => r == rest
      case Keep(v) => r == Request(rest.attrs[decls[0].name := v], rest.errors)
      case Fail(m) => r == Request(rest.attrs, [(decls[0].name, m)] + rest.errors)
      case Raise(_) => false
  {
  }

  function NamesOf(decls: seq<FieldDecl>): (names: seq<string>)
    ensures |names| == |decls|
    ensures forall i | 0 <= i < |decls| :: names[i] == decls[i].name
  {
    if |decls| == 0 then [] else [decls[0].name] + NamesOf(decls[1..])
  }

  /** A field's value is stored exactly when it was present, non-null and
      valid; nothing else is stored. */
  lemma {:induction false} StoredFields(decls: seq<FieldDecl>, data: map<string, Json>, today: Date)
    requires Valid(today) && DistinctNames(decls)
    requires ValidateFields(decls, data, today).Ok?
    ensures var r := ValidateFields(decls, data, today).value;
      && (forall n | n in r.attrs :: exists i | 0 <= i < |decls| :: decls[i].name == n)
      && (forall i | 0 <= i < |decls| ::
            (decls[i].name in r.attrs <==> FieldStep(decls[i], data, today).Keep?))
      && (forall i | 0 <= i < |decls| && FieldStep(decls[i], data, today).Keep? ::
            r.attrs[decls[i].name] == FieldStep(decls[i], data, today).value)
    decreases |decls|
  {
    if |decls| > 0 {
      StoredFields(decls[1..], data, today);
      assert forall i | 1 <= i < |decls| :: decls[1..][i - 1] == decls[i];
    }
  }

  /** Every recorded error is keyed by a declared field. */
  lemma {:induction false} ErrorsNameFields(decls: seq<FieldDecl>, data: map<string, Json>, today: Date)
    requires Valid(today)
    requires ValidateFields(decls, data, today).Ok?
    ensures var r := ValidateFields(decls, data, today).value;
      forall k | 0 <= k < |r.errors| :: r.errors[k].0 in NamesOf(decls)
    decreases |decls|
  {
    if |decls| > 0 {
      ValidateFieldsCons(decls, data, today);
      ErrorsNameFields(decls[1..], data, today);
      var names, tailNames := NamesOf(decls), NamesOf(decls[1..]);
      assert names == [decls[0].name] + tailNames;
      var r := ValidateFields(decls, data, today).value;
      var rest := ValidateFields(decls[1..], data, today).value;
      forall k | 0 <= k < |r.errors|
        ensures r.errors[k].0 in names
      {
        if FieldStep(decls[0], data, today).Fail? {
          if k > 0 {
            assert r.errors[k] == rest.errors[k - 1];
            assert rest.errors[k - 1].0 in tailNames;
          }
        } else {
          assert r.errors[k] == rest.errors[k];
        }
      }
    }
  }

  /** Exactly the failing fields have an error, and each error carries the
      message its field's validation produced. */
  lemma {:induction false} RecordedErrors(decls: seq<FieldDecl>, data: map<string, Json>, today: Date)
    requires Valid(today) && DistinctNames(decls)
    requires ValidateFields(decls, data, today).Ok?
    ensures var r := ValidateFields(decls, data, today).value;
      forall i | 0 <= i < |decls| ::
        (decls[i].name in ErrorNames(r.errors) <==> FieldStep(decls[i], data, today).Fail?)
    ensures var r := ValidateFields(decls, data, today).value;
      forall k, i | 0 <= k < |r.errors| && 0 <= i < |decls| && r.errors[k].0 == decls[i].name ::
        FieldStep(decls[i], data, today) == Fail(r.errors[k].1)
    decreases |decls|
  {
    if |decls| > 0 {
      ValidateFieldsCons(decls, data, today);
      RecordedErrors(decls[1..], data, today);
      ErrorsNameFields(decls[1..], data, today);
      var r := ValidateFields(decls, data, today).value;
      var rest := ValidateFields(decls[1..], data, today).value;
      var tail := decls[1..];
      assert forall i | 1 <= i < |decls| :: tail[i - 1] == decls[i];
      assert forall j | 0 <= j < |tail| :: tail[j].name != decls[0].name;
      assert decls[0].name !in NamesOf(tail);
      assert decls[0].name !in ErrorNames(rest.errors);
      if FieldStep(decls[0], data, today).Fail? {
        assert ErrorNames(r.errors) == [decls[0].name] + ErrorNames(rest.errors);
        assert forall k | 1 <= k < |r.errors| :: r.errors[k] == rest.errors[k - 1];
      } else {
        assert r.errors == rest.errors;
      }
    }
  }

  /** The first recorded error belongs to the first failing field in
      declaration order; no error at all means no field failed. */
  lemma {:induction false} FirstError(decls: seq<FieldDecl>, data: map<string, Json>, today: Date)
    requires Valid(today)
    requires ValidateFields(decls, data, today).Ok?
    ensures var r := ValidateFields(decls, data, today).value;
      match FirstFailure(decls, data, today)
      case None => r.errors == []
      case Some(j) => r.errors != [] && r.errors[0].0 == decls[j].name
    decreases |decls|
  {
    if |decls| > 0 {
      FirstError(decls[1..], data, today);
    }
  }

  /** The first entry of `get_errors()` of an invalid request: the first
      failing field with its message, or else the pair rule's error. */
  function FirstErrorOf(schema: Schema, data: map<string, Json>, today: Date): (string, string)
    requires Valid(today)
  {
    match FirstFailure(schema.decls, data, today)
    case Some(j) => (schema.decls[j].name, FieldStep(schema.decls[j], data, today).msg)
    case None => (PairErrorName, PairMsg)
  }

  /** The three pairs `OnlineScoreRequest.post_validate` looks for. */
  predicate PairPresent(attrs: map<string, Json>) {
    || ("phone" in attrs && "email" in attrs)
    || ("first_name" in attrs && "last_name" in attrs)
    || ("gender" in attrs && "birthday" in attrs)
  }

  function CrossValidate(cross: CrossCheck, r: Request): Request {
    match cross
    case NoCrossCheck => r
    case PairRule =>
      if PairPresent(r.attrs) then r else Request(r.attrs, r.errors + [(PairErrorName, PairMsg)])
  }

  /** `BaseRequest.__init__(data)`: `data.get` raises `AttributeError` on
      anything but a dict (a `None`, a list, a field descriptor); otherwise
      construction fails exactly when some field's validation raises. */
  function Build(schema: Schema, data: PyValue, today: Date): (r: Result<Request>)
    requires Valid(today)
    ensures !(data.Val? && data.json.JObj?) ==> r == Err(AttributeError)
    ensures r.Err? <==> (!(data.Val? && data.json.JObj?)
                         || exists i | 0 <= i < |schema.decls| ::
                              FieldStep(schema.decls[i], data.json.fields, today).Raise?)
  {
    if !(data.Val? && data.json.JObj?) then Err(AttributeError)
    else
      var fields :- ValidateFields(schema.decls, data.json.fields, today);
      if fields.errors == [] then Ok(CrossValidate(schema.cross, fields)) else Ok(fields)
  }

  /** `is_valid`. */
  predicate IsValid(r: Request) {
    r.errors == []
  }

  /** The descriptor of the first declaration named `name`. */
  function FieldNamed(decls: seq<FieldDecl>, name: string): (f: Field)
    requires exists i | 0 <= i < |decls| :: decls[i].name == name
    ensures exists i | 0 <= i < |decls| :: decls[i].name == name && decls[i].field == f
  {
    if decls[0].name == name then decls[0].field
    else
      assert exists i | 0 <= i < |decls[1..]| :: decls[1..][i].name == name by {
        var i :| 0 <= i < |decls| && decls[i].name == name;
        assert decls[1..][i - 1] == decls[i];
      }
      var f := FieldNamed(decls[1..], name);
      assert exists i | 0 <= i < |decls| :: decls[i].name == name && decls[i].field == f by {
        var j :| 0 <= j < |decls[1..]| && decls[1..][j].name == name && decls[1..][j].field == f;
        assert decls[j + 1] == decls[1..][j];
      }
      f
  }

  /** `getattr(request, name, None)` for a declared field: the stored value,
      or, when the instance never got the attribute, the class-level descriptor. */
  function Lookup(schema: Schema, r: Request, name: string): (v: PyValue)
    requires Declared(schema, name)
    ensures v.Val? || v.FieldObject?
    ensures v.Val? <==> name in r.attrs
    ensures v.Val? ==> v.json == r.attrs[name]
    ensures v.FieldObject? ==> exists i | 0 <= i < |schema.decls| ::
              schema.decls[i].name == name && schema.decls[i].field == v.field
  {
    if name in r.attrs then Val(r.attrs[name]) else FieldObject(FieldNamed(schema.decls, name))
  }

  /** `xs` is `ys` with some elements left out and the rest in order. */
  predicate Subsequence<T(==)>(xs: seq<T>, ys: seq<T>)
    decreases |ys|
  {
    if |xs| == 0 then true
    else if |ys| == 0 then false
    else (xs[0] == ys[0] && Subsequence(xs[1..], ys[1..])) || Subsequence(xs, ys[1..])
  }

  /** `get_non_empty_fields`: declared fields the instance holds with a value
      other than `None`, `""` and `[]`, in declaration order, each once. */
  function NonEmptyFields(decls: seq<FieldDecl>, r: Request): (names: seq<string>)
    ensures forall n :: n in names <==>
              (n in r.attrs && r.attrs[n] !in {JNull, JStr(""), JList([])}
               && exists i | 0 <= i < |decls| :: decls[i].name == n)
    ensures |names| <= |decls|
    ensures Subsequence(names, NamesOf(decls))
    ensures DistinctNames(decls) ==> forall i, j | 0 <= i < j < |names| :: names[i] != names[j]
  {
    if |decls| == 0 then []
    else
      var n := decls[0].name;
      var rest := NonEmptyFields(decls[1..], r);
      assert forall i | 1 <= i < |decls| :: decls[1..][i - 1] == decls[i];
      assert NamesOf(decls)[0] == n && NamesOf(decls)[1..] == NamesOf(decls[1..]);
      assert DistinctNames(decls) ==> DistinctNames(decls[1..]) && n !in rest;
      if n in r.attrs && r.attrs[n] !in {JNull, JStr(""), JList([])} then
        assert ([n] + rest)[1..] == rest;
        [n] + rest
      else rest
  }

  lemma SchemasWellFormed()
    ensures WellFormed(MethodRequestSchema)
    ensures WellFormed(OnlineScoreSchema)
    ensures WellFormed(ClientsInterestsSchema)
  {
  }

  /** The descriptor at position `i` of a schema with distinct names. */
  lemma FieldNamedAt(decls: seq<FieldDecl>, i: nat)
    requires DistinctNames(decls) && i < |decls|
    ensures FieldNamed(decls, decls[i].name) == decls[i].field
  {
  }

  /** After construction, each declared field reads back as the validated
      value when its step kept one and as the class-level descriptor
      otherwise; a built request never yields a stored `None`. */
  lemma {:induction false} BuiltLookup(schema: Schema, data: map<string, Json>, today: Date, i: nat)
    requires Valid(today) && WellFormed(schema) && i < |schema.decls|
    requires Build(schema, Val(JObj(data)), today).Ok?
    ensures var r := Build(schema, Val(JObj(data)), today).value;
      var d := schema.decls[i];
      Declared(schema, d.name)
      && Lookup(schema, r, d.name) == (match FieldStep(d, data, today)
                                       case Keep(v) => Val(v)
                                       case _ => FieldObject(d.field))
      && Lookup(schema, r, d.name) != PyNone
  {
    StoredFields(schema.decls, data, today);
    FieldNamedAt(schema.decls, i);
  }

  /** A kept value is the raw value, and it passed its validator. */
  lemma KeptValuePassed(d: FieldDecl, data: map<string, Json>, today: Date)
    requires Valid(today) && FieldStep(d, data, today).Keep?
    ensures d.name in data && data[d.name] == FieldStep(d, data, today).value
    ensures Validate(d.field.kind, FieldStep(d, data, today).value, today) == Pass
  {
  }

  /** `is_valid` after construction: no field failed and, for a class with
      the pair rule, one of the three pairs was stored. The first error is
      that of the first failing field in declaration order, and the pair
      rule's error can only be the sole error. */
  lemma {:induction false} BuildErrors(schema: Schema, data: map<string, Json>, today: Date)
    requires Valid(today) && WellFormed(schema)
    requires Build(schema, Val(JObj(data)), today).Ok?
    ensures var r := Build(schema, Val(JObj(data)), today).value;
      IsValid(r) <==> ((forall i | 0 <= i < |schema.decls| :: !FieldStep(schema.decls[i], data, today).Fail?)
                       && (schema.cross == PairRule ==> PairPresent(r.attrs)))
    ensures var r := Build(schema, Val(JObj(data)), today).value;
      !IsValid(r) ==> r.errors[0].0 == (match FirstFailure(schema.decls, data, today)
                                        case Some(j) => schema.decls[j].name
                                        case None => PairErrorName)
    ensures var r := Build(schema, Val(JObj(data)), today).value;
      schema.cross == PairRule && PairErrorName in ErrorNames(r.errors) ==> r.errors == [(PairErrorName, PairMsg)]
    ensures var r := Build(schema, Val(JObj(data)), today).value;
      forall i | 0 <= i < |schema.decls| ::
        (schema.decls[i].name in r.attrs <==> FieldStep(schema.decls[i], data, today).Keep?)
  {
    var f := ValidateFields(schema.decls, data, today);
    StoredFields(schema.decls, data, today);
    RecordedErrors(schema.decls, data, today);
    ErrorsNameFields(schema.decls, data, today);
    FirstError(schema.decls, data, today);
    var r := Build(schema, Val(JObj(data)), today).value;
    if f.value.errors != [] {
      assert r == f.value;
    }
  }

  /** The first error an invalid request records is the first failing
      field with its own message, or the pair rule's error when no field
      failed. */
  lemma FirstErrorEntry(schema: Schema, data: map<string, Json>, today: Date)
    requires Valid(today) && WellFormed(schema)
    requires Build(schema, Val(JObj(data)), today).Ok?
    requires !IsValid(Build(schema, Val(JObj(data)), today).value)
    ensures Build(schema, Val(JObj(data)), today).value.errors[0] == FirstErrorOf(schema, data, today)
  {
    var r := Build(schema, Val(JObj(data)), today).value;
    var fields := ValidateFields(schema.decls, data, today).value;
    FirstError(schema.decls, data, today);
    match FirstFailure(schema.decls, data, today)
    case Some(j) =>
      RecordedErrors(schema.decls, data, today);
      assert r == fields;
      assert FieldStep(schema.decls[j], data, today) == Fail(r.errors[0].1);
    case None =>
      assert fields.errors == [];
  }

  /** A valid `ClientsInterestsRequest` holds its required ids as a
      non-empty list. */
  lemma ValidClientIds(args: map<string, Json>, today: Date)
    requires Valid(today)
    requires Build(ClientsInterestsSchema, Val(JObj(args)), today).Ok?
    requires IsValid(Build(ClientsInterestsSchema, Val(JObj(args)), today).value)
    ensures Declared(ClientsInterestsSchema, "client_ids")
    ensures var ids := Lookup(ClientsInterestsSchema, Build(ClientsInterestsSchema, Val(JObj(args)), today).value, "client_ids");
      ids.Val? && ids.json.JList? && |ids.json.items| > 0
  {
    SchemasWellFormed();
    var d := ClientsInterestsSchema.decls[0];
    assert d.name == "client_ids";
    BuildErrors(ClientsInterestsSchema, args, today);
    BuiltLookup(ClientsInterestsSchema, args, today, 0);
    assert FieldStep(d, args, today).Keep?;
    KeptValuePassed(d, args, today);
  }

  /** The `i`-th field of `OnlineScoreRequest` is stored. */
  predicate ScoreFieldKept(data: map<string, Json>, today: Date, i: nat)
    requires Valid(today) && i < 6
  {
    FieldStep(OnlineScoreSchema.decls[i], data, today).Keep?
  }

  /** `OnlineScoreRequest` is valid exactly when no field failed and one of
      (phone, email), (first_name, last_name), (gender, birthday) was present,
      non-null and valid. */
  lemma OnlineScoreValidity(data: map<string, Json>, today: Date)
    requires Valid(today)
    requires Build(OnlineScoreSchema, Val(JObj(data)), today).Ok?
    ensures var r := Build(OnlineScoreSchema, Val(JObj(data)), today).value;
      IsValid(r) <==> ((forall i | 0 <= i < 6 :: !FieldStep(OnlineScoreSchema.decls[i], data, today).Fail?)
                       && ((ScoreFieldKept(data, today, 3) && ScoreFieldKept(data, today, 2))
                           || (ScoreFieldKept(data, today, 0) && ScoreFieldKept(data, today, 1))
                           || (ScoreFieldKept(data, today, 5) && ScoreFieldKept(data, today, 4))))
  {
    SchemasWellFormed();
    BuildErrors(OnlineScoreSchema, data, today);
  }
}

=== FILE: scoring.dfy ===
/** `get_score` and `get_interests`: the cache-aside scoring function and the
    interests lookup, over the `Store` model. Scores are counted in integer
    half-points so that the float sums of the service are exact. */
module Scoring {
  import opened Outcomes
  import opened Text
  import opened Calendar
  import opened Values
  import opened Store

  /** The keyword arguments of `get_score`, each whatever object the caller passed. */
  datatype ScoreArgs = ScoreArgs(
    phone: PyValue, email: PyValue, birthday: PyValue, gender: PyValue,
    firstName: PyValue, lastName: PyValue)

  /** A `datetime` argument is a real calendar date. */
  predicate WellTyped(a: ScoreArgs) {
    a.birthday.DateTime? ==> Valid(a.birthday.date)
  }

  /** `str(v) if v else ""`. */
  function KeyPart(env: Env, v: PyValue): (s: string)
    ensures !Truthy(v) ==> s == ""
  {
    if Truthy(v) then Str(env, v) else ""
  }

  /** `birthday.strftime("%Y%m%d") if isinstance(birthday, datetime) else ""`. */
  function BirthdayKeyPart(v: PyValue): (s: string)
    requires v.DateTime? ==> Valid(v.date)
    ensures v.DateTime? ==> ParseCompact(s) == Some(v.date)
    ensures !v.DateTime? ==> s == ""
  {
    if v.DateTime? then
      ParseFormatCompact(v.date);
      FormatCompact(v.date)
    else ""
  }

  const ScoreKeyPrefix := "uid:"

  /** The cache key of `get_score`: `"uid:"` and the MD5 hex digest of the
      joined first name, last name, phone and `datetime` birthday. */
  function ScoreKey(env: Env, a: ScoreArgs): (key: string)
    requires WellTyped(a)
    ensures |key| >= |ScoreKeyPrefix| && key[..|ScoreKeyPrefix|] == ScoreKeyPrefix
  {
    ScoreKeyPrefix + env.md5(KeyPart(env, a.firstName) + KeyPart(env, a.lastName)
                             + KeyPart(env, a.phone) + BirthdayKeyPart(a.birthday))
  }

  /** The key sees only the names, the phone and a `datetime` birthday: email
      and gender never change it, and neither does a birthday that is not a
      `datetime` (such as the `dd.mm.yyyy` string a request carries). */
  lemma ScoreKeyInputs(env: Env, a: ScoreArgs, b: ScoreArgs)
    requires WellTyped(a) && WellTyped(b)
    requires a.firstName == b.firstName && a.lastName == b.lastName && a.phone == b.phone
    requires a.birthday == b.birthday || (!a.birthday.DateTime? && !b.birthday.DateTime?)
    ensures ScoreKey(env, a) == ScoreKey(env, b)
  {
  }

  /** The contributions, in half-points: phone 1.5, email 1.5, birthday with
      gender 1.5, both names 0.5. */
  const PhonePoints: nat := 3
  const EmailPoints: nat := 3
  const BirthdayGenderPoints: nat := 3
  const NamesPoints: nat := 1

  /** The score `get_score` computes on a cache miss, in half-points. */
  function Points(a: ScoreArgs): (p: nat)
    ensures p <= 10
    ensures p == 10 <==> Truthy(a.phone) && Truthy(a.email) && Truthy(a.birthday)
                         && a.gender != PyNone && Truthy(a.firstName) && Truthy(a.lastName)
  {
    (if Truthy(a.phone) then PhonePoints else 0)
    + (if Truthy(a.email) then EmailPoints else 0)
    + (if Truthy(a.birthday) && a.gender != PyNone then BirthdayGenderPoints else 0)
    + (if Truthy(a.firstName) && Truthy(a.lastName) then NamesPoints else 0)
  }

  /** The same sum as the service writes it, in floating-point units. */
  function ScoreValue(a: ScoreArgs): real {
    var s0 := 0.0;
    var s1 := if Truthy(a.phone) then s0 + 1.5 else s0;
    var s2 := if Truthy(a.email) then s1 + 1.5 else s1;
    var s3 := if Truthy(a.birthday) && a.gender != PyNone then s2 + 1.5 else s2;
    if Truthy(a.firstName) && Truthy(a.lastName) then s3 + 0.5 else s3
  }

  /** Half-points are the service's score, doubled; the score lies in [0, 5]. */
  lemma PointsAreDoubledScore(a: ScoreArgs)
    ensures Points(a) as real == 2.0 * ScoreValue(a)
    ensures 0.0 <= ScoreValue(a) <= 5.0
  {
  }

  /** `repr(p / 2)` for a score of `p` half-points: `"4.5"`, `"5.0"`, `"0.0"`. */
  function ScoreText(p: nat): (s: string)
    ensures |s| >= 3 && s[|s| - 2] == '.'
  {
    Natural(p / 2) + "." + (if p % 2 == 0 then "0" else "5")
  }

  /** `float(s)` on the texts `ScoreText` writes, in half-points. */
  function ParseScoreText(s: string): Option<nat> {
    if |s| < 3 || s[|s| - 2] != '.' || !AllDigits(s[..|s| - 2]) then None
    else if s[|s| - 1] == '0' then Some(2 * Numeral(s[..|s| - 2]))
    else if s[|s| - 1] == '5' then Some(2 * Numeral(s[..|s| - 2]) + 1)
    else None
  }

  /** The cached text reads back as the score that was written. */
  lemma ScoreTextRoundTrip(p: nat)
    ensures ParseScoreText(ScoreText(p)) == Some(p)
  {
    var s := ScoreText(p);
    assert s[..|s| - 2] == Natural(p / 2);
    NumeralOfNatural(p / 2);
  }

  /** What `get_score` returns: the cached text (which it passes to `float`),
      or a freshly computed score in half-points. */
  datatype ScoreReply = Cached(text: string) | Fresh(points: nat)

  /** The cache lifetime of a computed score, in seconds. */
  const ScoreTtl := 60 * 60

  /** `get_score`: a healthy cache hit returns the cached text and writes
      nothing; otherwise the score is computed and written under the same key
      for an hour, a failing write being swallowed. */
  function GetScore(env: Env, b: Backend, a: ScoreArgs): (r: (ScoreReply, Backend))
    requires WellTyped(a)
    ensures var key := ScoreKey(env, a);
      FaultAt(b, 0).None? && key in b.data ==> r == (Cached(b.data[key]), Consume(b, 1))
    ensures var key := ScoreKey(env, a);
      !(FaultAt(b, 0).None? && key in b.data) ==> r.0 == Fresh(Points(a))
    ensures var key := ScoreKey(env, a);
      r.0.Fresh? && FaultAt(b, 1).None? ==>
        Read(r.1, key) == Some(ScoreText(Points(a))) && key in r.1.ttl && r.1.ttl[key] == ScoreTtl
    ensures r.0.Fresh? && FaultAt(b, 1).Some? ==> r.1.data == b.data && r.1.ttl == b.ttl
    ensures forall k | k != ScoreKey(env, a) :: Read(r.1, k) == Read(b, k)
  {
    var key := ScoreKey(env, a);
    var (cached, b1) := CacheGet(b, key);
    if cached.Some? then (Cached(cached.value), b1)
    else
      var p := Points(a);
      (Fresh(p), CacheSet(b1, key, ScoreText(p), ScoreTtl))
  }

  /** Asking twice on a healthy store: the second call is a cache hit whose
      text reads back as the first call's score, and it writes nothing. */
  lemma {:induction false} GetScoreTwice(env: Env, b: Backend, a: ScoreArgs)
    requires WellTyped(a)
    requires FaultAt(b, 0).None? && FaultAt(b, 1).None? && FaultAt(b, 2).None?
    ensures var (first, b1) := GetScore(env, b, a);
      var (second, b2) := GetScore(env, b1, a);
      && second.Cached?
      && b2.data == b1.data
      && (first.Fresh? ==> ParseScoreText(second.text) == Some(first.points))
      && (first.Cached? ==> second == first)
  {
    var key := ScoreKey(env, a);
    var (first, b1) := GetScore(env, b, a);
    if first.Fresh? {
      assert FaultAt(b1, 0) == FaultAt(b, 2);
      ScoreTextRoundTrip(Points(a));
    } else {
      assert FaultAt(b1, 0) == FaultAt(b, 1);
    }
  }

  /** The store key of a client's interests: `f"i:{cid}"`. */
  function InterestsKey(env: Env, cid: PyValue): string {
    "i:" + Str(env, cid)
  }

  /** `[str(i) for i in items]`. */
  function StrAll(env: Env, items: seq<Json>): (ss: seq<string>)
    ensures |ss| == |items|
    ensures forall k | 0 <= k < |items| :: ss[k] == Str(env, Val(items[k]))
  {
    if |items| == 0 then [] else [Str(env, Val(items[0]))] + StrAll(env, items[1..])
  }

  /** What `get_interests` returns for the data a healthy store holds: the
      stored JSON list with each element stringified; `[]` when the key is
      missing, the text is not JSON, or the JSON is not a list. */
  function StoredInterests(env: Env, data: map<string, string>, cid: PyValue): seq<string> {
    var key := InterestsKey(env, cid);
    if key !in data then []
    else
      match env.loads(data[key])
      case Some(JList(items)) => StrAll(env, items)
      case _ => []
  }

  /** `get_interests`: an error of `Store.get` escapes; otherwise the result
      is the stored list's elements stringified, or `[]`. */
  function GetInterests(env: Env, b: Backend, cid: PyValue): (r: (Result<seq<string>>, Backend))
    ensures r.1.data == b.data
    ensures r.0.Err? ==> r.0.exc == ConnectionError || r.0.exc == RedisError
    ensures FaultAt(b, 0).None? ==> r.0.Ok? && r.1 == Consume(b, 1)
    ensures r.0.Ok? ==> r.0.value == StoredInterests(env, b.data, cid)
    ensures r.0.Ok? ==>
      match Read(b, InterestsKey(env, cid))
      case None => r.0.value == []
      case Some(text) =>
        (match env.loads(text)
         case Some(JList(items)) =>
           |r.0.value| == |items| && forall k | 0 <= k < |items| :: r.0.value[k] == Str(env, Val(items[k]))
         case _ => r.0.value == [])
  {
    var (got, b1) := Get(b, InterestsKey(env, cid));
    match got
    case Err(e) => (Err(e), b1)
    case Ok(None) => (Ok([]), b1)
    case Ok(Some(text)) =>
      match env.loads(text)
      case Some(JList(items)) => (Ok(StrAll(env, items)), b1)
      case _ => (Ok([]), b1)
  }

  /** A client whose interests are stored as `[1, 2]` gets `["1", "2"]`. */
  lemma InterestsOfStoredList(env: Env, b: Backend, cid: PyValue, text: string)
    requires FaultAt(b, 0).None? && Read(b, InterestsKey(env, cid)) == Some(text)
    requires env.loads(text) == Some(JList([JInt(1), JInt(2)]))
    ensures GetInterests(env, b, cid).0 == Ok(["1", "2"])
  {
    var r := GetInterests(env, b, cid);
    assert r.0.Ok?;
    var names := r.0.value;
    assert |names| == 2;
    assert Natural(1) == "1" && Natural(2) == "2";
    assert names[0] == Str(env, Val(JInt(1))) == "1";
    assert names[1] == Str(env, Val(JInt(2))) == "2";
    assert names == ["1", "2"];
  }
}

=== FILE: stats.dfy ===
/** `get_statistics_from_log_file` without its floating-point columns: the
    entries grouped by URL in first-seen order with their count, time sum and
    largest time, the groups sorted by time sum from largest to smallest
    (stably, as Python's `sorted(..., reverse=True)` is), and the sorted list
    cut to `report_size` rows as the slice `[:report_size]` does.

    The grouping only ever compares URLs for equality, so it is written for
    any key type `K` and used with `string`. */
module Stats {
  import opened Outcomes
  import opened LogLines

  /** One timed request: its URL and its time. */
  datatype Hit<K> = Hit(url: K, time: nat)

  /** What the service gathers for one URL. */
  datatype Agg = Agg(count: nat, timeSum: nat, timeMax: nat)

  /** The per-URL dictionary: its keys in insertion order and its values. */
  datatype Table<K> = Table(keys: seq<K>, aggs: map<K, Agg>)

  /** One report row (the float columns left aside). */
  datatype Row<K> = Row(url: K, count: nat, timeSum: nat, timeMax: nat)

  predicate Distinct<K(==)>(s: seq<K>) {
    forall i, j | 0 <= i < j < |s| :: s[i] != s[j]
  }

  /** A dictionary: distinct keys, exactly the keys of the map. */
  predicate TableOk<K(==)>(t: Table<K>) {
    && Distinct(t.keys)
    && (forall k | 0 <= k < |t.keys| :: t.keys[k] in t.aggs)
    && (forall u | u in t.aggs :: u in t.keys)
  }

  function Last<K>(hs: seq<Hit<K>>): Hit<K>
    requires |hs| > 0
  {
    hs[|hs| - 1]
  }

  function Init<K>(hs: seq<Hit<K>>): seq<Hit<K>>
    requires |hs| > 0
  {
    hs[..|hs| - 1]
  }

  /** How many hits have URL `u`. */
  function CountOf<K(==)>(hs: seq<Hit<K>>, u: K): nat {
    if |hs| == 0 then 0 else CountOf(Init(hs), u) + (if Last(hs).url == u then 1 else 0)
  }

  /** The total time of the hits with URL `u`. */
  function SumOf<K(==)>(hs: seq<Hit<K>>, u: K): nat {
    if |hs| == 0 then 0 else SumOf(Init(hs), u) + (if Last(hs).url == u then Last(hs).time else 0)
  }

  /** The largest time among the hits with URL `u` (0 when there is none). */
  function MaxOf<K(==)>(hs: seq<Hit<K>>, u: K): nat {
    if |hs| == 0 then 0
    else
      var m := MaxOf(Init(hs), u);
      if Last(hs).url == u && Last(hs).time > m then Last(hs).time else m
  }

  /** The index of the first hit with URL `u`, or `|hs|` when there is none. */
  function FirstIndex<K(==)>(hs: seq<Hit<K>>, u: K): (r: nat)
    ensures r <= |hs|
    ensures r < |hs| ==> hs[r].url == u
    ensures forall k | 0 <= k < r :: hs[k].url != u
  {
    if |hs| == 0 then 0
    else
      var f := FirstIndex(Init(hs), u);
      if f < |hs| - 1 then f
      else if Last(hs).url == u then |hs| - 1
      else |hs|
  }

  /** `MaxOf` is the maximum: no time of `u` exceeds it, and some hit of `u`
      attains it. */
  lemma {:induction false} MaxOfIsMaximum<K>(hs: seq<Hit<K>>, u: K)
    ensures forall k | 0 <= k < |hs| && hs[k].url == u :: hs[k].time <= MaxOf(hs, u)
    ensures CountOf(hs, u) >= 1 ==> exists k | 0 <= k < |hs| :: hs[k].url == u && hs[k].time == MaxOf(hs, u)
    ensures CountOf(hs, u) == 0 ==> MaxOf(hs, u) == 0
  {
    if |hs| > 0 {
      var init := Init(hs);
      MaxOfIsMaximum(init, u);
      assert forall k | 0 <= k < |init| :: init[k] == hs[k];
      if CountOf(hs, u) >= 1 && MaxOf(hs, u) == MaxOf(init, u) && !(Last(hs).url == u && Last(hs).time == MaxOf(hs, u)) {
        assert CountOf(init, u) >= 1;
        var k :| 0 <= k < |init| && init[k].url == u && init[k].time == MaxOf(init, u);
        assert hs[k] == init[k];
      }
    }
  }

  /** A URL occurs exactly when it is counted at least once. */
  lemma {:induction false} CountedIffPresent<K>(hs: seq<Hit<K>>, u: K)
    ensures CountOf(hs, u) >= 1 <==> FirstIndex(hs, u) < |hs|
  {
    if |hs| > 0 {
      CountedIffPresent(Init(hs), u);
    }
  }

  /** A URL that never occurs has no time. */
  lemma {:induction false} SumOfAbsent<K>(hs: seq<Hit<K>>, u: K)
    requires CountOf(hs, u) == 0
    ensures SumOf(hs, u) == 0
  {
    if |hs| > 0 {
      SumOfAbsent(Init(hs), u);
    }
  }

  /** One hit added to the dictionary: a known URL's group grows, a new URL
      is appended with a group of one. */
  function Absorb<K(==)>(t: Table<K>, h: Hit<K>): (t': Table<K>)
    requires TableOk(t)
    ensures TableOk(t')
    ensures t'.aggs.Keys == t.aggs.Keys + {h.url}
    ensures h.url in t.aggs ==> t'.keys == t.keys
    ensures h.url !in t.aggs ==> t'.keys == t.keys + [h.url]
    ensures forall u | u in t.aggs && u != h.url :: t'.aggs[u] == t.aggs[u]
  {
    if h.url in t.aggs then
      var a := t.aggs[h.url];
      Table(t.keys, t.aggs[h.url := Agg(a.count + 1, a.timeSum + h.time, if h.time > a.timeMax then h.time else a.timeMax)])
    else
      Table(t.keys + [h.url], t.aggs[h.url := Agg(1, h.time, h.time)])
  }

  /** `url_data`: the hits grouped by URL; every URL of the input has a group. */
  function Group<K(==)>(hs: seq<Hit<K>>): (t: Table<K>)
    ensures TableOk(t)
    ensures forall k | 0 <= k < |hs| :: hs[k].url in t.aggs
  {
    if |hs| == 0 then Table([], map[])
    else
      var init, h := Init(hs), Last(hs);
      var t0 := Group(init);
      var t := Absorb(t0, h);
      assert forall k | 0 <= k < |hs| :: hs[k].url in t.aggs by {
        forall k | 0 <= k < |hs|
          ensures hs[k].url in t.aggs
        {
          if k < |init| {
            assert hs[k] == init[k];
            assert init[k].url in t0.aggs;
          }
        }
      }
      t
  }

  /** Every group's URL occurs in the input. */
  lemma {:induction false} GroupKeysOccur<K>(hs: seq<Hit<K>>)
    ensures forall u | u in Group(hs).aggs :: FirstIndex(hs, u) < |hs|
  {
    if |hs| > 0 {
      var init := Init(hs);
      GroupKeysOccur(init);
      forall u | u in Group(hs).aggs
        ensures FirstIndex(hs, u) < |hs|
      {
        if u in Group(init).aggs {
          assert FirstIndex(init, u) < |init|;
        }
      }
    }
  }

  /** Each group holds the count, time sum and largest time of its URL. */
  lemma {:induction false} GroupAggregates<K>(hs: seq<Hit<K>>)
    ensures forall u | u in Group(hs).aggs :: Group(hs).aggs[u] == Agg(CountOf(hs, u), SumOf(hs, u), MaxOf(hs, u))
  {
    if |hs| > 0 {
      var init, h := Init(hs), Last(hs);
      GroupAggregates(init);
      var t0 := Group(init);
      var t := Group(hs);
      forall u | u in t.aggs
        ensures t.aggs[u] == Agg(CountOf(hs, u), SumOf(hs, u), MaxOf(hs, u))
      {
        assert CountOf(hs, u) == CountOf(init, u) + (if h.url == u then 1 else 0);
        assert SumOf(hs, u) == SumOf(init, u) + (if h.url == u then h.time else 0);
        assert MaxOf(hs, u) == if h.url == u && h.time > MaxOf(init, u) then h.time else MaxOf(init, u);
        if u != h.url {
          assert t.aggs[u] == t0.aggs[u];
        } else if h.url in t0.aggs {
          assert t0.aggs[u] == Agg(CountOf(init, u), SumOf(init, u), MaxOf(init, u));
        } else {
          CountedIffPresent(init, u);
          assert forall k | 0 <= k < |init| :: init[k].url in t0.aggs;
          assert CountOf(init, u) == 0;
          MaxOfIsMaximum(init, u);
          SumOfAbsent(init, u);
        }
      }
    }
  }

  /** A URL seen before the last hit keeps its first index; one seen first
      at the last hit has that index. */
  lemma FirstIndexOfInit<K>(hs: seq<Hit<K>>, u: K)
    requires |hs| > 0
    ensures FirstIndex(Init(hs), u) < |hs| - 1 ==> FirstIndex(hs, u) == FirstIndex(Init(hs), u)
    ensures FirstIndex(Init(hs), u) == |hs| - 1 && Last(hs).url == u ==> FirstIndex(hs, u) == |hs| - 1
  {
  }

  /** How one hit changes the dictionary's keys: a new URL is appended, and
      its first index is the last position. */
  lemma GroupStep<K>(hs: seq<Hit<K>>)
    requires |hs| > 0
    ensures Last(hs).url in Group(Init(hs)).aggs ==> Group(hs).keys == Group(Init(hs)).keys
    ensures Last(hs).url !in Group(Init(hs)).aggs ==>
              Group(hs).keys == Group(Init(hs)).keys + [Last(hs).url] && FirstIndex(hs, Last(hs).url) == |hs| - 1
  {
    var init := Init(hs);
    if Last(hs).url !in Group(init).aggs {
      assert forall k | 0 <= k < |init| :: init[k].url in Group(init).aggs;
      assert FirstIndex(init, Last(hs).url) == |init|;
    }
  }

  /** The URLs grouped before the last hit keep their first index. */
  lemma KeysKeepFirstIndex<K>(hs: seq<Hit<K>>)
    requires |hs| > 0
    ensures forall i | 0 <= i < |Group(Init(hs)).keys| ::
              FirstIndex(hs, Group(Init(hs)).keys[i]) == FirstIndex(Init(hs), Group(Init(hs)).keys[i]) < |hs| - 1
  {
    var init := Init(hs);
    var ks := Group(init).keys;
    GroupKeysOccur(init);
    forall i | 0 <= i < |ks|
      ensures FirstIndex(hs, ks[i]) == FirstIndex(init, ks[i]) < |init|
    {
      assert ks[i] in Group(init).aggs;
      FirstIndexOfInit(hs, ks[i]);
    }
  }

  /** Keys ordered by `f` stay ordered by `g` when `g` agrees with `f` on
      them. */
  lemma KeepsOrder<K>(ks: seq<K>, f: K -> nat, g: K -> nat)
    requires forall i, j | 0 <= i < j < |ks| :: f(ks[i]) < f(ks[j])
    requires forall i | 0 <= i < |ks| :: g(ks[i]) == f(ks[i])
    ensures forall i, j | 0 <= i < j < |ks| :: g(ks[i]) < g(ks[j])
  {
  }

  /** Appending a key that `g` puts after all the others keeps the order. */
  lemma AppendKeepsOrder<K>(ks: seq<K>, x: K, g: K -> nat)
    requires forall i, j | 0 <= i < j < |ks| :: g(ks[i]) < g(ks[j])
    requires forall i | 0 <= i < |ks| :: g(ks[i]) < g(x)
    ensures forall i, j | 0 <= i < j < |ks + [x]| :: g((ks + [x])[i]) < g((ks + [x])[j])
  {
    forall i, j | 0 <= i < j < |ks + [x]|
      ensures g((ks + [x])[i]) < g((ks + [x])[j])
    {
      assert (ks + [x])[i] == ks[i];
      if j < |ks| {
        assert (ks + [x])[j] == ks[j];
      }
    }
  }

  /** The keys are in first-seen order. */
  lemma {:induction false} GroupOrder<K(!new)>(hs: seq<Hit<K>>)
    ensures forall i, j | 0 <= i < j < |Group(hs).keys| :: FirstIndex(hs, Group(hs).keys[i]) < FirstIndex(hs, Group(hs).keys[j])
  {
    if |hs| > 0 {
      var init, x := Init(hs), Last(hs).url;
      GroupOrder(init);
      KeysKeepFirstIndex(hs);
      GroupStep(hs);
      var ks := Group(init).keys;
      var f, g := FirstSeen(init), FirstSeen(hs);
      KeepsOrder(ks, f, g);
      if x !in Group(init).aggs {
        AppendKeepsOrder(ks, x, g);
      }
    }
  }

  /** The groups in dictionary order, as report rows. */
  function RowsOf<K(==)>(t: Table<K>): (rows: seq<Row<K>>)
    requires forall k | 0 <= k < |t.keys| :: t.keys[k] in t.aggs
    ensures |rows| == |t.keys|
    ensures forall i | 0 <= i < |rows| ::
              rows[i] == Row(t.keys[i], t.aggs[t.keys[i]].count, t.aggs[t.keys[i]].timeSum, t.aggs[t.keys[i]].timeMax)
  {
    seq(|t.keys|, i requires 0 <= i < |t.keys| =>
      Row(t.keys[i], t.aggs[t.keys[i]].count, t.aggs[t.keys[i]].timeSum, t.aggs[t.keys[i]].timeMax))
  }

  /** Largest time sum first. */
  predicate SortedDesc<K(==)>(s: seq<Row<K>>) {
    forall i, j | 0 <= i < j < |s| :: s[i].timeSum >= s[j].timeSum
  }

  /** Place `x` after every row whose time sum is at least its own. */
  function Insert<K(==)>(s: seq<Row<K>>, x: Row<K>): (r: seq<Row<K>>)
    requires SortedDesc(s)
    ensures SortedDesc(r)
    ensures multiset(r) == multiset(s) + multiset{x}
    ensures |r| == |s| + 1
    ensures r[0] == (if |s| == 0 || s[0].timeSum < x.timeSum then x else s[0])
  {
    if |s| == 0 then [x]
    else if s[0].timeSum < x.timeSum then [x] + s
    else
      var rest := Insert(s[1..], x);
      assert s == [s[0]] + s[1..];
      assert forall k | 1 <= k < |s| :: s[k] == s[1..][k - 1];
      assert rest[0] == x || rest[0] == s[1];
      [s[0]] + rest
  }

  /** `sorted(rows, key=time_sum, reverse=True)`: a stable insertion sort,
      largest time sum first. */
  function SortDesc<K(==)>(rows: seq<Row<K>>): (r: seq<Row<K>>)
    ensures SortedDesc(r)
    ensures multiset(r) == multiset(rows)
    ensures |r| == |rows|
  {
    if |rows| == 0 then []
    else
      var init := rows[..|rows| - 1];
      assert rows == init + [rows[|rows| - 1]];
      Insert(SortDesc(init), rows[|rows| - 1])
  }

  /** Row `a` comes before row `b` in the order the sort must produce when
      the input is ordered by `rank`: larger time sum first, and on equal
      sums the smaller rank. */
  predicate Precedes<K(==)>(a: Row<K>, b: Row<K>, rank: K -> nat) {
    a.timeSum > b.timeSum || (a.timeSum == b.timeSum && rank(a.url) < rank(b.url))
  }

  predicate RankSorted<K(==)>(s: seq<Row<K>>, rank: K -> nat) {
    forall i, j | 0 <= i < j < |s| :: Precedes(s[i], s[j], rank)
  }

  /** Inserting a row ranked after all others keeps the rank order. */
  lemma {:induction false} InsertKeepsTies<K>(s: seq<Row<K>>, x: Row<K>, rank: K -> nat)
    requires SortedDesc(s) && RankSorted(s, rank)
    requires forall k | 0 <= k < |s| :: rank(s[k].url) < rank(x.url)
    ensures RankSorted(Insert(s, x), rank)
  {
    if |s| > 0 && s[0].timeSum >= x.timeSum {
      var tail := s[1..];
      assert forall k | 0 <= k < |tail| :: tail[k] == s[k + 1];
      InsertKeepsTies(tail, x, rank);
      var r := Insert(s, x);
      assert r == [s[0]] + Insert(tail, x);
      assert multiset(Insert(tail, x)) == multiset(tail) + multiset{x};
      forall j | 1 <= j < |r|
        ensures Precedes(r[0], r[j], rank)
      {
        assert r[j] in multiset(Insert(tail, x));
        assert r[j] == x || r[j] in multiset(tail);
        if r[j] != x {
          var k :| 0 <= k < |tail| && tail[k] == r[j];
          assert Precedes(s[0], s[k + 1], rank);
        }
      }
    }
  }

  /** The sort is stable: rows that come in rank order leave larger time sum
      first, and equal sums still in rank order. */
  lemma {:induction false} SortKeepsTies<K>(rows: seq<Row<K>>, rank: K -> nat)
    requires forall i, j | 0 <= i < j < |rows| :: rank(rows[i].url) < rank(rows[j].url)
    ensures RankSorted(SortDesc(rows), rank)
  {
    if |rows| > 0 {
      var init := rows[..|rows| - 1];
      var x := rows[|rows| - 1];
      SortKeepsTies(init, rank);
      var s := SortDesc(init);
      forall k | 0 <= k < |s|
        ensures rank(s[k].url) < rank(x.url)
      {
        assert s[k] in multiset(init);
        var m :| 0 <= m < |init| && init[m] == s[k];
      }
      InsertKeepsTies(s, x, rank);
    }
  }

  /** `sorted_stats[:n]`: Python's slice up to `n`, which for a negative `n`
      drops `-n` rows from the end. */
  function SliceTo<T>(s: seq<T>, n: int): (r: seq<T>)
    ensures n >= 0 ==> |r| == (if n <= |s| then n else |s|)
    ensures n < 0 ==> |r| == (if |s| + n >= 0 then |s| + n else 0)
    ensures r == s[..|r|]
  {
    if n >= 0 then (if n <= |s| then s[..n] else s)
    else if |s| + n >= 0 then s[..|s| + n] else []
  }

  /** All groups, sorted. */
  function Ranked<K(==)>(hs: seq<Hit<K>>): seq<Row<K>> {
    SortDesc(RowsOf(Group(hs)))
  }

  /** The report rows, without the float columns. */
  function ReportOf<K(==)>(hs: seq<Hit<K>>, reportSize: int): (rows: seq<Row<K>>)
    ensures SortedDesc(rows)
    ensures |rows| <= |Ranked(hs)| && rows == Ranked(hs)[..|rows|]
  {
    var ranked := Ranked(hs);
    var rows := SliceTo(ranked, reportSize);
    assert forall i | 0 <= i < |rows| :: rows[i] == ranked[i];
    rows
  }

  /** Every URL of the input has a row. */
  lemma RankedCovers<K>(hs: seq<Hit<K>>)
    ensures forall k | 0 <= k < |hs| :: exists i | 0 <= i < |Ranked(hs)| :: Ranked(hs)[i].url == hs[k].url
  {
    var t := Group(hs);
    var rows := RowsOf(t);
    var ranked := Ranked(hs);
    forall k | 0 <= k < |hs|
      ensures exists i | 0 <= i < |ranked| :: ranked[i].url == hs[k].url
    {
      var j :| 0 <= j < |t.keys| && t.keys[j] == hs[k].url;
      assert rows[j] in multiset(ranked);
      var i :| 0 <= i < |ranked| && ranked[i] == rows[j];
    }
  }

  /** Every row's URL occurs in the input, and the row holds that URL's
      count, time sum and largest time. */
  lemma RankedAggregates<K>(hs: seq<Hit<K>>)
    ensures forall i | 0 <= i < |Ranked(hs)| ::
              && FirstIndex(hs, Ranked(hs)[i].url) < |hs| && CountOf(hs, Ranked(hs)[i].url) >= 1
              && Ranked(hs)[i] == Row(Ranked(hs)[i].url, CountOf(hs, Ranked(hs)[i].url),
                                      SumOf(hs, Ranked(hs)[i].url), MaxOf(hs, Ranked(hs)[i].url))
  {
    var t := Group(hs);
    var rows := RowsOf(t);
    var ranked := Ranked(hs);
    GroupKeysOccur(hs);
    GroupAggregates(hs);
    forall i | 0 <= i < |ranked|
      ensures && FirstIndex(hs, ranked[i].url) < |hs| && CountOf(hs, ranked[i].url) >= 1
              && ranked[i] == Row(ranked[i].url, CountOf(hs, ranked[i].url), SumOf(hs, ranked[i].url), MaxOf(hs, ranked[i].url))
    {
      assert ranked[i] in multiset(rows);
      var j :| 0 <= j < |rows| && rows[j] == ranked[i];
      CountedIffPresent(hs, t.keys[j]);
    }
  }

  /** The rank of a URL: where it first occurs. */
  function FirstSeen<K(==,!new)>(hs: seq<Hit<K>>): (rank: K -> nat)
    ensures forall u :: rank(u) == FirstIndex(hs, u)
  {
    (u: K) => FirstIndex(hs, u)
  }

  /** The sorted groups run from largest time sum to smallest, and groups
      with equal sums keep first-seen order. */
  lemma RankedOrder<K(!new)>(hs: seq<Hit<K>>)
    ensures RankSorted(Ranked(hs), FirstSeen(hs))
  {
    var t := Group(hs);
    var rows := RowsOf(t);
    var rank := FirstSeen(hs);
    GroupOrder(hs);
    assert forall i | 0 <= i < |rows| :: rows[i].url == t.keys[i];
    assert forall i, j | 0 <= i < j < |rows| :: rank(rows[i].url) < rank(rows[j].url);
    SortKeepsTies(rows, rank);
  }

  /** No URL has two rows. */
  lemma RankedDistinct<K(!new)>(hs: seq<Hit<K>>)
    ensures forall i, j | 0 <= i < j < |Ranked(hs)| :: Ranked(hs)[i].url != Ranked(hs)[j].url
  {
    var ranked := Ranked(hs);
    RankedOrder(hs);
    RankedAggregates(hs);
    forall i, j | 0 <= i < j < |ranked|
      ensures ranked[i].url != ranked[j].url
    {
      assert Precedes(ranked[i], ranked[j], FirstSeen(hs));
    }
  }

  /** The URLs of the hits, as a set. */
  function UrlsOf<K(==)>(hs: seq<Hit<K>>): set<K> {
    set k | 0 <= k < |hs| :: hs[k].url
  }

  lemma UrlsOfStep<K>(hs: seq<Hit<K>>)
    requires |hs| > 0
    ensures UrlsOf(hs) == UrlsOf(Init(hs)) + {Last(hs).url}
  {
    var init := Init(hs);
    forall u | u in UrlsOf(hs)
      ensures u in UrlsOf(init) + {Last(hs).url}
    {
      var k :| 0 <= k < |hs| && hs[k].url == u;
      if k < |init| {
        assert init[k] == hs[k];
      }
    }
    forall u | u in UrlsOf(init)
      ensures u in UrlsOf(hs)
    {
      var k :| 0 <= k < |init| && init[k].url == u;
      assert hs[k] == init[k];
    }
    assert hs[|hs| - 1].url == Last(hs).url;
  }

  /** There is one group per distinct URL. */
  lemma {:induction false} GroupCount<K>(hs: seq<Hit<K>>)
    ensures Group(hs).aggs.Keys == UrlsOf(hs)
    ensures |Group(hs).keys| == |UrlsOf(hs)|
  {
    if |hs| > 0 {
      var init, x := Init(hs), Last(hs).url;
      GroupCount(init);
      GroupStep(hs);
      UrlsOfStep(hs);
      var t0 := Group(init);
      assert Group(hs) == Absorb(t0, Last(hs));
      if x in t0.aggs {
        assert UrlsOf(hs) == UrlsOf(init);
      } else {
        assert x !in UrlsOf(init);
        assert |UrlsOf(hs)| == |UrlsOf(init)| + 1;
      }
    }
  }

  /** Summed over the rows: how many requests, and how much time. */
  function CountTotal<K>(rows: seq<Row<K>>): nat {
    if |rows| == 0 then 0 else rows[0].count + CountTotal(rows[1..])
  }

  function TimeTotal<K>(rows: seq<Row<K>>): nat {
    if |rows| == 0 then 0 else rows[0].timeSum + TimeTotal(rows[1..])
  }

  /** `total_time`: the time of all hits. */
  function TimeOf<K>(hs: seq<Hit<K>>): nat {
    if |hs| == 0 then 0 else TimeOf(Init(hs)) + Last(hs).time
  }

  lemma {:induction false} TotalsAppend<K>(a: seq<Row<K>>, b: seq<Row<K>>)
    ensures CountTotal(a + b) == CountTotal(a) + CountTotal(b)
    ensures TimeTotal(a + b) == TimeTotal(a) + TimeTotal(b)
  {
    if |a| > 0 {
      assert (a + b)[1..] == a[1..] + b;
      TotalsAppend(a[1..], b);
    } else {
      assert a + b == b;
    }
  }

  lemma {:induction false} TotalsUpdate<K>(s: seq<Row<K>>, j: nat, r: Row<K>)
    requires j < |s|
    ensures CountTotal(s[j := r]) + s[j].count == CountTotal(s) + r.count
    ensures TimeTotal(s[j := r]) + s[j].timeSum == TimeTotal(s) + r.timeSum
  {
    if j > 0 {
      assert s[j := r][1..] == s[1..][j - 1 := r];
      TotalsUpdate(s[1..], j - 1, r);
    }
  }

  lemma {:induction false} TotalsInsert<K>(s: seq<Row<K>>, x: Row<K>)
    requires SortedDesc(s)
    ensures CountTotal(Insert(s, x)) == CountTotal(s) + x.count
    ensures TimeTotal(Insert(s, x)) == TimeTotal(s) + x.timeSum
  {
    if |s| > 0 && s[0].timeSum >= x.timeSum {
      var r := Insert(s, x);
      assert r[1..] == Insert(s[1..], x);
      TotalsInsert(s[1..], x);
    } else if |s| > 0 {
      assert ([x] + s)[1..] == s;
    }
  }

  lemma {:induction false} TotalsSort<K>(rows: seq<Row<K>>)
    ensures CountTotal(SortDesc(rows)) == CountTotal(rows)
    ensures TimeTotal(SortDesc(rows)) == TimeTotal(rows)
  {
    if |rows| > 0 {
      var init, x := rows[..|rows| - 1], rows[|rows| - 1];
      TotalsSort(init);
      TotalsInsert(SortDesc(init), x);
      assert rows == init + [x];
      TotalsAppend(init, [x]);
    }
  }

  /** Adding a hit to the dictionary adds one request and its time. */
  lemma AbsorbTotals<K>(t: Table<K>, h: Hit<K>)
    requires TableOk(t)
    ensures CountTotal(RowsOf(Absorb(t, h))) == CountTotal(RowsOf(t)) + 1
    ensures TimeTotal(RowsOf(Absorb(t, h))) == TimeTotal(RowsOf(t)) + h.time
  {
    var rows0, rows := RowsOf(t), RowsOf(Absorb(t, h));
    if h.url in t.aggs {
      var j :| 0 <= j < |t.keys| && t.keys[j] == h.url;
      AbsorbRowsKnown(t, h, j);
      TotalsUpdate(rows0, j, rows[j]);
    } else {
      var x := Row(h.url, 1, h.time, h.time);
      AbsorbRowsNew(t, h);
      TotalsAppend(rows0, [x]);
      assert CountTotal([x]) == 1 && TimeTotal([x]) == h.time;
    }
  }

  /** A hit on a known URL changes that URL's row and no other. */
  lemma AbsorbRowsKnown<K>(t: Table<K>, h: Hit<K>, j: nat)
    requires TableOk(t) && j < |t.keys| && t.keys[j] == h.url
    ensures RowsOf(Absorb(t, h)) == RowsOf(t)[j := RowsOf(Absorb(t, h))[j]]
  {
    var rows0, rows := RowsOf(t), RowsOf(Absorb(t, h));
    forall i | 0 <= i < |rows| && i != j
      ensures rows[i] == rows0[i]
    {
      assert t.keys[i] != h.url;
    }
  }

  /** A hit on a new URL appends one row for it. */
  lemma AbsorbRowsNew<K>(t: Table<K>, h: Hit<K>)
    requires TableOk(t) && h.url !in t.aggs
    ensures RowsOf(Absorb(t, h)) == RowsOf(t) + [Row(h.url, 1, h.time, h.time)]
  {
    var rows0, rows := RowsOf(t), RowsOf(Absorb(t, h));
    forall i | 0 <= i < |rows0|
      ensures rows[i] == rows0[i]
    {
      assert t.keys[i] != h.url;
    }
  }

  /** Grouping loses no request and no time. */
  lemma {:induction false} GroupTotals<K>(hs: seq<Hit<K>>)
    ensures CountTotal(RowsOf(Group(hs))) == |hs|
    ensures TimeTotal(RowsOf(Group(hs))) == TimeOf(hs)
  {
    if |hs| > 0 {
      GroupTotals(Init(hs));
      AbsorbTotals(Group(Init(hs)), Last(hs));
    }
  }

  /** The report's count and time columns, over all rows, account for every
      request and all the time: `count_perc` and `time_perc` are shares of
      `total_requests` and `total_time` that add up to 100. */
  lemma RankedTotals<K>(hs: seq<Hit<K>>)
    ensures CountTotal(Ranked(hs)) == |hs|
    ensures TimeTotal(Ranked(hs)) == TimeOf(hs)
  {
    GroupTotals(hs);
    TotalsSort(RowsOf(Group(hs)));
  }

  /** As many rows as asked for, up to the number of distinct URLs (or that
      many fewer for a negative size), none ranked below a row left out. */
  lemma ReportIsTop<K>(hs: seq<Hit<K>>, reportSize: int)
    ensures var n := |UrlsOf(hs)|;
      |ReportOf(hs, reportSize)| == if reportSize >= 0 then (if reportSize <= n then reportSize else n)
                                    else (if n + reportSize >= 0 then n + reportSize else 0)
    ensures forall i, j | 0 <= i < |ReportOf(hs, reportSize)| <= j < |Ranked(hs)| ::
              ReportOf(hs, reportSize)[i].timeSum >= Ranked(hs)[j].timeSum
  {
    GroupCount(hs);
  }

  /** `get_statistics_from_log_file`: the report rows, or
      `ZeroDivisionError` when there are requests but their total time is
      zero (`time_sum / total_time` for the first URL). */
  function Statistics<K(==)>(hs: seq<Hit<K>>, reportSize: int): (r: Result<seq<Row<K>>>)
    ensures r.Err? <==> |hs| > 0 && forall k | 0 <= k < |hs| :: hs[k].time == 0
    ensures r.Err? ==> r.exc == ZeroDivisionError
    ensures r.Ok? ==> r.value == ReportOf(hs, reportSize)
  {
    TimeOfZero(hs);
    if |hs| > 0 && TimeOf(hs) == 0 then Err(ZeroDivisionError) else Ok(ReportOf(hs, reportSize))
  }

  lemma {:induction false} TimeOfZero<K>(hs: seq<Hit<K>>)
    ensures TimeOf(hs) == 0 <==> forall k | 0 <= k < |hs| :: hs[k].time == 0
  {
    if |hs| > 0 {
      var init := Init(hs);
      TimeOfZero(init);
      assert forall k | 0 <= k < |init| :: init[k] == hs[k];
    }
  }

  /** `statistics.mean(times)` of a row, before rounding. */
  function TimeAvg<K>(r: Row<K>): (avg: real)
    requires r.count > 0
    ensures avg * r.count as real == r.timeSum as real
  {
    r.timeSum as real / r.count as real
  }

  /** The largest time is at least the mean: the time sum is at most count
      times the largest time. */
  lemma {:induction false} SumAtMostCountTimesMax<K>(hs: seq<Hit<K>>, u: K)
    ensures SumOf(hs, u) <= CountOf(hs, u) * MaxOf(hs, u)
  {
    if |hs| > 0 {
      var init, h := Init(hs), Last(hs);
      SumAtMostCountTimesMax(init, u);
      var c, m, m' := CountOf(init, u), MaxOf(init, u), MaxOf(hs, u);
      assert m <= m';
      MulMono(c, m, m');
      if h.url == u {
        assert h.time <= m';
        assert SumOf(hs, u) == SumOf(init, u) + h.time;
        assert CountOf(hs, u) == c + 1;
        MulSucc(c, m');
      } else {
        assert SumOf(hs, u) == SumOf(init, u) && CountOf(hs, u) == c;
      }
    }
  }

  lemma MulSucc(c: nat, m: nat)
    ensures (c + 1) * m == c * m + m
  {
  }

  lemma MulMono(c: nat, m: nat, m': nat)
    requires m <= m'
    ensures c * m <= c * m'
  {
  }

  /** A mean is at most any bound on the times it averages. */
  lemma AvgAtMost<K>(r: Row<K>)
    requires r.count > 0 && r.timeSum <= r.count * r.timeMax
    ensures TimeAvg(r) <= r.timeMax as real
  {
    var c, m, avg := r.count as real, r.timeMax as real, TimeAvg(r);
    assert avg * c <= m * c;
  }

  /** In every row the mean time is at most the largest time, and the largest
      time is at most the time sum. */
  lemma RankedAvgBounds<K>(hs: seq<Hit<K>>)
    ensures forall i | 0 <= i < |Ranked(hs)| :: Ranked(hs)[i].count > 0 && TimeAvg(Ranked(hs)[i]) <= Ranked(hs)[i].timeMax as real
    ensures forall i | 0 <= i < |Ranked(hs)| :: Ranked(hs)[i].timeMax <= Ranked(hs)[i].timeSum
  {
    var ranked := Ranked(hs);
    RankedAggregates(hs);
    forall i | 0 <= i < |ranked|
      ensures ranked[i].count > 0 && TimeAvg(ranked[i]) <= ranked[i].timeMax as real
      ensures ranked[i].timeMax <= ranked[i].timeSum
    {
      SumAtMostCountTimesMax(hs, ranked[i].url);
      MaxAtMostSum(hs, ranked[i].url);
      AvgAtMost(ranked[i]);
    }
  }

  lemma {:induction false} MaxAtMostSum<K>(hs: seq<Hit<K>>, u: K)
    ensures MaxOf(hs, u) <= SumOf(hs, u)
  {
    if |hs| > 0 {
      MaxAtMostSum(Init(hs), u);
    }
  }

  /** The hits a line reader's entries carry. */
  function Hits(es: seq<Entry>): (hs: seq<Hit<string>>)
    ensures |hs| == |es|
    ensures forall k | 0 <= k < |es| :: hs[k] == Hit(es[k].url, es[k].time)
  {
    seq(|es|, k requires 0 <= k < |es| => Hit(es[k].url, es[k].time))
  }

  /** The statistics of parsed log entries. */
  function EntryStatistics(es: seq<Entry>, reportSize: int): Result<seq<Row<string>>> {
    Statistics(Hits(es), reportSize)
  }

  /** Two URLs, the first requested twice with times 1 and 2, the second
      once with time 3: both have time sum 3, so they stay in first-seen
      order, and the first one's mean time is 1.5. */
  lemma TwoUrls<K>(a: K, b: K)
    requires a != b
    ensures Statistics([Hit(a, 1), Hit(a, 2), Hit(b, 3)], 2) == Ok([Row(a, 2, 3, 2), Row(b, 1, 3, 3)])
    ensures TimeAvg(Row(a, 2, 3, 2)) == 1.5
  {
    var ra, rb := Row(a, 2, 3, 2), Row(b, 1, 3, 3);
    TwoUrlsGrouped(a, b);
    SortPair(ra, rb);
    var hs := [Hit(a, 1), Hit(a, 2), Hit(b, 3)];
    assert Ranked(hs) == [ra, rb];
    assert hs[2].time != 0;
    assert ReportOf(hs, 2) == [ra, rb];
    assert 3.0 / 2.0 == 1.5;
  }

  lemma TwoUrlsGrouped<K>(a: K, b: K)
    requires a != b
    ensures RowsOf(Group([Hit(a, 1), Hit(a, 2), Hit(b, 3)])) == [Row(a, 2, 3, 2), Row(b, 1, 3, 3)]
  {
    var x, y, z := Hit(a, 1), Hit(a, 2), Hit(b, 3);
    GroupSnoc([], x);
    assert [] + [x] == [x];
    GroupSnoc([x], y);
    assert [x] + [y] == [x, y];
    GroupSnoc([x, y], z);
    assert [x, y] + [z] == [x, y, z];
    var t := Group([x, y, z]);
    assert t.keys == [a, b] && t.aggs[a] == Agg(2, 3, 2) && t.aggs[b] == Agg(1, 3, 3);
    var rows := RowsOf(t);
    assert |rows| == 2 && rows[0] == Row(a, 2, 3, 2) && rows[1] == Row(b, 1, 3, 3);
  }

  /** Grouping one more hit is absorbing it into the dictionary so far. */
  lemma GroupSnoc<K>(hs: seq<Hit<K>>, h: Hit<K>)
    ensures Group(hs + [h]) == Absorb(Group(hs), h)
  {
    assert Init(hs + [h]) == hs;
  }

  /** Two rows already largest-first are left as they are (a tie keeps the
      first one first). */
  lemma SortPair<K>(x: Row<K>, y: Row<K>)
    requires x.timeSum >= y.timeSum
    ensures SortDesc([x, y]) == [x, y]
  {
    assert [x, y][..1] == [x];
    assert SortDesc([x]) == [x] by {
      assert [x][..0] == [];
    }
    assert Insert([x], y) == [x] + Insert([], y);
  }

  /** With no requests there is no row and no error. */
  lemma NoRequests<K>(hs: seq<Hit<K>>, reportSize: int)
    requires |hs| == 0
    ensures Statistics(hs, reportSize) == Ok([])
  {
  }
}

=== FILE: store.dfy ===
/** The scoring service's key-value store: a Redis backend seen as a map of
    strings plus a stream of faults, the `retry_on_connection_error` wrapper,
    and the three `Store` operations built on them. */
module Store {
  import opened Outcomes

  /** What a failing backend call raises: `redis.ConnectionError`, or any
      other `redis.RedisError`. */
  datatype Fault = ConnectionFault | OtherRedisFault

  function FaultExc(f: Fault): (e: Exc)
    ensures e == ConnectionError || e == RedisError
  {
    match f
    case ConnectionFault => ConnectionError
    case OtherRedisFault => RedisError
  }

  /** The backend: the stored strings, their time-to-live in seconds as last
      set, and the fault oracle. The `k`-th backend call from now fails with
      `faults[k]` when that slot holds a fault; calls past the end succeed. */
  datatype Backend = Backend(data: map<string, string>, ttl: map<string, int>, faults: seq<Option<Fault>>)

  /** The fault the next backend call meets, if any. */
  function FaultAt(b: Backend, k: nat): Option<Fault> {
    if k < |b.faults| then b.faults[k] else None
  }

  /** The backend after `n` calls have consumed their fault slots. */
  function Consume(b: Backend, n: nat): (b': Backend)
    ensures b'.data == b.data && b'.ttl == b.ttl
    ensures forall k: nat :: FaultAt(b', k) == FaultAt(b, n + k)
  {
    Backend(b.data, b.ttl, if n <= |b.faults| then b.faults[n..] else [])
  }

  /** The same stored data with no faults to come. */
  function Healthy(b: Backend): (h: Backend)
    ensures h.data == b.data && forall k: nat :: FaultAt(h, k).None?
  {
    Backend(b.data, b.ttl, [])
  }

  /** `redis.get(key)` on a healthy backend. */
  function Read(b: Backend, key: string): Option<string> {
    if key in b.data then Some(b.data[key]) else None
  }

  /** What one call of the wrapped function did. */
  datatype Attempt<T> = Returns(value: T) | Throws(exc: Exc)

  /** What the wrapper did: returned a value, fell through to `return None`, or raised. */
  datatype Retried<T> = Value(value: T) | NoneResult | Raised(exc: Exc)

  /** The wrapper's outcome and how many times it called the wrapped function. */
  datatype RetryRun<T> = RetryRun(outcome: Retried<T>, calls: nat)

  /** The `while retries < max_retries` loop of `retry_on_connection_error`
      after `retries` connection errors; `attempt(k)` is what the `k`-th call
      does. */
  function RetryFrom<T>(maxRetries: int, retries: nat, attempt: nat -> Attempt<T>): (r: RetryRun<T>)
    requires retries == 0 || retries < maxRetries
    ensures retries >= maxRetries ==> r == RetryRun(NoneResult, retries)
    ensures retries < maxRetries ==> retries < r.calls <= maxRetries && !r.outcome.NoneResult?
    ensures forall k | retries <= k < r.calls - 1 :: attempt(k) == Throws(ConnectionError)
    ensures r.outcome.Value? ==> attempt(r.calls - 1) == Returns(r.outcome.value)
    ensures r.outcome.Raised? ==> attempt(r.calls - 1) == Throws(r.outcome.exc)
    ensures r.outcome.Raised? && r.outcome.exc == ConnectionError ==> r.calls == maxRetries
    decreases maxRetries - retries
  {
    if retries >= maxRetries then RetryRun(NoneResult, retries)
    else
      match attempt(retries)
      case Returns(v) => RetryRun(Value(v), retries + 1)
      case Throws(e) =>
        if e != ConnectionError || retries + 1 == maxRetries then RetryRun(Raised(e), retries + 1)
        else RetryFrom(maxRetries, retries + 1, attempt)
  }

  /** `retry_on_connection_error(max_retries)(func)()`: at most `max_retries`
      calls; the first value returned is the result; an exception other than
      `ConnectionError` escapes at once; `max_retries` consecutive connection
      errors re-raise the last; with `max_retries <= 0` nothing is called and
      the result is `None`. */
  function Retry<T>(maxRetries: int, attempt: nat -> Attempt<T>): (r: RetryRun<T>)
    ensures maxRetries <= 0 <==> r.calls == 0
    ensures maxRetries <= 0 ==> r.outcome == NoneResult
    ensures maxRetries > 0 ==> 1 <= r.calls <= maxRetries && !r.outcome.NoneResult?
    ensures forall k | 0 <= k < r.calls - 1 :: attempt(k) == Throws(ConnectionError)
    ensures r.outcome.Value? ==> attempt(r.calls - 1) == Returns(r.outcome.value)
    ensures r.outcome.Raised? ==> attempt(r.calls - 1) == Throws(r.outcome.exc)
    ensures r.outcome.Raised? && r.outcome.exc == ConnectionError ==> r.calls == maxRetries
    ensures 0 < r.calls < maxRetries ==> attempt(r.calls - 1) != Throws(ConnectionError)
  {
    RetryFrom(maxRetries, 0, attempt)
  }

  /** Two runs over attempts that agree on every call either run could make
      have the same outcome: the wrapper looks at nothing else. */
  lemma {:induction false} RetryDeterminedByAttempts<T>(maxRetries: int, retries: nat,
                                                        a1: nat -> Attempt<T>, a2: nat -> Attempt<T>)
    requires retries == 0 || retries < maxRetries
    requires forall k | retries <= k < maxRetries :: a1(k) == a2(k)
    ensures RetryFrom(maxRetries, retries, a1) == RetryFrom(maxRetries, retries, a2)
    decreases maxRetries - retries
  {
    if retries < maxRetries {
      assert a1(retries) == a2(retries);
      match a1(retries)
      case Returns(_) =>
      case Throws(e) =>
        if e == ConnectionError && retries + 1 < maxRetries {
          assert RetryFrom(maxRetries, retries, a1) == RetryFrom(maxRetries, retries + 1, a1);
          assert RetryFrom(maxRetries, retries, a2) == RetryFrom(maxRetries, retries + 1, a2);
          RetryDeterminedByAttempts(maxRetries, retries + 1, a1, a2);
        }
    }
  }

  /** The retries `Store.get` is wrapped with. */
  const GetRetries := 3

  /** The `k`-th call of the wrapped `Store.get`: `redis.get` on the backend
      as it is after `k` earlier calls. */
  function GetAttempt(b: Backend, key: string): nat -> Attempt<Option<string>> {
    (k: nat) =>
      match FaultAt(b, k)
      case Some(f) => Throws(FaultExc(f))
      case None => Returns(Read(b, key))
  }

  /** `Store.get(key)`: the stored string or `None`, retried on connection
      errors; every other Redis error escapes. The stored data is not changed. */
  function Get(b: Backend, key: string): (r: (Result<Option<string>>, Backend))
    ensures r.1.data == b.data && r.1.ttl == b.ttl
    ensures r.0.Ok? ==> r.0.value == Read(b, key)
    ensures FaultAt(b, 0).None? ==> r.0 == Ok(Read(b, key)) && r.1 == Consume(b, 1)
    ensures r.0.Err? <==> (exists k | 0 <= k < GetRetries ::
                             FaultAt(b, k) == Some(OtherRedisFault)
                             && forall j | 0 <= j < k :: FaultAt(b, j) == Some(ConnectionFault))
                          || (forall j | 0 <= j < GetRetries :: FaultAt(b, j) == Some(ConnectionFault))
  {
    var run := Retry(GetRetries, GetAttempt(b, key));
    var after := Consume(b, run.calls);
    match run.outcome
    case Value(v) => (Ok(v), after)
    case Raised(e) => (Err(e), after)
    case NoneResult => (Ok(None), after)
  }

  /** `Store.cache_get(key)`: one backend call; any Redis error reads as `None`. */
  function CacheGet(b: Backend, key: string): (r: (Option<string>, Backend))
    ensures r.1 == Consume(b, 1)
    ensures r.0 == (if FaultAt(b, 0).Some? then None else Read(b, key))
  {
    (if FaultAt(b, 0).Some? then None else Read(b, key), Consume(b, 1))
  }

  /** `Store.cache_set(key, value, timeout)`: one `setex` call; a Redis error
      leaves the data as it was and is swallowed. */
  function CacheSet(b: Backend, key: string, value: string, timeout: int): (b': Backend)
    ensures FaultAt(b, 0).None? ==> Read(b', key) == Some(value) && key in b'.ttl && b'.ttl[key] == timeout
    ensures FaultAt(b, 0).Some? ==> b'.data == b.data && b'.ttl == b.ttl
    ensures forall k | k != key :: Read(b', k) == Read(b, k)
    ensures forall k: nat :: FaultAt(b', k) == FaultAt(b, k + 1)
  {
    var rest := Consume(b, 1);
    if FaultAt(b, 0).Some? then rest
    else Backend(rest.data[key := value], rest.ttl[key := timeout], rest.faults)
  }

  /** Reading a key that was never stored gives `None`. */
  lemma GetMissing(b: Backend, key: string)
    requires key !in b.data && FaultAt(b, 0).None?
    ensures Get(b, key).0 == Ok(None)
  {
  }

  /** Two connection errors and then a healthy call: `Store.get` still
      returns the stored value, after three calls. */
  lemma GetRecoversAfterTwoConnectionErrors(b: Backend, key: string)
    requires |b.faults| >= 3
    requires b.faults[0] == Some(ConnectionFault) && b.faults[1] == Some(ConnectionFault)
    requires b.faults[2] == None
    ensures Get(b, key) == (Ok(Read(b, key)), Consume(b, 3))
  {
    var run := Retry(GetRetries, GetAttempt(b, key));
    assert GetAttempt(b, key)(0) == Throws(ConnectionError);
    assert GetAttempt(b, key)(1) == Throws(ConnectionError);
    assert GetAttempt(b, key)(2) == Returns(Read(b, key));
    assert run.calls == 3;
  }

  /** A value written by a healthy `cache_set` is what the next healthy
      `cache_get` and `get` return. */
  lemma {:induction false} CacheSetThenRead(b: Backend, key: string, value: string, timeout: int)
    requires FaultAt(b, 0).None? && FaultAt(b, 1).None?
    ensures CacheGet(CacheSet(b, key, value, timeout), key).0 == Some(value)
    ensures Get(CacheSet(b, key, value, timeout), key).0 == Ok(Some(value))
  {
    var b' := CacheSet(b, key, value, timeout);
    assert FaultAt(b', 0) == FaultAt(b, 1);
  }
}

=== FILE: text.dfy ===
/** Python's text primitives that the modelled code relies on: `str(int)`,
    `str.isspace`, `str.split()` (on whitespace), `str.split(sep)` and `str.strip()`. */
module Text {

  /** `str.isspace()` for one code point: the characters Python treats as
      whitespace in `str.split()`, `str.strip()` and the regular-expression class `\s`. */
  predicate IsSpace(c: char) {
    var n := c as int;
    n == 32 || 9 <= n <= 13 || 28 <= n <= 31 || n == 0x85 || n == 0xA0 || n == 0x1680
    || 0x2000 <= n <= 0x200A || n == 0x2028 || n == 0x2029 || n == 0x202F
    || n == 0x205F || n == 0x3000
  }

  /** An ASCII decimal digit. */
  predicate IsDigit(c: char) {
    '0' <= c <= '9'
  }

  predicate AllDigits(s: string) {
    forall i | 0 <= i < |s| :: IsDigit(s[i])
  }

  function DigitValue(c: char): (d: nat)
    requires IsDigit(c)
    ensures d < 10
  {
    (c as int) - ('0' as int)
  }

  function DigitChar(d: nat): (c: char)
    requires d < 10
    ensures IsDigit(c) && DigitValue(c) == d
  {
    ('0' as int + d) as char
  }

  function Pow10(k: nat): (p: nat)
    ensures p >= 1
  {
    if k == 0 then 1 else 10 * Pow10(k - 1)
  }

  /** The number an ASCII digit string denotes (what `int()` computes on it). */
  function Numeral(s: string): nat
    requires AllDigits(s)
  {
    if |s| == 0 then 0 else 10 * Numeral(s[..|s| - 1]) + DigitValue(s[|s| - 1])
  }

  /** `str(n)` for a non-negative integer: decimal digits without leading zeros. */
  function Natural(n: nat): (s: string)
    ensures |s| >= 1 && AllDigits(s)
    ensures n > 0 ==> s[0] != '0'
  {
    if n < 10 then [DigitChar(n)] else Natural(n / 10) + [DigitChar(n % 10)]
  }

  /** `str(i)` for any Python `int`. */
  function DecimalString(i: int): string {
    if i < 0 then "-" + Natural(-i) else Natural(i)
  }

  /** Reading back what `str` wrote gives the number again. */
  lemma {:induction false} NumeralOfNatural(n: nat)
    ensures Numeral(Natural(n)) == n
  {
    if n >= 10 {
      var s := Natural(n);
      assert s[..|s| - 1] == Natural(n / 10);
      NumeralOfNatural(n / 10);
    }
  }

  /** `str(n)` has `m + 1` digits and leads with the digit `d` exactly when
      `n` lies in the decade block `[d * 10^m, (d + 1) * 10^m)`. */
  lemma {:induction false} NaturalShape(n: nat, m: nat, d: nat)
    requires 1 <= d <= 9
    ensures (|Natural(n)| == m + 1 && Natural(n)[0] == DigitChar(d))
            <==> d * Pow10(m) <= n < (d + 1) * Pow10(m)
  {
    if m == 0 {
      if n >= 10 {
        assert |Natural(n / 10)| >= 1;
      }
    } else {
      var p := Pow10(m - 1);
      assert Pow10(m) == 10 * p;
      if n < 10 {
        assert d * Pow10(m) >= 10 * p by {
          MulAtLeast(d, 10 * p);
        }
      } else {
        NaturalShape(n / 10, m - 1, d);
        assert Natural(n)[0] == Natural(n / 10)[0];
        DecadeBlock(n, d, p);
        DecadeBlock(n, d + 1, p);
      }
    }
  }

  lemma MulAtLeast(d: nat, x: nat)
    requires d >= 1
    ensures d * x >= x
  {
  }

  /** `n` is below `k` blocks of `10 * p` exactly when `n / 10` is below `k`
      blocks of `p`. */
  lemma DecadeBlock(n: nat, k: nat, p: nat)
    ensures (k * (10 * p) <= n) == (k * p <= n / 10)
    ensures (n < k * (10 * p)) == (n / 10 < k * p)
  {
    var q := n / 10;
    assert n == 10 * q + n % 10;
    assert k * (10 * p) == 10 * (k * p);
  }

  /** `str(n)` is 11 characters long and starts with `7` exactly for the
      integers from 70000000000 to 79999999999. */
  lemma DecimalElevenSeven(n: int)
    ensures (|DecimalString(n)| == 11 && DecimalString(n)[0] == '7')
            <==> 70000000000 <= n <= 79999999999
  {
    if n >= 0 {
      NaturalShape(n, 10, 7);
      assert Pow10(10) == 10000000000;
    }
  }

  /** Zero-padded decimal of exactly `width` digits (as `%02d`/`%04d` print). */
  function Padded(n: nat, width: nat): (s: string)
    ensures |s| == width && AllDigits(s)
  {
    if width == 0 then "" else Padded(n / 10, width - 1) + [DigitChar(n % 10)]
  }

  /** Reading a padded numeral gives the number back when it fits in the width. */
  lemma {:induction false} NumeralOfPadded(n: nat, width: nat)
    requires n < Pow10(width)
    ensures Numeral(Padded(n, width)) == n
  {
    if width > 0 {
      var s := Padded(n, width);
      var q, r := n / 10, n % 10;
      assert n == 10 * q + r;
      assert Pow10(width) == 10 * Pow10(width - 1);
      assert q < Pow10(width - 1);
      assert s[..|s| - 1] == Padded(q, width - 1);
      assert DigitValue(s[|s| - 1]) == r;
      NumeralOfPadded(q, width - 1);
      assert Numeral(s) == 10 * Numeral(s[..|s| - 1]) + r;
    }
  }

  /** Number of occurrences of `c` in `s`. */
  function Occurrences(s: string, c: char): nat {
    if |s| == 0 then 0 else (if s[0] == c then 1 else 0) + Occurrences(s[1..], c)
  }

  /** `s.split(sep)` for a one-character separator: always at least one part,
      empty parts kept. */
  function SplitOn(s: string, sep: char): (parts: seq<string>)
    ensures |parts| >= 1
  {
    if |s| == 0 then [""]
    else
      var rest := SplitOn(s[1..], sep);
      if s[0] == sep then [""] + rest else [[s[0]] + rest[0]] + rest[1..]
  }

  /** `split` cuts at every occurrence of the separator and nowhere else. */
  lemma {:induction false} SplitOnCount(s: string, sep: char)
    ensures |SplitOn(s, sep)| == Occurrences(s, sep) + 1
  {
    if |s| > 0 {
      SplitOnCount(s[1..], sep);
    }
  }

  /** Without a separator, the one part is the whole string. */
  lemma {:induction false} SplitOnNone(s: string, sep: char)
    requires Occurrences(s, sep) == 0
    ensures SplitOn(s, sep) == [s]
  {
    if |s| > 0 {
      SplitOnNone(s[1..], sep);
      assert [s[0]] + s[1..] == s;
    }
  }

  /** The first part ends right before the first separator. */
  lemma {:induction false} SplitOnFirst(s: string, sep: char, i: nat)
    requires i < |s| && s[i] == sep && Occurrences(s[..i], sep) == 0
    ensures SplitOn(s, sep)[0] == s[..i]
    ensures SplitOn(s, sep)[1..] == SplitOn(s[i + 1..], sep)
  {
    if i > 0 {
      assert s[1..][..i - 1] == s[1..i];
      assert Occurrences(s[..i], sep) == (if s[0] == sep then 1 else 0) + Occurrences(s[1..i], sep) by {
        assert s[..i][1..] == s[1..i];
      }
      SplitOnFirst(s[1..], sep, i - 1);
      assert s[1..][i..] == s[i + 1..];
      assert [s[0]] + s[1..i] == s[..i];
    }
  }

  /** A separator-free piece, a separator and a rest split into the piece
      followed by the parts of the rest. */
  lemma SplitJoin(a: string, sep: char, rest: string)
    requires Occurrences(a, sep) == 0
    ensures SplitOn(a + [sep] + rest, sep) == [a] + SplitOn(rest, sep)
  {
    var s := a + [sep] + rest;
    assert s[..|a|] == a && s[|a|] == sep && s[|a| + 1..] == rest;
    SplitOnFirst(s, sep, |a|);
    var parts := SplitOn(s, sep);
    assert parts == [parts[0]] + parts[1..];
  }

  /** No occurrence means no position holds the character. */
  lemma {:induction false} NoOccurrence(s: string, c: char, j: nat)
    requires Occurrences(s, c) == 0 && j < |s|
    ensures s[j] != c
  {
    if j > 0 {
      NoOccurrence(s[1..], c, j - 1);
    }
  }

  /** The first position of `c` in `s`. */
  function IndexOf(s: string, c: char): (i: nat)
    requires Occurrences(s, c) > 0
    ensures i < |s| && s[i] == c && Occurrences(s[..i], c) == 0
  {
    if s[0] == c then 0
    else
      var j := IndexOf(s[1..], c);
      assert s[..j + 1][1..] == s[1..][..j];
      j + 1
  }

  lemma {:induction false} OccurrencesSplit(s: string, sep: char, i: nat)
    requires i <= |s|
    ensures Occurrences(s, sep) == Occurrences(s[..i], sep) + Occurrences(s[i..], sep)
  {
    if i > 0 {
      assert s[..i][1..] == s[1..][..i - 1];
      OccurrencesSplit(s[1..], sep, i - 1);
      assert s[1..][i - 1..] == s[i..];
    }
  }

  /** The longest prefix of `s` without whitespace. */
  function Word(s: string): (w: string)
    ensures |w| <= |s| && w == s[..|w|]
    ensures forall i | 0 <= i < |w| :: !IsSpace(w[i])
    ensures |w| < |s| ==> IsSpace(s[|w|])
  {
    if |s| == 0 || IsSpace(s[0]) then "" else [s[0]] + Word(s[1..])
  }

  /** `s.split()`: the maximal runs of non-whitespace, in order. */
  function Words(s: string): (ws: seq<string>)
    ensures forall k | 0 <= k < |ws| :: |ws[k]| >= 1
    decreases |s|
  {
    if |s| == 0 then []
    else if IsSpace(s[0]) then Words(s[1..])
    else var w := Word(s); [w] + Words(s[|w|..])
  }

  /** A whitespace-free word followed by whitespace or the end is read whole. */
  lemma {:induction false} WordOfConcat(a: string, b: string)
    requires forall i | 0 <= i < |a| :: !IsSpace(a[i])
    requires |b| == 0 || IsSpace(b[0])
    ensures Word(a + b) == a
  {
    if |a| > 0 {
      assert (a + b)[1..] == a[1..] + b;
      WordOfConcat(a[1..], b);
      assert [a[0]] + a[1..] == a;
    }
  }

  /** Leading whitespace does not change `split()`. */
  lemma {:induction false} WordsSkipSpace(sp: string, t: string)
    requires forall i | 0 <= i < |sp| :: IsSpace(sp[i])
    ensures Words(sp + t) == Words(t)
  {
    if |sp| > 0 {
      assert (sp + t)[0] == sp[0];
      assert (sp + t)[1..] == sp[1..] + t;
      WordsSkipSpace(sp[1..], t);
    } else {
      assert sp + t == t;
    }
  }

  predicate AllSpace(s: string) {
    forall i | 0 <= i < |s| :: IsSpace(s[i])
  }

  function TrimStart(s: string): (t: string)
    ensures |t| <= |s| && t == s[|s| - |t|..]
    ensures |t| > 0 ==> !IsSpace(t[0])
    ensures AllSpace(s[..|s| - |t|])
  {
    if |s| == 0 || !IsSpace(s[0]) then s
    else
      var t := TrimStart(s[1..]);
      TrimStartStep(s, t);
      t
  }

  /** Dropping one leading space before trimming the rest trims the whole. */
  lemma TrimStartStep(s: string, t: string)
    requires |s| > 0 && IsSpace(s[0])
    requires |t| <= |s| - 1 && t == s[1..][|s| - 1 - |t|..]
    requires AllSpace(s[1..][..|s| - 1 - |t|])
    ensures t == s[|s| - |t|..]
    ensures AllSpace(s[..|s| - |t|])
  {
    assert s[..|s| - |t|] == [s[0]] + s[1..][..|s| - 1 - |t|];
  }

  function TrimEnd(s: string): (t: string)
    ensures |t| <= |s| && t == s[..|t|]
    ensures |t| > 0 ==> !IsSpace(t[|t| - 1])
    ensures AllSpace(s[|t|..])
  {
    if |s| == 0 || !IsSpace(s[|s| - 1]) then s
    else
      var t := TrimEnd(s[..|s| - 1]);
      assert s[..|t|] == s[..|s| - 1][..|t|];
      assert s[|t|..] == s[..|s| - 1][|t|..] + [s[|s| - 1]];
      t
  }

  /** `s.strip()`. */
  function Strip(s: string): string {
    TrimEnd(TrimStart(s))
  }

  lemma {:induction false} TrimStartAllSpace(s: string)
    requires AllSpace(s)
    ensures TrimStart(s) == ""
  {
    if |s| > 0 {
      TrimStartAllSpace(s[1..]);
    }
  }

  /** `s.strip()` is empty exactly when every character of `s` is whitespace. */
  lemma StripEmpty(s: string)
    ensures Strip(s) == "" <==> AllSpace(s)
  {
    var a := TrimStart(s);
    if AllSpace(s) {
      TrimStartAllSpace(s);
    }
    if Strip(s) == "" {
      assert AllSpace(a[0..]);
      assert s == s[..|s| - |a|] + a;
    }
  }
}

=== FILE: validators.dfy ===
/** The field validators of the scoring API: each takes one non-null value
    and either accepts it, rejects it with a `ValidationError` message, or
    raises some other exception that escapes request construction. */
module Validators {
  import opened Outcomes
  import opened Text
  import opened Calendar
  import opened Values

  datatype Check = Pass | Reject(msg: string) | Crash(exc: Exc)

  const CharMsg := "Value should be a string"
  const ArgumentsMsg := "Value must be a dictionary (JSON object)"
  const EmailMsg := "Email must be in the format 'localpart@domainpart'"
  const PhoneTypeMsg := "Phone must be a string or an integer"
  const PhoneLengthMsg := "Phone must be contain exactly 11 digits"
  const PhonePrefixMsg := "Phone number must start with digit 7"
  const DateTypeMsg := "Date must be a string"
  const DateFormatMsg := "Date must be in the format '%d.%m.%Y' (e.g., 'dd.mm.yyyy')"
  const AgeMsg := "Age must be less than 70 years (birthday cannot be 70 years ago or earlier)"
  const GenderMsg := "Gender must be one of 0 (Unknown), 1 (Male), or 2 (Female)"
  const ClientIdsTypeMsg := "Client IDs must be a list"
  const ClientIdsEmptyMsg := "Client IDs list cannot be empty"
  const ClientIdsElementMsg := "All elements in Client IDs list must be integers"

  /** The age bound of a birthday, in calendar years. */
  const MaxAgeYears: nat := 70

  /** `isinstance(v, int)`: Python's `bool` is a subclass of `int`. */
  predicate IsPyInt(v: Json) {
    v.JInt? || v.JBool?
  }

  /** A string that `split("@")` cuts into exactly two non-empty parts:
      one `@`, neither first nor last. */
  predicate EmailShape(s: string) {
    |s| > 0 && Occurrences(s, '@') == 1 && s[0] != '@' && s[|s| - 1] != '@'
  }

  function CheckChar(v: Json): (c: Check)
    ensures c == Pass <==> v.JStr?
    ensures c != Pass ==> c == Reject(CharMsg)
  {
    if v.JStr? then Pass else Reject(CharMsg)
  }

  function CheckArguments(v: Json): (c: Check)
    ensures c == Pass <==> v.JObj?
    ensures c != Pass ==> c == Reject(ArgumentsMsg)
  {
    if v.JObj? then Pass else Reject(ArgumentsMsg)
  }

  /** `EmailField.validate`: the string check first, then the `@` split. */
  function CheckEmail(v: Json): (c: Check)
    ensures c == Pass <==> v.JStr? && EmailShape(v.s)
    ensures !v.JStr? ==> c == Reject(CharMsg)
    ensures v.JStr? && !EmailShape(v.s) ==> c == Reject(EmailMsg)
  {
    if !v.JStr? then Reject(CharMsg)
    else
      var parts := SplitOn(v.s, '@');
      EmailSplit(v.s);
      if |parts| != 2 || parts[0] == "" || parts[1] == "" then Reject(EmailMsg) else Pass
  }

  /** Two non-empty parts around `@` is exactly the shape `EmailShape` describes. */
  lemma EmailSplit(s: string)
    ensures (|SplitOn(s, '@')| == 2 && SplitOn(s, '@')[0] != "" && SplitOn(s, '@')[1] != "")
            <==> EmailShape(s)
  {
    SplitOnCount(s, '@');
    if Occurrences(s, '@') == 1 {
      var i := IndexOf(s, '@');
      SplitOnFirst(s, '@', i);
      OccurrencesSplit(s, '@', i);
      assert s[i..] == [s[i]] + s[i + 1..];
      assert Occurrences(s[i + 1..], '@') == 0;
      SplitOnNone(s[i + 1..], '@');
      var parts := SplitOn(s, '@');
      assert parts == [parts[0]] + parts[1..];
      assert parts[1] == s[i + 1..];
      if i > 0 {
        NoOccurrence(s[..i], '@', 0);
      }
      if i < |s| - 1 {
        NoOccurrence(s[i + 1..], '@', |s| - 1 - (i + 1));
      }
    }
  }

  /** `str(v)` for the values `PhoneField` lets past its type check. */
  function PhoneText(v: Json): string
    requires v.JStr? || IsPyInt(v)
  {
    match v
    case JStr(s) => s
    case JInt(i) => DecimalString(i)
    case JBool(b) => BoolText(b)
  }

  /** Which values `str` turns into eleven characters starting with `7`. */
  lemma PhoneTextShape(v: Json)
    requires v.JStr? || IsPyInt(v)
    ensures (|PhoneText(v)| == 11 && PhoneText(v)[0] == '7')
            <==> ((v.JStr? && |v.s| == 11 && v.s[0] == '7')
                  || (v.JInt? && 70000000000 <= v.i <= 79999999999))
  {
    if v.JInt? {
      DecimalElevenSeven(v.i);
    }
  }

  /** `PhoneField.validate`: type, then length 11, then a leading `7`. */
  function CheckPhone(v: Json): (c: Check)
    ensures c == Pass <==> ((v.JStr? && |v.s| == 11 && v.s[0] == '7')
                           || (v.JInt? && 70000000000 <= v.i <= 79999999999))
    ensures !v.JStr? && !IsPyInt(v) ==> c == Reject(PhoneTypeMsg)
    ensures v.JBool? ==> c == Reject(PhoneLengthMsg)
  {
    if !v.JStr? && !IsPyInt(v) then Reject(PhoneTypeMsg)
    else
      var text := PhoneText(v);
      PhoneTextShape(v);
      if |text| != 11 then Reject(PhoneLengthMsg)
      else if text[0] != '7' then Reject(PhonePrefixMsg)
      else Pass
  }

  /** `DateField.validate`: a string that `strptime(_, "%d.%m.%Y")` accepts. */
  function CheckDate(v: Json): (c: Check)
    ensures c == Pass <==> v.JStr? && ParseDotted(v.s).Some?
    ensures !v.JStr? ==> c == Reject(DateTypeMsg)
    ensures v.JStr? && ParseDotted(v.s).None? ==> c == Reject(DateFormatMsg)
  {
    if !v.JStr? then Reject(DateTypeMsg)
    else if ParseDotted(v.s).None? then Reject(DateFormatMsg)
    else Pass
  }

  /** `BirthDayField.validate`: a date string strictly later than the same day
      seventy calendar years before `today`. */
  function CheckBirthday(v: Json, today: Date): (c: Check)
    requires Valid(today)
    ensures CheckDate(v) != Pass ==> c == CheckDate(v)
    ensures c == Pass <==> CheckDate(v) == Pass && today.year > MaxAgeYears
                           && Before(YearsEarlier(today, MaxAgeYears).value, ParseDotted(v.s).value)
    ensures c.Crash? <==> CheckDate(v) == Pass && today.year <= MaxAgeYears
  {
    match CheckDate(v)
    case Pass =>
      var birthday := ParseDotted(v.s).value;
      (match YearsEarlier(today, MaxAgeYears)
       case Err(e) => Crash(e)
       case Ok(cutoff) => if !Before(cutoff, birthday) then Reject(AgeMsg) else Pass)
    case other => other
  }

  /** `GenderField.validate`: `value not in GENDERS` on a dict keyed 0, 1, 2.
      Booleans and whole floats hash equal to those integers; lists and
      objects are unhashable, so the membership test raises `TypeError`. */
  function CheckGender(v: Json): (c: Check)
    ensures c == Pass <==> v in {JInt(0), JInt(1), JInt(2), JBool(false), JBool(true),
                                  JFloat(0.0), JFloat(1.0), JFloat(2.0)}
    ensures c.Crash? <==> v.JList? || v.JObj?
    ensures c.Crash? ==> c.exc == TypeError
    ensures c.Reject? ==> c.msg == GenderMsg
  {
    match v
    case JInt(i) => if 0 <= i <= 2 then Pass else Reject(GenderMsg)
    case JBool(_) => Pass
    case JFloat(r) => if r == 0.0 || r == 1.0 || r == 2.0 then Pass else Reject(GenderMsg)
    case JList(_) => Crash(TypeError)
    case JObj(_) => Crash(TypeError)
    case _ => Reject(GenderMsg)
  }

  /** `ClientIDsField.validate`: a non-empty list of integers, checked in that order. */
  function CheckClientIds(v: Json): (c: Check)
    ensures c == Pass <==> v.JList? && |v.items| > 0
                           && forall k | 0 <= k < |v.items| :: IsPyInt(v.items[k])
    ensures !v.JList? ==> c == Reject(ClientIdsTypeMsg)
    ensures v.JList? && |v.items| == 0 ==> c == Reject(ClientIdsEmptyMsg)
    ensures !c.Crash?
  {
    if !v.JList? then Reject(ClientIdsTypeMsg)
    else if |v.items| == 0 then Reject(ClientIdsEmptyMsg)
    else if forall k | 0 <= k < |v.items| :: IsPyInt(v.items[k]) then Pass
    else Reject(ClientIdsElementMsg)
  }

  /** `field.validate(value)` dispatched on the descriptor's class. */
  function Validate(kind: Kind, v: Json, today: Date): Check
    requires Valid(today)
  {
    match kind
    case CharField => CheckChar(v)
    case ArgumentsField => CheckArguments(v)
    case EmailField => CheckEmail(v)
    case PhoneField => CheckPhone(v)
    case DateField => CheckDate(v)
    case BirthDayField => CheckBirthday(v, today)
    case GenderField => CheckGender(v)
    case ClientIDsField => CheckClientIds(v)
  }
  /** A phone, email or date that passes validation is truthy: none of
      them accepts an empty string, zero or `False`. */
  lemma PassingValueTruthy(kind: Kind, v: Json, today: Date)
    requires Valid(today) && kind in {PhoneField, EmailField, DateField, BirthDayField}
    requires Validate(kind, v, today) == Pass
    ensures Truthy(Val(v))
  {
  }

  /** A birthday exactly seventy calendar years before today is refused. */
  lemma BirthdaySeventyYearsRejected(today: Date)
    requires Valid(today) && today.year > MaxAgeYears
    requires Valid(Date(today.year - MaxAgeYears, today.month, today.day))
    ensures CheckBirthday(JStr(FormatDotted(Date(today.year - MaxAgeYears, today.month, today.day))), today)
            == Reject(AgeMsg)
  {
    ParseFormatDotted(Date(today.year - MaxAgeYears, today.month, today.day));
  }

  /** A birthday exactly sixty-nine calendar years before today is accepted. */
  lemma BirthdaySixtyNineYearsAccepted(today: Date)
    requires Valid(today) && today.year > MaxAgeYears
    requires Valid(Date(today.year - 69, today.month, today.day))
    ensures CheckBirthday(JStr(FormatDotted(Date(today.year - 69, today.month, today.day))), today) == Pass
  {
    ParseFormatDotted(Date(today.year - 69, today.month, today.day));
  }

  /** On 29 February 2024 the cutoff is 28 February 1954: that day is refused,
      1 March 1954 is accepted. */
  lemma BirthdayLeapDayCutoff()
    ensures CheckBirthday(JStr(FormatDotted(Date(1954, 2, 28))), Date(2024, 2, 29)) == Reject(AgeMsg)
    ensures CheckBirthday(JStr(FormatDotted(Date(1954, 3, 1))), Date(2024, 2, 29)) == Pass
  {
    ParseFormatDotted(Date(1954, 2, 28));
    ParseFormatDotted(Date(1954, 3, 1));
  }
}

=== FILE: values.dfy ===
/** The Python values the scoring service handles: decoded JSON, the
    class-level `Field` descriptors, and `datetime` objects; plus the foreign
    functions (hashes, JSON decoding, `repr`) the service calls. */
module Values {
  import opened Outcomes
  import opened Text
  import opened Calendar

  /** A value `json.loads` produces. Floats are finite reals; objects have unique keys. */
  datatype Json =
    | JNull
    | JBool(b: bool)
    | JInt(i: int)
    | JFloat(r: real)
    | JStr(s: string)
    | JList(items: seq<Json>)
    | JObj(fields: map<string, Json>)

  /** The validator class of a field descriptor. */
  datatype Kind =
    | CharField | ArgumentsField | EmailField | PhoneField
    | DateField | BirthDayField | GenderField | ClientIDsField

  /** A field descriptor: `Kind(required=..., nullable=...)` declared on a request class. */
  datatype Field = Field(kind: Kind, required: bool, nullable: bool)

  /** A Python object as it reaches the modelled functions: a decoded JSON
      value (`JNull` is `None`), a class-level `Field` descriptor (what
      `getattr(request, name, None)` finds when the instance never got the
      attribute), or a `datetime`. */
  datatype PyValue = Val(json: Json) | FieldObject(field: Field) | DateTime(date: Date)

  const PyNone: PyValue := Val(JNull)

  /** Python truthiness. A `Field` descriptor defines neither `__bool__` nor
      `__len__`, so it is always true. */
  predicate Truthy(v: PyValue) {
    match v
    case Val(j) =>
      (match j
       case JNull => false
       case JBool(b) => b
       case JInt(i) => i != 0
       case JFloat(r) => r != 0.0
       case JStr(s) => s != ""
       case JList(items) => items != []
       case JObj(fields) => fields != map[])
    case FieldObject(_) => true
    case DateTime(_) => true
  }

  /** The library functions the service calls and this model does not
      define: SHA-512 and MD5 hex digests, `json.loads` (`None` where it
      raises `JSONDecodeError`) and `str` of floats, containers and datetimes. */
  datatype Env = Env(
    sha512: string -> string,
    md5: string -> string,
    loads: string -> Option<Json>,
    repr: PyValue -> string)

  function BoolText(b: bool): string {
    if b then "True" else "False"
  }

  /** `Field.__str__`. */
  function FieldText(f: Field): string {
    "Field(required=" + BoolText(f.required) + ", nullable=" + BoolText(f.nullable) + ")"
  }

  /** `str(v)`: exact for strings, integers, booleans, `None` and field
      descriptors; the foreign `repr` for the rest. */
  function Str(env: Env, v: PyValue): string {
    match v
    case Val(JStr(s)) => s
    case Val(JInt(i)) => DecimalString(i)
    case Val(JBool(b)) => BoolText(b)
    case Val(JNull) => "None"
    case FieldObject(f) => FieldText(f)
    case _ => env.repr(v)
  }
}
